=== FILE: README.md ===
# Dataset building and text cleaning for SEC credit agreements, in Dafny

This project models the pure logic in a small Python code base. The code base
downloads SEC exhibit documents, cleans them into plain text and splits them
into a training set and a locked evaluation set. Four pieces are modelled:

- **The locked evaluation list** of `data/data_cleaning.py`:
  - `deterministic_top_k` orders URLs by their MD5 hex digest and takes the
    first `k` (module `HashSort`).
  - The main block reconciles a saved list of fifteen evaluation URLs
    against the current URL file. Survivors keep their order, and a short
    list is topped up by digest order (`EvalLock`).
  - The list is written back to disk and read again by the next run
    (`TextFiles`).
  - Every fetched document is routed to the combined, eval and train
    outputs (`Dataset`).
- **The whitespace normalisation tail of `clean_html_to_text`** (`CleanHtml`).
  The copies in `data/data_cleaning.py` and `scripts/data_cleaning.py` are
  the same code.
- **`clean_and_format_text`** of `extract_amg_better.py` and its identical
  copy `archive/extract_amg_credit_agreement.py` (`Sections`). The steps are:
  1. collapse whitespace;
  2. group the `re.split` parts into sections;
  3. drop sections whose 50-character prefix was already seen;
  4. join the sections and delete the artifacts.
- **`clean_text`** of `extract_amg.py` (`AmgClean`). It collapses whitespace,
  then deletes three artifact patterns.

The modules that support them:

- `Wrappers`: `Option`.
- `Seqs`: subsequences, duplicates and filtering.
- `Text`: Python's `str.isspace`, `strip`, `split`, `join` and `replace`, the
  newline translation of text-mode files, and `re.sub` collapsing of a
  character class.
- `LexOrder`: Python's string comparison.
- `Patterns`: the `re.sub` deletions.
- `SpacingRuns`: a second, independent description of the first four steps
  of the tail. It reads the text once, as maximal runs of line ends, maximal
  runs of spaces, tabs and no-break spaces, and single other characters, and
  rewrites each piece on its own. `NormaliseSpacing` is proved equal to it.
- `Layout`: what whitespace normalisation keeps. The layout of a text
  (`Shape`) replaces every maximal whitespace run by one gap token and keeps
  every other character. A gap records whether its run holds a line break.
  `Words` is Python's `str.split()`: the maximal runs of non-whitespace.
  Two texts with the same layout have the same words.

Strings are `seq<char>`. MD5 is the parameter `hash`, and fetching a URL is
the parameter `fetch`. The result of `re.split` is the parameter `split`.

Where the code base holds two copies of the same code, one member models both,
and its row below cites the copy named first above. The rows for `UrlEntry`,
`ParseUrlLines`, `NormaliseSpacing` and `CleanTail` hold equally for lines 30-35 and 61
of `scripts/data_cleaning.py`. The `Sections` rows hold equally for
`archive/extract_amg_credit_agreement.py`, whose lines 21-53 match those of
`extract_amg_better.py`. The whitespace collapse at line 12 of `extract_amg.py`
is the same `Patterns.CollapseWhitespace`.

## Model

| member | source | states |
|---|---|---|
| HashSort.SortByHash | data/data_cleaning.py:59-61 | sorting by digest yields a list in non-decreasing digest order |
| HashSort.SortByHashPermutes | data/data_cleaning.py:59-61 | sorting neither loses nor duplicates a URL: the multiset of URLs is unchanged |
| HashSort.SortByHashStable | data/data_cleaning.py:59-61 | the sort is stable: URLs sharing a digest keep their input order |
| HashSort.TopK | data/data_cleaning.py:57-62 | returns exactly min(k, len(urls)) URLs, drawn from urls without repetition beyond their multiplicity, in non-decreasing digest order; no URL left out has a digest smaller than a selected one's |
| HashSort.TopKOrderIndependent | data/data_cleaning.py:57-62 | when digests are distinct, the selection depends only on the collection of URLs, not on their order in the file |
| LexOrder.Total | data/data_cleaning.py:61 | the comparison of digest strings is total: two different strings are ordered one way or the other |
| LexOrder.Transitive | data/data_cleaning.py:61 | the comparison of digest strings is transitive |
| TextFiles.FileLines | data/data_cleaning.py:75-76 | iterating over a file yields lines that concatenate back to its text; each is non-empty, and every line except possibly the last ends in its only newline |
| TextFiles.UrlEntry | data/data_cleaning.py:76 | a URL line gives at most one entry, and that entry is the line's stripped text, non-empty and stripped; it gives none exactly when the line is all whitespace or the raw line starts with `#` |
| TextFiles.ParseUrlLines | data/data_cleaning.py:76 | the URL list has at most one entry per line, each non-empty and stripped |
| TextFiles.ParseUrlLinesAppend | data/data_cleaning.py:76 | the URL filter treats each line on its own: parsing two blocks of lines is parsing each and appending |
| TextFiles.ReadUrlsAreLineEntries | data/data_cleaning.py:75-76 | every URL read from a file is non-empty, stripped, and holds no line break |
| TextFiles.EvalEntry | data/data_cleaning.py:81 | a saved eval line gives at most one entry, and that entry is the line's stripped text; it gives none exactly when the line is all whitespace |
| TextFiles.ParseEvalLines | data/data_cleaning.py:81 | the saved list has at most one entry per line, each non-empty and stripped |
| TextFiles.EvalFileText | data/data_cleaning.py:94 | the written file ends in a newline, and without that newline it splits on newlines back into the list when the list is non-empty and no entry holds a newline |
| TextFiles.EvalFileRoundTrip | data/data_cleaning.py:80-94 | the eval file is written as the entries joined by newlines plus a final newline; reading it back gives the same list when the entries are non-empty, stripped and single-line |
| EvalLock.Kept | data/data_cleaning.py:83 | the survivors are a subsequence of the saved list; each saved entry still in the URL list survives as often as it occurs in the saved list, every other entry not at all; with no saved file there are none |
| EvalLock.Remaining | data/data_cleaning.py:86 | the top-up pool is a subsequence of the URL list; each URL not among the survivors appears in it as often as in the URL list, every survivor not at all |
| EvalLock.Reconcile | data/data_cleaning.py:79-90 | survivors form a prefix in saved order; with 15 or more they are the whole list, untruncated; otherwise they are followed by min(15 - survivors, pool size) non-survivors in digest order, drawn from the pool without repeating a URL more often than the pool holds it; every entry is in the URL list; no URL left out has a digest below that of a topped-up entry, and, counting copies, no copy of the pool left undrawn has a digest below that of a drawn entry; a list shorter than fifteen holds every URL |
| EvalLock.AbsentIsEmpty | data/data_cleaning.py:79-90 | a missing eval file gives the same list as an empty one |
| EvalLock.TopUpSmallest | data/data_cleaning.py:85-88 | taking the first URLs of the pool in digest order leaves out no URL with a smaller digest than a taken one, also when the pool holds a URL more than once: no copy left over has a smaller digest than a taken one |
| EvalLock.SavedListPreserved | data/data_cleaning.py:83-88 | when every saved URL is still present, the whole saved list is the prefix of the new list: growing the URL file never reorders or drops locked entries |
| EvalLock.Idempotent | data/data_cleaning.py:78-94 | reconciling again with the written list as the saved list and the same URLs returns the same list |
| EvalLock.SizeWithoutDuplicates | data/data_cleaning.py:83-90 | without duplicates in the URL file and the saved list, the list has none either, and holds the survivors when there are at least fifteen, else min(15, number of URLs) entries |
| Dataset.RecordOf | data/data_cleaning.py:104-106 | a URL yields one record holding its fetched text, or none exactly when the fetch fails |
| Dataset.Records | scripts/data_cleaning.py:63-70 | the output has at most one record per URL, and each record is the successful fetch of a URL in the list |
| Dataset.RecordsAppend | scripts/data_cleaning.py:63-70 | each URL is handled on its own: the records of two lists appended are the records of each, appended |
| Dataset.FailedFetchSkipsOnlyThatUrl | scripts/data_cleaning.py:64-70 | a URL whose fetch fails is dropped and the records of all other URLs are unchanged; the same holds for the main loop of data/data_cleaning.py at lines 103-121 |
| Dataset.RecordsInUrlOrder | scripts/data_cleaning.py:63-70 | records come out in URL-list order, for exactly the URLs whose fetch succeeds |
| Dataset.RecordsIn | data/data_cleaning.py:112-117 | the eval (train) output is the subsequence of records whose URL is (is not) in the eval set |
| Dataset.Route | data/data_cleaning.py:103-121 | the loop writes every fetched record to the combined output and, in the same order, to eval when its URL is in the eval set and to train otherwise; eval and train together hold each record of the combined output exactly once |
| Dataset.RecordsInPartition | data/data_cleaning.py:111-117 | splitting the records into eval and train loses and duplicates none |
| Dataset.LoadUrls | data/data_cleaning.py:75-76 | the URLs read are non-empty, stripped, single-line strings |
| Dataset.LoadSaved | data/data_cleaning.py:79-81 | a saved list exists exactly when the eval file does, and every entry read from it is non-empty and stripped |
| Dataset.BuildDataset | data/data_cleaning.py:74-121 | one run: its eval list is the reconciled list of the URL file and the saved list, so the prefix, size and digest-order facts of `EvalLock.Reconcile` hold of it; the eval file it writes reads back to that list; the combined output holds the fetched records, and eval and train are the records whose URL is, and is not, on the list, each in the order of the combined output |
| Dataset.RerunKeepsEvalList | data/data_cleaning.py:78-94 | a second run that reads the eval file the first one wrote settles on the same list and writes the same file, whatever the fetches give |
| CleanHtml.RStripEach | data/data_cleaning.py:35 | each line is right-stripped, and there are as many lines out as in |
| CleanHtml.RStripLines | data/data_cleaning.py:35 | the lines of the result are the right-stripped lines of the text, and the characters other than whitespace are those of the text, in order |
| CleanHtml.NormaliseSpacing | data/data_cleaning.py:31-34 | after the replacements and collapses there is no carriage return, no no-break space, no two neighbouring spaces or tabs and no run of three newlines; the text is no longer than before; the layout is that of the input, so each whitespace run becomes one whitespace run that holds a line break exactly when the original did, and `split()` gives the same words; the result is the run-by-run reading `SpacingRuns.SpacingByRuns` of the input, so every maximal run of line ends becomes as many newlines as it holds line ends (a "\r\n" pair counting once) when there are one or two and exactly two newlines when there are three or more, every run of two or more spaces, tabs and no-break spaces becomes one space, a lone space or tab stays, a lone no-break space becomes a space, and every other character stays; a text with no carriage return, no no-break space, no three newlines in a row and no two neighbouring spaces or tabs comes back unchanged |
| CleanHtml.SpacingChars | data/data_cleaning.py:31-34 | no step brings back a no-break space or a carriage return, none lengthens the text, and the last leaves no two spaces or tabs side by side |
| CleanHtml.SpacingShape | data/data_cleaning.py:31-34 | each of the four steps keeps the layout and hence the words of the text |
| CleanHtml.SpacingNewlineRuns | data/data_cleaning.py:33-34 | the newline collapse leaves no run of three newlines and the space collapse after it creates none |
| CleanHtml.StripLinesKeepsChars | data/data_cleaning.py:35-36 | stripping every line and then the whole text introduces no character and never lengthens the text |
| CleanHtml.StripLinesNoAdjacent | data/data_cleaning.py:35-36 | the two strips keep spaces and tabs apart when they were apart before |
| CleanHtml.StripLinesTrimmed | data/data_cleaning.py:35-36 | after the two strips no line ends in whitespace and the text has no leading or trailing whitespace, whatever the input |
| CleanHtml.RStripLinesShape | data/data_cleaning.py:35 | on a text without carriage returns, stripping the end of every line drops the final whitespace run when it holds no line break and changes nothing else in the layout |
| CleanHtml.TailShape | data/data_cleaning.py:35-36 | the two strips remove exactly the leading and the trailing whitespace run of the layout |
| CleanHtml.CleanTail | data/data_cleaning.py:31-36 | the normalised text has no carriage return and no no-break space, no two neighbouring spaces or tabs, no line ending in whitespace, no leading or trailing whitespace, and is no longer than the input; its characters other than whitespace are exactly those of the input, in order; its layout is the input's without the leading and trailing whitespace run, and `split()` gives the same words; it is the run-by-run reading of the input (as for `NormaliseSpacing`) with every line right-stripped and the whole stripped |
| CleanHtml.NewlineRunsCapped | data/data_cleaning.py:33 | two newlines in a row stay two, and three become two: "a\n\nb" is kept and "a\n\n\nb" becomes "a\n\nb" |
| SpacingRuns.ReplacementsByRuns | data/data_cleaning.py:31-34 | the four replacements in sequence compute the run-by-run reading of the text, for every text |
| SpacingRuns.LineEndRunStep | data/data_cleaning.py:32-33 | a maximal run of line ends holding k line ends comes out as k newlines, or two when k is three or more, in front of the normalised rest |
| SpacingRuns.LineEndsTranslate | data/data_cleaning.py:32 | a run made only of line ends translates to one newline per line end, "\r\n" counting once |
| SpacingRuns.BlankRunStep | data/data_cleaning.py:31-34 | a maximal run of n spaces, tabs and no-break spaces comes out as one space when n is two or more, and as the blank itself (a no-break space as a space) when n is one, in front of the normalised rest |
| SpacingRuns.OtherCharStep | data/data_cleaning.py:31-34 | a character that is neither a line end nor a blank comes through all four replacements unchanged, in front of the normalised rest |
| SpacingRuns.ReplacementsFixed | data/data_cleaning.py:31-34 | a text with no carriage return, no no-break space, no three newlines in a row and no two neighbouring spaces or tabs passes the four replacements unchanged |
| SpacingRuns.NewlineRunBetween | data/data_cleaning.py:33 | between two letters, a run of k newlines reads as k newlines, or two when k is three or more |
| CleanHtml.SpacesJoinInsideLine | data/data_cleaning.py:34 | a run of spaces inside a line becomes one space: "a  b" normalises to "a b" |
| CleanHtml.CleanTailNotIdempotent | data/data_cleaning.py:33-35 | the pass is not idempotent: "a\n\n \nb" becomes "a\n\n\nb", three newlines in a row, which a second pass turns into "a\n\nb" |
| Text.Strip | data/data_cleaning.py:36 | `str.strip` keeps the slice between the leading whitespace run and a trailing all-whitespace tail; the slice neither starts nor ends in whitespace, and is empty exactly when the text is all whitespace |
| Text.SplitOn | data/data_cleaning.py:35 | `split("\n")` gives at least one piece, no piece holds a newline, and joining the pieces with newlines gives back the text |
| Text.SplitJoin | data/data_cleaning.py:35 | conversely, splitting newline-joined pieces that hold no newline gives the pieces back |
| Text.ReplaceChar | data/data_cleaning.py:31 | `replace` of one character keeps the length and changes exactly the occurrences of that character, position by position |
| Text.TranslateNewlines | data/data_cleaning.py:32 | after the two replacements no carriage return is left, nothing but newlines is introduced, a text without carriage returns is unchanged, and the characters other than whitespace are unchanged, in order; splitting the result at newlines gives the lines of the input split at every `\r\n`, lone `\r` and lone `\n` |
| Text.SplitLineEnds | data/data_cleaning.py:32 | the reference line splitting, where `\r\n` counts as one line end: at least one line, none holding a line-end character |
| Text.TranslateSplit | data/data_cleaning.py:32 | the two replacements turn every line end, `\r\n` counted once, into exactly one newline and change nothing else |
| Text.Collapse | data/data_cleaning.py:33-34 | a run collapse introduces only characters of the text or of the replacement; a text with no character of the class is unchanged; a text that is one run becomes the replacement when the run is long enough and stays as it is otherwise; a first character outside the class stays first |
| Text.CollapseAppend | data/data_cleaning.py:33-34 | the collapse works run by run: two pieces that do not meet inside a run collapse to the two collapsed pieces, appended |
| Text.CollapseRunsBelow | data/data_cleaning.py:33 | with a replacement shorter than the threshold, no run of the threshold's length survives |
| Text.CollapseKeepsRunsBelow | data/data_cleaning.py:33-34 | collapsing spaces and tabs into a space neither joins nor lengthens runs of newlines |
| Text.CollapseShortRunsFixed | data/data_cleaning.py:33-34 | a text whose runs are all below the threshold is unchanged |
| Text.CollapseIdempotent | data/data_cleaning.py:33-34 | collapsing twice is collapsing once when the replacement is below the threshold |
| Layout.ReplaceCharShape | data/data_cleaning.py:31 | replacing one whitespace character by another with the same line-break status keeps the layout |
| Layout.ReplaceCrLfShape | data/data_cleaning.py:32 | replacing `\r\n` by `\n` keeps the layout |
| Layout.CollapseShape | data/data_cleaning.py:33-34 | replacing whitespace runs by a non-empty whitespace replacement with the same line-break status keeps the layout |
| Layout.StripShape | data/data_cleaning.py:36 | `strip()` removes exactly the leading and the trailing gap of the layout |
| Layout.SameShapeSameWords | data/data_cleaning.py:31-36 | texts with the same layout split into the same words |
| Text.CollapseKeepsOthers | data/data_cleaning.py:33-34 | a collapse that rewrites whitespace into whitespace keeps every other character, in order |
| Text.CollapseNoAdjacent | data/data_cleaning.py:34 | after replacing runs of two or more spaces and tabs by one space, no two neighbouring characters are both space or tab |
| Text.CollapseShorter | data/data_cleaning.py:33-34 | collapsing runs never lengthens the text |
| Patterns.CollapseWhitespace | extract_amg_better.py:12 | after `\s+` collapse no two neighbouring characters are whitespace, every whitespace character is a plain space, the characters other than whitespace are exactly those of the text, in order, and a text without whitespace is unchanged; every whitespace run became one space, so the layout and the words are the text's, and the result starts (ends) with a space exactly when the text starts (ends) with whitespace |
| Patterns.WhitespaceLayout | extract_amg_better.py:12 | the collapse keeps the layout, the words, and whether the text starts and ends with whitespace |
| Patterns.MatchLength | extract_amg_better.py:47-51 | a match of an artifact pattern lies inside the text and begins with the pattern's fixed opening |
| Patterns.PageNumberLength | extract_amg.py:16 | a bracketed page number match begins with `[` and lies inside the text |
| Patterns.RemainderLength | extract_amg.py:17 | a blank-page notice match begins with `[Remainder` and lies inside the text |
| Patterns.LiteralThenSpace | extract_amg.py:14 | a header match is the literal followed by the whole whitespace run after it, at least one character long; there is no match exactly when the text does not start with the literal followed by whitespace |
| Patterns.Delete | extract_amg_better.py:47-51 | a single-pass `re.sub(p, '', s)` only deletes: the result is a subsequence of the text |
| Patterns.DeleteUnchanged | extract_amg_better.py:47-51 | where the pattern's opening occurs nowhere, nothing is deleted |
| AmgClean.CleanText | extract_amg.py:12-19 | the output has no newline, tab or CR and its only whitespace is plain spaces; it is a subsequence of the collapsed text, no longer than the input, and stripped |
| AmgClean.CleanTextUnchanged | extract_amg.py:12-19 | a text with no whitespace and no `[` comes back unchanged |
| AmgClean.CollapseWhitespaceIdempotent | extract_amg.py:12 | collapsing whitespace twice is collapsing it once |
| AmgClean.CleanTextMayLeaveDoubleSpace | extract_amg.py:12-19 | deletions after the collapse can leave two spaces side by side: "a [1] b" becomes "a  b" |
| Sections.Sections | extract_amg_better.py:21-31 | every section is non-empty and stripped, and every section after the first starts with `Section`, `WHEREAS`, `NOW THEREFORE`, `IN WITNESS` or `ANNEX` |
| Sections.Step | extract_amg_better.py:22-28 | one part adds at most one section, non-empty and stripped, to the end of those finished; it adds one exactly when the part is not blank, opens a section, and the current section is not blank |
| Sections.FlushSections | extract_amg_better.py:30-31 | after the loop the current section is appended, stripped, exactly when it is not blank |
| Sections.GroupParts | extract_amg_better.py:21-31 | the groups, concatenated in order, are exactly the non-blank parts; every group is non-empty, and a part that opens a section stands at the head of every group but the first and nowhere else |
| Sections.SectionsAreGroups | extract_amg_better.py:21-31 | the loop's sections are exactly those groups, each concatenated and stripped: grouping drops and reorders no non-blank part |
| Sections.DedupFrom | extract_amg_better.py:36-41 | the loop keeps a subsequence of the sections whose keys are new and pairwise distinct |
| Sections.Key | extract_amg_better.py:38 | the key is the prefix of the section, fifty characters long or the whole section when it is shorter |
| Sections.Dedup | extract_amg_better.py:34-41 | the kept sections are an order-preserving subsequence, no longer than the input, with pairwise-distinct 50-character keys |
| Sections.DedupFirstOccurrences | extract_amg_better.py:36-41 | every key of the input is kept, and each kept section is the first one with its key |
| Sections.DedupIdempotent | extract_amg_better.py:34-41 | removing duplicates twice is removing them once |
| Sections.CleanAndFormatText | extract_amg_better.py:44-53 | the final text is stripped, and is a subsequence of the kept sections joined by blank lines |

## Left out

- Network access is a parameter. `requests`, `chardet` decoding, `time.sleep` and the exception handling are replaced by `fetch`, which gives the cleaned text or a failure. It is a function of the URL, so a URL listed twice is fetched with the same outcome both times.
- File I/O and encodings are not modelled. Files are decoded strings: reading applies Python's universal-newline translation and then splits after each newline. The JSON encoding of records is not modelled: a record is the pair (URL, text).
- HTML parsing with BeautifulSoup (`data/data_cleaning.py:13-28`) and NFKC normalisation (line 30) are not modelled. The tail's input is an arbitrary string.
- MD5 is the uninterpreted parameter `hash`. Its digests are compared by Python's string order.
- The regular-expression engine is not modelled for `re.split` at `extract_amg_better.py:19`. Its output is the parameter `split`.
- The five artifact patterns are modelled by a left-to-right scanner. It is single-pass, like `re.sub`, so the patterns may still occur in the output, and nothing claims they do not.
- Patterns.PageNumberLength: `\d` is taken to be an ASCII digit, while Python's `\d` also matches the other Unicode decimal digits.
- Progress and error messages (`print`) are not modelled.
- compress_credit_agreement.py and archive/exploratory_gemini.py are not part of this model. They are regex heuristics over parsed HTML and vendor API plumbing.
- No hash-modulo train/eval ratio split exists in the code, so none is modelled.
- Equal digests: the code has no tie-break by the URL itself when two digests are equal. The stable sort keeps input order, and that is what is modelled. TopKOrderIndependent therefore assumes distinct digests.

=== FILE: amg_clean.dfy ===
/** `clean_text` of extract_amg.py: collapse whitespace, delete the exhibit
    header, bracketed page numbers and the blank-page notice, then strip. */
module AmgClean {
  import opened Seqs
  import opened Text
  import opened Patterns

  function CleanText(text: string): (r: string)
    ensures forall c :: c in r && IsSpace(c) ==> c == ' '
    ensures '\n' !in r && '\t' !in r && '\r' !in r
    ensures IsSubseq(r, CollapseWhitespace(text)) && |r| <= |text|
    ensures IsStripped(r)
  {
    var collapsed := CollapseWhitespace(text);
    var a := Delete(ExhibitHeader, collapsed);
    var b := Delete(PageNumber, a);
    var c := Delete(RemainderNotice, b);
    var r := Strip(c);
    StripSubseq(c);
    SubseqTrans(r, c, b);
    SubseqTrans(r, b, a);
    SubseqTrans(r, a, collapsed);
    SubseqBounds(r, collapsed);
    r
  }

  /** With no whitespace and no `[` nothing can match, and the text comes
      back unchanged. */
  lemma CleanTextUnchanged(text: string)
    requires forall i :: 0 <= i < |text| ==> !IsSpace(text[i]) && text[i] != '['
    ensures CleanText(text) == text
  {
    assert CollapseWhitespace(text) == text;
    forall i | 0 <= i < |text|
      ensures !StartsWith(text[i..], Opening(ExhibitHeader))
    {
      assert |text[i..]| < 12 || text[i..][7] == text[i + 7] != ' ';
    }
    DeleteUnchanged(ExhibitHeader, text);
    forall p: Pattern, i | p in {PageNumber, RemainderNotice} && 0 <= i < |text|
      ensures !StartsWith(text[i..], Opening(p))
    {
      assert Opening(p)[0] == '[';
    }
    DeleteUnchanged(PageNumber, text);
    DeleteUnchanged(RemainderNotice, text);
    StripFixed(text);
  }

  /** Collapsing whitespace a second time changes nothing. */
  lemma CollapseWhitespaceIdempotent(s: string)
    ensures CollapseWhitespace(CollapseWhitespace(s)) == CollapseWhitespace(s)
  {
    CollapseFixed(CollapseWhitespace(s));
  }

  /** A text whose whitespace is already single spaces is its own collapse. */
  lemma {:induction false} CollapseFixed(s: string)
    requires NoAdjacent(s, IsSpace)
    requires forall c :: c in s && IsSpace(c) ==> c == ' '
    ensures Collapse(s, IsSpace, 1, " ") == s
    decreases |s|
  {
    if s != [] {
      NoAdjacentSlice(s, IsSpace, 1, |s|);
      assert s[1..|s|] == s[1..];
      CollapseFixed(s[1..]);
      if IsSpace(s[0]) {
        assert RunLen(s, IsSpace) == 1 by {
          assert |s| > 1 ==> !IsSpace(s[1]);
        }
        HeadTail(s);
      }
    }
  }

  /** The deletions run after the collapse, so they can leave two spaces
      side by side: the result is not whitespace-normalised. */
  lemma CleanTextMayLeaveDoubleSpace()
    ensures CleanText("a [1] b") == "a  b"
    ensures !NoAdjacent(CleanText("a [1] b"), IsSpace)
  {
    ExampleCollapse();
    ExampleNoHeader();
    ExampleDeletePageNumber();
    ExampleNoNotice();
    ExampleStrip();
    var t := "a  b";
    assert IsSpace(t[1]) && IsSpace(t[2]);
  }

  lemma ExampleCollapse()
    ensures CollapseWhitespace("a [1] b") == "a [1] b"
  {
    var s := "a [1] b";
    assert forall i :: 0 <= i < |s| ==> IsSpace(s[i]) ==> i == 1 || i == 5;
    CollapseFixed(s);
  }

  lemma ExampleNoHeader()
    ensures Delete(ExhibitHeader, "a [1] b") == "a [1] b"
  {
    var s := "a [1] b";
    forall i | 0 <= i < |s|
      ensures !StartsWith(s[i..], Opening(ExhibitHeader))
    {
      assert |s[i..]| < |Opening(ExhibitHeader)|;
    }
    DeleteUnchanged(ExhibitHeader, s);
  }

  lemma ExampleNoNotice()
    ensures Delete(RemainderNotice, "a  b") == "a  b"
  {
    var t := "a  b";
    forall i | 0 <= i < |t|
      ensures !StartsWith(t[i..], Opening(RemainderNotice))
    {
      assert t[i] != '[';
    }
    DeleteUnchanged(RemainderNotice, t);
  }

  lemma ExampleStrip()
    ensures Strip("a  b") == "a  b"
  {
    var t := "a  b";
    assert t[0] == 'a' && t[|t| - 1] == 'b';
    assert IsStripped(t);
    StripFixed(t);
  }

  lemma ExampleDeletePageNumber()
    ensures Delete(PageNumber, "a [1] b") == "a  b"
  {
    var s := "a [1] b";
    ExampleSpacePageNumber();
    assert s[1..] == " [1] b";
    assert MatchLength(PageNumber, s) == 0;
  }

  lemma ExampleSpacePageNumber()
    ensures Delete(PageNumber, " [1] b") == "  b"
  {
    var s := " [1] b";
    ExamplePageNumberMatch();
    assert s[1..] == "[1] b";
    assert MatchLength(PageNumber, s) == 0;
  }

  lemma ExamplePageNumberMatch()
    ensures Delete(PageNumber, "[1] b") == " b"
  {
    var s := "[1] b";
    assert RunLen("1] b", IsDigit) == 1 by {
      assert "1] b"[1..] == "] b";
    }
    assert s[1..] == "1] b";
    assert MatchLength(PageNumber, s) == 3;
    assert s[3..] == " b";
    forall i | 0 <= i < |" b"|
      ensures !StartsWith(" b"[i..], Opening(PageNumber))
    {
      assert " b"[i] != '[';
    }
    DeleteUnchanged(PageNumber, " b");
  }
}

=== FILE: clean_html.dfy ===
/** The whitespace normalisation at the end of `clean_html_to_text`
    (data/data_cleaning.py and its earlier copy scripts/data_cleaning.py).
    HTML block extraction and NFKC normalisation come before it and are
    not modelled: the input here is whatever text they produced. */
module CleanHtml {
  import opened Seqs
  import opened Text
  import opened Layout
  import opened SpacingRuns

  /** `[line.rstrip() for line in lines]`. */
  function RStripEach(lines: seq<string>): (r: seq<string>)
    ensures |r| == |lines|
    ensures forall i :: 0 <= i < |r| ==> r[i] == RStrip(lines[i])
    decreases |lines|
  {
    if lines == [] then [] else [RStrip(lines[0])] + RStripEach(lines[1..])
  }

  /** `"\n".join(line.rstrip() for line in s.split("\n"))`. */
  function RStripLines(s: string): (r: string)
    ensures SplitOn(r, '\n') == RStripEach(SplitOn(s, '\n'))
    ensures NonClass(r, IsSpace) == NonClass(s, IsSpace)
  {
    var lines := SplitOn(s, '\n');
    var stripped := RStripEach(lines);
    assert forall i :: 0 <= i < |stripped| ==>
             '\n' !in stripped[i] && NonClass(stripped[i], IsSpace) == NonClass(lines[i], IsSpace) by {
      forall i | 0 <= i < |stripped|
        ensures '\n' !in stripped[i] && NonClass(stripped[i], IsSpace) == NonClass(lines[i], IsSpace)
      {
        RStripKeepsOthers(lines[i]);
        assert forall c :: c in lines[i][..|stripped[i]|] ==> c in lines[i];
      }
    }
    SplitJoin(stripped, '\n');
    JoinKeepsOthers(stripped, lines, "\n", IsSpace);
    Join(stripped, "\n")
  }

  /** The first four steps of the tail: no-break spaces become spaces,
      line endings become `\n`, runs of three or more newlines become two,
      and runs of two or more spaces or tabs become one space. */
  function NormaliseSpacing(text: string): (r: string)
    ensures '\r' !in r && NoBreakSpace !in r
    ensures NoAdjacent(r, IsSpaceOrTab)
    ensures |r| <= |text|
    ensures NonClass(r, IsSpace) == NonClass(text, IsSpace)
    ensures Shape(r, IsLineEnd) == Shape(text, IsLineEnd)
    ensures Words(r) == Words(text)
    ensures RunsBelow(r, IsNewline, 3)
    ensures r == SpacingByRuns(text)
    ensures ('\r' !in text && NoBreakSpace !in text
             && RunsBelow(text, IsNewline, 3) && RunsBelow(text, IsSpaceOrTab, 2)) ==> r == text
  {
    var t1 := ReplaceChar(text, NoBreakSpace, ' ');
    var t2 := TranslateNewlines(t1);
    var t3 := Collapse(t2, IsNewline, 3, "\n\n");
    SpacingChars(text, t1, t2, t3);
    SpacingKeepsOthers(text, t1, t2, t3);
    SpacingShape(text, t1, t2, t3);
    SpacingNewlineRuns(t2, t3);
    ReplacementsByRuns(text);
    ReplacementsFixed(text);
    Collapse(t3, IsSpaceOrTab, 2, " ")
  }

  /** No step brings back a no-break space or a carriage return, none makes
      the text longer, and the last one leaves no two spaces or tabs side
      by side. */
  lemma SpacingChars(text: string, t1: string, t2: string, t3: string)
    requires t1 == ReplaceChar(text, NoBreakSpace, ' ')
    requires t2 == TranslateNewlines(t1)
    requires t3 == Collapse(t2, IsNewline, 3, "\n\n")
    ensures '\r' !in Collapse(t3, IsSpaceOrTab, 2, " ")
    ensures NoBreakSpace !in Collapse(t3, IsSpaceOrTab, 2, " ")
    ensures NoAdjacent(Collapse(t3, IsSpaceOrTab, 2, " "), IsSpaceOrTab)
    ensures |Collapse(t3, IsSpaceOrTab, 2, " ")| <= |text|
  {
    assert NoBreakSpace !in t1 by {
      forall i | 0 <= i < |t1|
        ensures t1[i] != NoBreakSpace
      {
      }
    }
    assert NoBreakSpace !in t2;
    CollapseAvoids(t2, IsNewline, 3, "\n\n", NoBreakSpace);
    CollapseAvoids(t3, IsSpaceOrTab, 2, " ", NoBreakSpace);
    CollapseAvoids(t2, IsNewline, 3, "\n\n", '\r');
    CollapseAvoids(t3, IsSpaceOrTab, 2, " ", '\r');
    CollapseShorter(t2, IsNewline, 3, "\n\n");
    CollapseShorter(t3, IsSpaceOrTab, 2, " ");
    CollapseNoAdjacent(t3, IsSpaceOrTab, 2, " ");
  }

  /** Every step of the normalisation turns whitespace runs into whitespace
      runs with the same line-break status, so the layout stays. */
  lemma SpacingShape(text: string, t1: string, t2: string, t3: string)
    requires t1 == ReplaceChar(text, NoBreakSpace, ' ')
    requires t2 == TranslateNewlines(t1)
    requires t3 == Collapse(t2, IsNewline, 3, "\n\n")
    ensures Shape(Collapse(t3, IsSpaceOrTab, 2, " "), IsLineEnd) == Shape(text, IsLineEnd)
    ensures Words(Collapse(t3, IsSpaceOrTab, 2, " ")) == Words(text)
  {
    ReplaceCharShape(text, NoBreakSpace, ' ', IsLineEnd);
    ReplaceCrLfShape(t1, IsLineEnd);
    ReplaceCharShape(ReplaceCrLf(t1), '\r', '\n', IsLineEnd);
    assert "\n\n"[0] == '\n';
    CollapseShape(t2, IsNewline, 3, "\n\n", IsLineEnd, true);
    HasBreakOne(' ', IsLineEnd);
    CollapseShape(t3, IsSpaceOrTab, 2, " ", IsLineEnd, false);
    SameShapeSameWords(Collapse(t3, IsSpaceOrTab, 2, " "), text, IsLineEnd);
  }

  /** The newline collapse leaves runs of at most two newlines, and the
      space collapse after it neither joins nor lengthens them. */
  lemma SpacingNewlineRuns(t2: string, t3: string)
    requires t3 == Collapse(t2, IsNewline, 3, "\n\n")
    ensures RunsBelow(Collapse(t3, IsSpaceOrTab, 2, " "), IsNewline, 3)
  {
    CollapseRunsBelow(t2, IsNewline, 3, "\n\n");
    CollapseKeepsRunsBelow(t3, IsSpaceOrTab, 2, " ", IsNewline, 3);
  }

  /** Every step of the normalisation rewrites whitespace into whitespace. */
  lemma SpacingKeepsOthers(text: string, t1: string, t2: string, t3: string)
    requires t1 == ReplaceChar(text, NoBreakSpace, ' ')
    requires t2 == TranslateNewlines(t1)
    requires t3 == Collapse(t2, IsNewline, 3, "\n\n")
    ensures NonClass(Collapse(t3, IsSpaceOrTab, 2, " "), IsSpace) == NonClass(text, IsSpace)
  {
    ReplaceCharKeepsOthers(text, NoBreakSpace, ' ', IsSpace);
    CollapseKeepsOthers(t2, IsNewline, IsSpace, 3, "\n\n");
    CollapseKeepsOthers(t3, IsSpaceOrTab, IsSpace, 2, " ");
  }

  /** The tail of `clean_html_to_text`: normalise the spacing, strip the end
      of every line, then strip the whole text. */
  function CleanTail(text: string): (r: string)
    ensures '\r' !in r && NoBreakSpace !in r
    ensures NoAdjacent(r, IsSpaceOrTab)
    ensures LinesTrimmed(r) && IsStripped(r)
    ensures |r| <= |text|
    ensures NonClass(r, IsSpace) == NonClass(text, IsSpace)
    ensures Shape(r, IsLineEnd) == TrimGaps(Shape(text, IsLineEnd))
    ensures Words(r) == Words(text)
    ensures r == Strip(RStripLines(SpacingByRuns(text)))
  {
    var t := NormaliseSpacing(text);
    var u := RStripLines(t);
    TailShape(t, u, Strip(u));
    TrimWords(Strip(u), text);
    StripKeepsOthers(u);
    StripLinesKeepsChars(t);
    StripLinesNoAdjacent(t);
    StripLinesTrimmed(t);
    Strip(u)
  }

  /** The rstrip pass drops only the break-free gap at the end of the text,
      and the final `strip()` drops the outer gaps, so the layout loses
      exactly its leading and trailing gap. */
  lemma TailShape(t: string, u: string, r: string)
    requires '\r' !in t
    requires u == RStripLines(t) && r == Strip(u)
    ensures Shape(r, IsLineEnd) == TrimGaps(Shape(t, IsLineEnd))
  {
    RStripLinesShape(t);
    StripShape(u, IsLineEnd);
    EndGapAfterChar(t, IsLineEnd);
    TailTokens(Shape(t, IsLineEnd), Shape(u, IsLineEnd), Shape(r, IsLineEnd));
  }

  lemma TailTokens(st: seq<Token>, su: seq<Token>, sr: seq<Token>)
    requires su == DropEndGap(st) && sr == TrimGaps(su)
    requires |st| >= 2 && st[|st| - 1].Gap? ==> st[|st| - 2].Char?
    ensures sr == TrimGaps(st)
  {
    TrimDropEnd(st);
  }

  /** Trimming the outer gaps of the layout loses no word. */
  lemma TrimWords(r: string, text: string)
    requires Shape(r, IsLineEnd) == TrimGaps(Shape(text, IsLineEnd))
    ensures Words(r) == Words(text)
  {
    WordsShape(r, IsLineEnd);
    WordsShape(text, IsLineEnd);
    TokenWordsTrim(Shape(text, IsLineEnd));
  }

  /** Without '\r', stripping the end of every line drops the final gap
      when it holds no line break, and changes nothing else in the layout. */
  lemma RStripLinesShape(s: string)
    requires '\r' !in s
    ensures Shape(RStripLines(s), IsLineEnd) == DropEndGap(Shape(s, IsLineEnd))
  {
    var lines := SplitOn(s, '\n');
    assert "\n" == ['\n'];
    LinesShape(lines);
  }

  lemma {:induction false} LinesShape(lines: seq<string>)
    requires |lines| >= 1
    requires forall i :: 0 <= i < |lines| ==> '\n' !in lines[i]
    requires '\r' !in Join(lines, "\n")
    ensures Shape(Join(RStripEach(lines), "\n"), IsLineEnd) == DropEndGap(Shape(Join(lines, "\n"), IsLineEnd))
    decreases |lines|
  {
    var l := lines[0];
    var rest := lines[1..];
    var x := RStrip(l);
    HeadTail(lines);
    assert Join(lines, "\n") == if rest == [] then l else l + "\n" + Join(rest, "\n") by {
      JoinCons(l, rest, "\n");
    }
    assert RStripEach(lines) == [x] + RStripEach(rest);
    assert Join(RStripEach(lines), "\n") == if rest == [] then x else x + "\n" + Join(RStripEach(rest), "\n") by {
      JoinCons(x, RStripEach(rest), "\n");
    }
    if rest == [] {
      LastLineShape(l);
    } else {
      LinesShape(rest);
      SplitAt(l, |x|);
      LineStep(x, l[|x|..], Join(rest, "\n"), Join(RStripEach(rest), "\n"));
    }
  }

  /** One line in front of the rest: if the rest's rstrip pass only drops
      its final break-free gap, so does the whole text's. */
  lemma LineStep(x: string, tail: string, y: string, y2: string)
    requires x == [] || !IsSpace(x[|x| - 1])
    requires AllSpace(tail)
    requires Shape(y2, IsLineEnd) == DropEndGap(Shape(y, IsLineEnd))
    ensures Shape(x + "\n" + y2, IsLineEnd) == DropEndGap(Shape(x + tail + "\n" + y, IsLineEnd))
  {
    LineThenShape(x, tail, y);
    assert x + [] == x;
    LineThenShape(x, [], y2);
    GapThenDrop(Shape(y, IsLineEnd));
    DropEndGapAppend(Shape(x, IsLineEnd), GapThen(true, Shape(y, IsLineEnd)));
  }

  /** The last line loses its trailing whitespace, a break-free gap. */
  lemma LastLineShape(l: string)
    requires '\n' !in l && '\r' !in l
    ensures Shape(RStrip(l), IsLineEnd) == DropEndGap(Shape(l, IsLineEnd))
  {
    var x := RStrip(l);
    LastLineParts(l, x, l[|x|..]);
  }

  lemma LastLineParts(l: string, x: string, tail: string)
    requires '\n' !in l && '\r' !in l
    requires |x| <= |l| && x == l[..|x|] && tail == l[|x|..]
    requires x == [] || !IsSpace(x[|x| - 1])
    requires forall i :: |x| <= i < |l| ==> IsSpace(l[i])
    ensures Shape(x, IsLineEnd) == DropEndGap(Shape(l, IsLineEnd))
  {
    if tail == [] {
      assert l == x;
      NoEndGap(x);
    } else {
      assert AllSpace(tail) by {
        assert forall j :: 0 <= j < |tail| ==> tail[j] == l[|x| + j];
      }
      assert l == x + tail by {
        SplitAt(l, |x|);
      }
      TrailShape(x, tail);
    }
  }

  lemma NoEndGap(x: string)
    requires x == [] || !IsSpace(x[|x| - 1])
    ensures DropEndGap(Shape(x, IsLineEnd)) == Shape(x, IsLineEnd)
  {
    if x != [] {
      ShapeEndsWithChar(x, IsLineEnd);
    }
  }

  lemma TrailShape(x: string, tail: string)
    requires x == [] || !IsSpace(x[|x| - 1])
    requires tail != [] && AllSpace(tail) && '\n' !in tail && '\r' !in tail
    ensures DropEndGap(Shape(x + tail, IsLineEnd)) == Shape(x, IsLineEnd)
  {
    ShapeAppend(x, tail, IsLineEnd);
    NoLineEnd(tail);
    ShapeAllSpace(tail, IsLineEnd);
    assert (Shape(x, IsLineEnd) + [Gap(false)])[..|Shape(x, IsLineEnd)|] == Shape(x, IsLineEnd);
  }

  /** A line, its line break and the lines after it: the line's trailing
      whitespace merges with the break into the gap in front of the rest. */
  lemma LineThenShape(x: string, tail: string, y: string)
    requires x == [] || !IsSpace(x[|x| - 1])
    requires AllSpace(tail)
    ensures Shape(x + tail + "\n" + y, IsLineEnd)
            == Shape(x, IsLineEnd) + GapThen(true, Shape(y, IsLineEnd))
  {
    var g := tail + "\n";
    assert x + tail + "\n" + y == x + (g + y);
    assert AllSpace(g);
    assert IsLineEnd(g[|g| - 1]);
    ShapeAppend(x, g + y, IsLineEnd);
    ShapeGapPrefix(g, y, IsLineEnd);
  }

  /** No line of `s` ends in whitespace: the character before every line
      break is another line break (an empty line) or not whitespace, and
      the same holds for the end of the last line. */
  predicate LinesTrimmed(s: string)
  {
    && (forall i, j :: 0 <= i < |s| && 0 <= j < |s| && j == i + 1 && s[j] == '\n' ==> s[i] == '\n' || !IsSpace(s[i]))
    && (s == [] || s[|s| - 1] == '\n' || !IsSpace(s[|s| - 1]))
  }

  // ----- the per-line rstrip pass -----

  lemma {:induction false} RStripEachSubseq(lines: seq<string>)
    ensures IsSubseq(Join(RStripEach(lines), "\n"), Join(lines, "\n"))
    decreases |lines|
  {
    if |lines| == 1 {
      SubseqSlice(lines[0], 0, |RStrip(lines[0])|);
    } else if |lines| > 1 {
      var x := lines[0];
      var r := RStripEach(lines);
      assert r[1..] == RStripEach(lines[1..]);
      RStripEachSubseq(lines[1..]);
      SubseqSlice(x, 0, |RStrip(x)|);
      SubseqRefl("\n");
      SubseqConcat(RStrip(x), "\n", x, "\n");
      SubseqConcat(RStrip(x) + "\n", Join(r[1..], "\n"), x + "\n", Join(lines[1..], "\n"));
    }
  }

  /** The rstrip pass only deletes characters. */
  lemma RStripLinesSubseq(s: string)
    ensures IsSubseq(RStripLines(s), s)
  {
    RStripEachSubseq(SplitOn(s, '\n'));
  }

  lemma {:induction false} JoinPartsNoAdjacent(lines: seq<string>)
    requires NoAdjacent(Join(lines, "\n"), IsSpaceOrTab)
    ensures forall k :: 0 <= k < |lines| ==> NoAdjacent(lines[k], IsSpaceOrTab)
    decreases |lines|
  {
    if |lines| > 1 {
      var j := Join(lines, "\n");
      var x := lines[0];
      NoAdjacentSlice(j, IsSpaceOrTab, 0, |x|);
      assert j[..|x|] == x;
      NoAdjacentSlice(j, IsSpaceOrTab, |x| + 1, |j|);
      assert j[|x| + 1..] == Join(lines[1..], "\n");
      JoinPartsNoAdjacent(lines[1..]);
      forall k | 1 <= k < |lines|
        ensures NoAdjacent(lines[k], IsSpaceOrTab)
      {
        assert lines[k] == lines[1..][k - 1];
      }
    }
  }

  lemma {:induction false} JoinNoAdjacent(lines: seq<string>)
    requires forall k :: 0 <= k < |lines| ==> NoAdjacent(lines[k], IsSpaceOrTab)
    ensures NoAdjacent(Join(lines, "\n"), IsSpaceOrTab)
    decreases |lines|
  {
    if |lines| > 1 {
      JoinNoAdjacent(lines[1..]);
      NoAdjacentConcat("\n", Join(lines[1..], "\n"), IsSpaceOrTab);
      NoAdjacentConcat(lines[0], "\n" + Join(lines[1..], "\n"), IsSpaceOrTab);
      assert lines[0] + "\n" + Join(lines[1..], "\n") == lines[0] + ("\n" + Join(lines[1..], "\n"));
    }
  }

  /** The rstrip pass never makes two blanks neighbours. */
  lemma RStripLinesNoAdjacent(s: string)
    requires NoAdjacent(s, IsSpaceOrTab)
    ensures NoAdjacent(RStripLines(s), IsSpaceOrTab)
  {
    var lines := SplitOn(s, '\n');
    JoinPartsNoAdjacent(lines);
    var r := RStripEach(lines);
    forall k | 0 <= k < |r|
      ensures NoAdjacent(r[k], IsSpaceOrTab)
    {
      NoAdjacentSlice(lines[k], IsSpaceOrTab, 0, |r[k]|);
    }
    JoinNoAdjacent(r);
  }

  lemma LinesTrimmedCons(x: string, y: string)
    requires '\n' !in x && (x == [] || !IsSpace(x[|x| - 1]))
    requires LinesTrimmed(y)
    ensures LinesTrimmed(x + "\n" + y)
  {
    var t := x + "\n" + y;
    forall i, j | 0 <= i < |t| && 0 <= j < |t| && j == i + 1 && t[j] == '\n'
      ensures t[i] == '\n' || !IsSpace(t[i])
    {
      if j > |x| + 1 {
        assert t[j] == y[j - |x| - 1] && t[i] == y[i - |x| - 1];
      }
    }
  }

  lemma {:induction false} JoinTrimmed(lines: seq<string>)
    requires forall k :: 0 <= k < |lines| ==> '\n' !in lines[k]
    requires forall k :: 0 <= k < |lines| ==> lines[k] == [] || !IsSpace(lines[k][|lines[k]| - 1])
    ensures LinesTrimmed(Join(lines, "\n"))
    decreases |lines|
  {
    if |lines| == 1 {
      assert Join(lines, "\n") == lines[0];
    } else if |lines| > 1 {
      JoinTrimmed(lines[1..]);
      LinesTrimmedCons(lines[0], Join(lines[1..], "\n"));
    }
  }

  /** After the rstrip pass no line ends in whitespace. */
  lemma RStripLinesTrimmed(s: string)
    ensures LinesTrimmed(RStripLines(s))
  {
    var lines := SplitOn(s, '\n');
    var r := RStripEach(lines);
    forall k | 0 <= k < |r|
      ensures '\n' !in r[k]
    {
      assert forall c :: c in r[k] ==> c in lines[k];
    }
    JoinTrimmed(r);
  }

  /** `strip()` keeps lines trimmed: it only cuts whitespace off both ends. */
  lemma StripKeepsLinesTrimmed(s: string)
    requires LinesTrimmed(s)
    ensures LinesTrimmed(Strip(s))
  {
    var a := StripSlice(s);
    SliceKeepsLinesTrimmed(s, Strip(s), a);
  }

  /** A stripped slice of a text with trimmed lines has trimmed lines. */
  lemma SliceKeepsLinesTrimmed(s: string, r: string, a: nat)
    requires a + |r| <= |s| && r == s[a..a + |r|]
    requires LinesTrimmed(s) && IsStripped(r)
    ensures LinesTrimmed(r)
  {
    forall i, j | 0 <= i < |r| && 0 <= j < |r| && j == i + 1 && r[j] == '\n'
      ensures r[i] == '\n' || !IsSpace(r[i])
    {
      assert r[i] == s[a + i] && r[j] == s[a + j];
    }
  }

  // ----- the last two steps -----

  /** Stripping lines and then the text only removes characters. */
  lemma StripLinesKeepsChars(t: string)
    ensures forall c :: c in Strip(RStripLines(t)) ==> c in t
    ensures |Strip(RStripLines(t))| <= |t|
  {
    var t5 := RStripLines(t);
    RStripLinesSubseq(t);
    SubseqBounds(t5, t);
    StripSubseq(t5);
    SubseqBounds(Strip(t5), t5);
  }

  /** Stripping lines and then the text keeps spaces and tabs apart. */
  lemma StripLinesNoAdjacent(t: string)
    requires NoAdjacent(t, IsSpaceOrTab)
    ensures NoAdjacent(Strip(RStripLines(t)), IsSpaceOrTab)
  {
    RStripLinesNoAdjacent(t);
    StripNoAdjacent(RStripLines(t), IsSpaceOrTab);
  }

  /** After both strips no line ends in whitespace and the whole text is
      stripped, whatever the input. */
  lemma StripLinesTrimmed(t: string)
    ensures LinesTrimmed(Strip(RStripLines(t)))
    ensures IsStripped(Strip(RStripLines(t)))
  {
    RStripLinesTrimmed(t);
    StripKeepsLinesTrimmed(RStripLines(t));
  }

  lemma FirstExampleSteps()
    ensures TranslateNewlines(ReplaceChar("a\n\n \nb", NoBreakSpace, ' ')) == "a\n\n \nb"
  {
    var s := "a\n\n \nb";
    assert ReplaceChar(s, NoBreakSpace, ' ') == s by {
      assert forall i :: 0 <= i < |s| ==> s[i] != NoBreakSpace;
    }
    assert '\r' !in s;
  }

  lemma FirstExampleCollapse()
    ensures Collapse("a\n\n \nb", IsNewline, 3, "\n\n") == "a\n\n \nb"
  {
    var s := "a\n\n \nb";
    assert forall i :: 0 <= i < |s| - 2 ==> !IsNewline(s[i]) || !IsNewline(s[i + 1]) || !IsNewline(s[i + 2]);
    NoTripleRunsBelow(s, IsNewline);
    CollapseShortRunsFixed(s, IsNewline, 3, "\n\n");
  }

  lemma FirstExampleStrip()
    ensures Strip("a\n\n\nb") == "a\n\n\nb"
  {
    var t := "a\n\n\nb";
    assert t[0] == 'a' && t[|t| - 1] == 'b';
    assert IsStripped(t);
    StripFixed(t);
  }

  lemma FirstExampleBlanks()
    ensures Collapse("a\n\n \nb", IsSpaceOrTab, 2, " ") == "a\n\n \nb"
  {
    var t := "a\n\n \nb";
    assert forall i :: 0 <= i < |t| ==> IsSpaceOrTab(t[i]) ==> i == 3;
    CollapseNoAdjacentFixed(t, IsSpaceOrTab, 2, " ");
  }

  lemma FirstExampleRStrip()
    ensures RStripLines("a\n\n \nb") == "a\n\n\nb"
  {
    FirstExampleSplit();
    FirstExampleRStripEach();
    FirstExampleJoin();
  }

  lemma FirstExampleSplit()
    ensures SplitOn("a\n\n \nb", '\n') == ["a", "", " ", "b"]
  {
    var lines := ["a", "", " ", "b"];
    assert Join(lines[3..], "\n") == "b";
    assert Join(lines[2..], "\n") == " \nb";
    assert Join(lines[1..], "\n") == "\n \nb";
    assert Join(lines, "\n") == "a\n\n \nb";
    SplitJoin(lines, '\n');
  }

  lemma FirstExampleRStripEach()
    ensures RStripEach(["a", "", " ", "b"]) == ["a", "", "", "b"]
  {
    var lines := ["a", "", " ", "b"];
    assert RStrip(" ") == "";
    assert RStrip("a") == "a" && RStrip("") == "" && RStrip("b") == "b";
    var r := RStripEach(lines);
    assert r[0] == "a" && r[1] == "" && r[2] == "" && r[3] == "b";
  }

  lemma FirstExampleJoin()
    ensures Join(["a", "", "", "b"], "\n") == "a\n\n\nb"
  {
    var r := ["a", "", "", "b"];
    assert Join(r[3..], "\n") == "b";
    assert Join(r[2..], "\n") == "\nb";
    assert Join(r[1..], "\n") == "\n\nb";
  }

  /** Two newlines stay two, and three or more become two: "a\n\nb" is
      kept and "a\n\n\nb" becomes "a\n\nb". */
  lemma NewlineRunsCapped()
    ensures NormaliseSpacing("a\n\nb") == "a\n\nb"
    ensures NormaliseSpacing("a\n\n\nb") == "a\n\nb"
  {
    assert "a\n\nb" == "a" + Newlines(2) + "b";
    assert "a\n\n\nb" == "a" + Newlines(3) + "b";
    NewlineRunBetween(2, "a\n\nb");
    NewlineRunBetween(3, "a\n\n\nb");
  }

  /** Inside a line, a run of spaces becomes one space: "a  b" becomes
      "a b", so a normalised line is in general not its stripped original. */
  lemma SpacesJoinInsideLine()
    ensures NormaliseSpacing("a  b") == "a b"
  {
    SpacesExampleSteps();
    SpacesExampleNewlines();
    SpacesExampleBlanks();
  }

  lemma SpacesExampleSteps()
    ensures TranslateNewlines(ReplaceChar("a  b", NoBreakSpace, ' ')) == "a  b"
  {
    var s := "a  b";
    assert ReplaceChar(s, NoBreakSpace, ' ') == s by {
      assert forall i :: 0 <= i < |s| ==> s[i] != NoBreakSpace;
    }
    assert '\r' !in s;
  }

  lemma SpacesExampleNewlines()
    ensures Collapse("a  b", IsNewline, 3, "\n\n") == "a  b"
  {
    var s := "a  b";
    assert forall i :: 0 <= i < |s| ==> !IsNewline(s[i]);
  }

  lemma SpacesExampleBlanks()
    ensures Collapse("a  b", IsSpaceOrTab, 2, " ") == "a b"
  {
    SpacesExampleRun();
    CollapseAppend("a", "  b", IsSpaceOrTab, 2, " ");
    assert "a" + "  b" == "a  b";
  }

  lemma SpacesExampleRun()
    ensures Collapse("  b", IsSpaceOrTab, 2, " ") == " b"
  {
    RunLenIs("  b", IsSpaceOrTab, 2);
    CollapseRunStep("  b", IsSpaceOrTab, 2, " ", 2);
    assert "  b"[2..] == "b";
  }

  lemma SecondExampleSteps()
    ensures TranslateNewlines(ReplaceChar("a\n\n\nb", NoBreakSpace, ' ')) == "a\n\n\nb"
  {
  }

  lemma SecondExampleCollapse()
    ensures Collapse("a\n\n\nb", IsNewline, 3, "\n\n") == "a\n\nb"
  {
    assert Collapse("b", IsNewline, 3, "\n\n") == "b";
    assert RunLen("\n\n\nb", IsNewline) == 3;
    assert ("\n\n\nb")[3..] == "b";
    assert Collapse("\n\n\nb", IsNewline, 3, "\n\n") == "\n\nb";
  }

  lemma SecondExampleBlanks()
    ensures Collapse("a\n\nb", IsSpaceOrTab, 2, " ") == "a\n\nb"
  {
    var t := "a\n\nb";
    assert forall i :: 0 <= i < |t| ==> !IsSpaceOrTab(t[i]);
  }

  lemma SecondExampleRStrip()
    ensures RStripLines("a\n\nb") == "a\n\nb"
  {
    var lines := ["a", "", "b"];
    assert Join(lines[2..], "\n") == "b";
    assert Join(lines[1..], "\n") == "\nb";
    assert Join(lines, "\n") == "a\n\nb";
    SplitJoin(lines, '\n');
    assert RStrip("a") == "a" && RStrip("") == "" && RStrip("b") == "b";
    assert RStripEach(lines) == lines;
  }

  lemma SecondExampleStrip()
    ensures Strip("a\n\nb") == "a\n\nb"
  {
    var t := "a\n\nb";
    assert t[0] == 'a' && t[|t| - 1] == 'b';
    assert IsStripped(t);
    StripFixed(t);
  }

  /** The tail is not idempotent, and its output can hold three line breaks
      in a row: the blank-line collapse runs before the per-line rstrip,
      which turns a line holding only a space into an empty line. */
  lemma CleanTailNotIdempotent()
    ensures CleanTail("a\n\n \nb") == "a\n\n\nb"
    ensures CleanTail("a\n\n\nb") == "a\n\nb"
    ensures CleanTail(CleanTail("a\n\n \nb")) != CleanTail("a\n\n \nb")
  {
    FirstExampleSteps();
    FirstExampleCollapse();
    FirstExampleBlanks();
    FirstExampleRStrip();
    FirstExampleStrip();
    SecondExampleSteps();
    SecondExampleCollapse();
    SecondExampleBlanks();
    SecondExampleRStrip();
    SecondExampleStrip();
    assert "a\n\nb" != "a\n\n\nb" by {
      assert |"a\n\nb"| != |"a\n\n\nb"|;
    }
  }
}

=== FILE: dataset.dfy ===
/** One run of data/data_cleaning.py: read the URL file, settle the eval
    list and write it back, then fetch every URL and write its record to
    the combined output and to the eval or the train output. The simpler
    loop of scripts/data_cleaning.py writes the combined output only.
    Fetching and cleaning a URL is the parameter `fetch`. */
module Dataset {
  import opened Wrappers
  import opened Seqs
  import opened TextFiles
  import opened HashSort
  import opened EvalLock
  import Text

  /** What fetching and cleaning one URL gives: the cleaned text, or an
      exception (HTTP error, timeout, decoding failure) that skips the URL. */
  datatype Fetch = Fetched(text: string) | Failed

  /** One JSON line of the outputs. */
  datatype Record = Record(sourceUrl: string, text: string)

  /** The three JSONL outputs of one run. */
  datatype Outputs = Outputs(all: seq<Record>, train: seq<Record>, eval: seq<Record>)

  /** What one URL contributes to the combined output. */
  function RecordOf(url: string, fetch: string -> Fetch): (recs: seq<Record>)
    ensures |recs| <= 1
    ensures recs == [] <==> fetch(url) == Failed
    ensures forall i :: 0 <= i < |recs| ==> recs[i] == Record(url, fetch(url).text)
  {
    match fetch(url)
    case Fetched(text) => [Record(url, text)]
    case Failed => []
  }

  /** The combined output for `urls`: one record per URL whose fetch
      succeeds, in URL-file order. */
  function Records(urls: seq<string>, fetch: string -> Fetch): (recs: seq<Record>)
    ensures |recs| <= |urls|
    ensures forall i :: 0 <= i < |recs| ==>
              recs[i].sourceUrl in urls && fetch(recs[i].sourceUrl) == Fetched(recs[i].text)
    decreases |urls|
  {
    if urls == [] then [] else RecordOf(urls[0], fetch) + Records(urls[1..], fetch)
  }

  lemma RecordsStep(a: seq<string>, b: seq<string>, fetch: string -> Fetch)
    requires a != []
    ensures Records(a + b, fetch) == RecordOf(a[0], fetch) + Records(a[1..] + b, fetch)
  {
    assert (a + b)[1..] == a[1..] + b;
    assert (a + b)[0] == a[0];
  }

  /** Each URL is handled on its own: the records for `a + b` are those for
      `a` followed by those for `b`. */
  lemma {:induction false} RecordsAppend(a: seq<string>, b: seq<string>, fetch: string -> Fetch)
    ensures Records(a + b, fetch) == Records(a, fetch) + Records(b, fetch)
    decreases |a|
  {
    if a == [] {
      assert a + b == b;
    } else {
      RecordsAppend(a[1..], b, fetch);
      RecordsStep(a, b, fetch);
      AppendAssoc(RecordOf(a[0], fetch), Records(a[1..], fetch), Records(b, fetch));
    }
  }

  /** A URL whose fetch fails is skipped and nothing else changes. */
  lemma FailedFetchSkipsOnlyThatUrl(a: seq<string>, u: string, b: seq<string>, fetch: string -> Fetch)
    requires fetch(u) == Failed
    ensures Records(a + [u] + b, fetch) == Records(a + b, fetch)
  {
    RecordsAppend(a + [u], b, fetch);
    RecordsAppend(a, [u], fetch);
    RecordsAppend(a, b, fetch);
    assert Records([u], fetch) == [] by {
      assert [u][1..] == [];
    }
    assert Records(a, fetch) + [] == Records(a, fetch);
  }

  /** The source URLs of some records, in order. */
  function SourceUrls(recs: seq<Record>): (urls: seq<string>)
    ensures |urls| == |recs|
    ensures forall i :: 0 <= i < |recs| ==> urls[i] == recs[i].sourceUrl
    decreases |recs|
  {
    if recs == [] then [] else [recs[0].sourceUrl] + SourceUrls(recs[1..])
  }

  /** Records come out in URL-file order, one for exactly the URLs whose
      fetch succeeds. */
  lemma {:induction false} RecordsInUrlOrder(urls: seq<string>, fetch: string -> Fetch)
    ensures IsSubseq(SourceUrls(Records(urls, fetch)), urls)
    ensures forall u :: u in SourceUrls(Records(urls, fetch)) <==> u in urls && fetch(u).Fetched?
    decreases |urls|
  {
    if urls == [] {
      SubseqRefl(urls);
    } else {
      var u := urls[0];
      var rest := Records(urls[1..], fetch);
      RecordsInUrlOrder(urls[1..], fetch);
      HeadTail(urls);
      if fetch(u).Fetched? {
        var recs := [Record(u, fetch(u).text)] + rest;
        assert recs[1..] == rest;
        assert SourceUrls(recs) == [u] + SourceUrls(rest);
        SubseqCons(SourceUrls(rest), u, urls[1..]);
      } else {
        assert Records(urls, fetch) == rest;
        SubseqRefl(urls);
        SubseqConcat([], SourceUrls(rest), [u], urls[1..]);
        assert [] + SourceUrls(rest) == SourceUrls(rest);
      }
    }
  }

  /** The records whose URL is (`inEval`) or is not (`!inEval`) in the eval set. */
  function RecordsIn(recs: seq<Record>, evalSet: set<string>, inEval: bool): (out: seq<Record>)
    ensures IsSubseq(out, recs)
    ensures forall rec :: rec in out <==> rec in recs && (rec.sourceUrl in evalSet) == inEval
    decreases |recs|
  {
    if recs == [] then []
    else
      var rest := RecordsIn(recs[1..], evalSet, inEval);
      SubseqCons(rest, recs[0], recs[1..]);
      HeadTail(recs);
      if (recs[0].sourceUrl in evalSet) == inEval then [recs[0]] + rest else rest
  }

  /** The run's loop over the URLs: each fetched record is written to the
      combined output and then to the eval output when its URL is in the
      eval set, to the train output otherwise. Every record of the combined
      output lands in exactly one of eval and train. */
  function Route(urls: seq<string>, evalSet: set<string>, fetch: string -> Fetch): (o: Outputs)
    ensures o.all == Records(urls, fetch)
    ensures o.eval == RecordsIn(o.all, evalSet, true)
    ensures o.train == RecordsIn(o.all, evalSet, false)
    ensures multiset(o.eval) + multiset(o.train) == multiset(o.all)
    ensures forall rec :: rec in o.all ==>
              && (rec in o.eval <==> rec.sourceUrl in evalSet)
              && (rec in o.train <==> rec.sourceUrl !in evalSet)
    decreases |urls|
  {
    if urls == [] then Outputs([], [], [])
    else
      var rest := Route(urls[1..], evalSet, fetch);
      RecordsInPartition(Records(urls, fetch), evalSet);
      match fetch(urls[0])
      case Failed => rest
      case Fetched(text) =>
        var rec := Record(urls[0], text);
        assert ([rec] + rest.all)[1..] == rest.all;
        if urls[0] in evalSet then Outputs([rec] + rest.all, rest.train, [rec] + rest.eval)
        else Outputs([rec] + rest.all, [rec] + rest.train, rest.eval)
  }

  /** Splitting records by eval-set membership loses and duplicates nothing. */
  lemma {:induction false} RecordsInPartition(recs: seq<Record>, evalSet: set<string>)
    ensures multiset(RecordsIn(recs, evalSet, true)) + multiset(RecordsIn(recs, evalSet, false))
         == multiset(recs)
    decreases |recs|
  {
    if recs != [] {
      RecordsInPartition(recs[1..], evalSet);
      HeadTail(recs);
    }
  }

  /** The URL list as the run reads it from its file. */
  function LoadUrls(urlFile: string): (urls: seq<string>)
    ensures forall i :: 0 <= i < |urls| ==> IsLineEntry(urls[i])
  {
    ReadUrlsAreLineEntries(urlFile);
    ParseUrlLines(ReadLines(urlFile))
  }

  /** The saved eval list, `None` when the file does not exist. */
  function LoadSaved(evalFile: Option<string>): (saved: Option<seq<string>>)
    ensures saved.None? <==> evalFile.None?
    ensures saved.Some? ==>
              forall i :: 0 <= i < |saved.value| ==> saved.value[i] != [] && Text.IsStripped(saved.value[i])
  {
    match evalFile
    case None => None
    case Some(content) => Some(ParseEvalLines(ReadLines(content)))
  }

  /** What a run leaves behind: the eval list, the text written to its file,
      and the three outputs. */
  datatype Run = Run(evalList: seq<string>, evalFile: string, outputs: Outputs)

  /** One run, from the URL file, the eval file if it exists, and what each
      URL's fetch gives. */
  function BuildDataset(hash: string -> string, urlFile: string, evalFile: Option<string>,
                        fetch: string -> Fetch): (run: Run)
    ensures run.evalList == Reconcile(hash, LoadUrls(urlFile), LoadSaved(evalFile))
    ensures ParseEvalLines(ReadLines(run.evalFile)) == run.evalList
    ensures forall u :: u in run.evalList ==> u in LoadUrls(urlFile)
    ensures run.outputs.all == Records(LoadUrls(urlFile), fetch)
    ensures run.outputs.eval == RecordsIn(run.outputs.all, Elems(run.evalList), true)
    ensures run.outputs.train == RecordsIn(run.outputs.all, Elems(run.evalList), false)
    ensures forall rec :: rec in run.outputs.eval <==> rec in run.outputs.all && rec.sourceUrl in run.evalList
    ensures forall rec :: rec in run.outputs.train <==> rec in run.outputs.all && rec.sourceUrl !in run.evalList
  {
    var urls := LoadUrls(urlFile);
    var locked := Reconcile(hash, urls, LoadSaved(evalFile));
    assert forall i :: 0 <= i < |locked| ==> IsLineEntry(locked[i]) by {
      forall i | 0 <= i < |locked|
        ensures IsLineEntry(locked[i])
      {
        assert locked[i] in urls;
      }
    }
    EvalFileRoundTrip(locked);
    Run(locked, EvalFileText(locked), Route(urls, Elems(locked), fetch))
  }

  /** A second run over the same URL file, reading the eval file the first
      run wrote, settles on the same eval list and writes the same file,
      whatever the fetches give. */
  lemma RerunKeepsEvalList(hash: string -> string, urlFile: string, evalFile: Option<string>,
                           fetch: string -> Fetch, fetchAgain: string -> Fetch)
    ensures var first := BuildDataset(hash, urlFile, evalFile, fetch);
            var second := BuildDataset(hash, urlFile, Some(first.evalFile), fetchAgain);
            second.evalList == first.evalList && second.evalFile == first.evalFile
  {
    var urls := LoadUrls(urlFile);
    Idempotent(hash, urls, LoadSaved(evalFile));
  }
}

=== FILE: eval_lock.dfy ===
/** The locked evaluation list of data/data_cleaning.py: the URLs of the
    saved list that are still in the URL file keep their place, and when
    fewer than fifteen survive the list is topped up with the first URLs
    in digest order among the rest. */
module EvalLock {
  import opened Wrappers
  import opened Seqs
  import opened LexOrder
  import opened HashSort

  /** How many URLs the evaluation split is meant to hold. */
  const EvalSize: nat := 15

  /** The saved entries still present in `urls`, in their saved order
      (none when there is no saved list). */
  function Kept(urls: seq<string>, saved: Option<seq<string>>): (kept: seq<string>)
    ensures saved.Some? ==> IsSubseq(kept, saved.value)
    ensures forall u :: u in kept <==> saved.Some? && u in saved.value && u in urls
    ensures saved.None? ==> kept == []
    ensures saved.Some? ==>
              forall u :: multiset(kept)[u] == if u in urls then multiset(saved.value)[u] else 0
  {
    match saved
    case None => []
    case Some(list) => Select(list, urls, true)
  }

  /** The URLs not in `kept`, in URL-file order: where a top-up comes from. */
  function Remaining(urls: seq<string>, kept: seq<string>): (rest: seq<string>)
    ensures IsSubseq(rest, urls)
    ensures forall u :: u in rest <==> u in urls && u !in kept
    ensures forall u :: multiset(rest)[u] == if u in kept then 0 else multiset(urls)[u]
  {
    Select(urls, kept, false)
  }

  /** The eval list one run settles on, from the URL list and the saved list
      (`None` when the file does not exist). */
  function Reconcile(hash: string -> string, urls: seq<string>, saved: Option<seq<string>>): (r: seq<string>)
    ensures var kept := Kept(urls, saved);
      && |kept| <= |r| && r[..|kept|] == kept
      && (|kept| >= EvalSize ==> r == kept)
      && (|kept| < EvalSize ==> |r| == |kept| + Min(EvalSize - |kept|, |Remaining(urls, kept)|))
      && (forall u :: u in r[|kept|..] ==> u !in kept)
      && SortedByHash(hash, r[|kept|..])
      && multiset(r[|kept|..]) <= multiset(Remaining(urls, kept))
    ensures forall u :: u in r ==> u in urls
    ensures forall u, v :: u in urls && u !in r && v in r[|Kept(urls, saved)|..] ==> !Less(hash(u), hash(v))
    ensures var kept := Kept(urls, saved);
            forall u, v :: u in multiset(Remaining(urls, kept)) - multiset(r[|kept|..]) && v in r[|kept|..] ==>
              !Less(hash(u), hash(v))
    ensures |r| < EvalSize ==> forall u :: u in urls ==> u in r
  {
    var kept := Kept(urls, saved);
    if |kept| < EvalSize then
      var rest := Remaining(urls, kept);
      var topUp := TopK(hash, rest, EvalSize - |kept|);
      assert (kept + topUp)[..|kept|] == kept;
      assert (kept + topUp)[|kept|..] == topUp;
      TopUpSmallest(hash, urls, kept, rest, topUp);
      assert |kept + topUp| < EvalSize ==> forall u :: u in urls ==> u in kept + topUp by {
        if |kept + topUp| < EvalSize {
          FullDraw(topUp, rest);
        }
      }
      kept + topUp
    else
      assert kept[|kept|..] == [];
      kept
  }

  /** A missing eval file and an empty one lead to the same list. */
  lemma AbsentIsEmpty(hash: string -> string, urls: seq<string>)
    ensures Reconcile(hash, urls, None) == Reconcile(hash, urls, Some([]))
  {
    var r := Reconcile(hash, urls, Some([]));
    assert Kept(urls, Some([])) == [];
    assert Remaining(urls, []) == urls by {
      SelectAll(urls, [], false);
    }
    assert [] + TopK(hash, urls, EvalSize) == TopK(hash, urls, EvalSize);
  }

  /** The top-up takes the smallest digests: no URL left out of the list has
      a digest below that of a topped-up entry. */
  lemma TopUpSmallest(hash: string -> string, urls: seq<string>, kept: seq<string>,
                      rest: seq<string>, topUp: seq<string>)
    requires |kept| < EvalSize
    requires rest == Remaining(urls, kept) && topUp == TopK(hash, rest, EvalSize - |kept|)
    ensures forall u, v :: u in urls && u !in kept + topUp && v in topUp ==> !Less(hash(u), hash(v))
    ensures forall u, v :: u in multiset(rest) - multiset(topUp) && v in topUp ==> !Less(hash(u), hash(v))
  {
    forall u, v | u in urls && u !in kept + topUp && v in topUp
      ensures !Less(hash(u), hash(v))
    {
      assert u !in kept;
      assert u in multiset(rest) - multiset(topUp);
    }
  }

  /** When every URL of the saved list is still present, the saved list is
      kept whole as the prefix: growing the URL file never reorders or
      drops locked entries. */
  lemma SavedListPreserved(hash: string -> string, urls: seq<string>, saved: seq<string>)
    requires forall u :: u in saved ==> u in urls
    ensures var r := Reconcile(hash, urls, Some(saved));
            |saved| <= |r| && r[..|saved|] == saved
  {
    SelectAll(saved, urls, true);
  }

  /** A sequence drawn from `s` that is as long as `s` holds all of it. */
  lemma FullDraw(part: seq<string>, s: seq<string>)
    requires multiset(part) <= multiset(s) && |part| == |s|
    ensures forall u :: u in s ==> u in part
  {
    assert |multiset(s) - multiset(part)| == |multiset(s)| - |multiset(part)| == 0;
    forall u | u in s
      ensures u in part
    {
      assert u in multiset(s);
    }
  }

  /** Reading back the list a run wrote and reconciling again against the
      same URLs gives the same list. */
  lemma Idempotent(hash: string -> string, urls: seq<string>, saved: Option<seq<string>>)
    ensures var r := Reconcile(hash, urls, saved);
            Reconcile(hash, urls, Some(r)) == r
  {
    var r := Reconcile(hash, urls, saved);
    SelectAll(r, urls, true);
    if |r| < EvalSize {
      ShortListSettled(hash, urls, r);
    }
  }

  /** A short list that already holds every URL is kept as it is. */
  lemma ShortListSettled(hash: string -> string, urls: seq<string>, r: seq<string>)
    requires |r| < EvalSize && Kept(urls, Some(r)) == r
    requires forall u :: u in urls ==> u in r
    ensures Reconcile(hash, urls, Some(r)) == r
  {
    NothingRemains(urls, r);
    assert TopK(hash, [], EvalSize - |r|) == [];
    assert r + [] == r;
  }

  /** Once the list holds every URL, there is nothing left to top up from. */
  lemma NothingRemains(urls: seq<string>, list: seq<string>)
    requires forall u :: u in urls ==> u in list
    ensures Remaining(urls, list) == []
  {
    SelectAll(urls, list, true);
    SelectLengths(urls, list);
  }

  /** Without duplicates in the URL file or the saved list, the list has no
      duplicates and holds the kept entries or fifteen URLs (all of them when
      there are fewer), whichever is more. */
  lemma SizeWithoutDuplicates(hash: string -> string, urls: seq<string>, saved: Option<seq<string>>)
    requires NoDup(urls)
    requires saved.Some? ==> NoDup(saved.value)
    ensures var r := Reconcile(hash, urls, saved);
            var k := |Kept(urls, saved)|;
            && NoDup(r)
            && |r| == if k >= EvalSize then k else Min(EvalSize, |urls|)
  {
    var kept := Kept(urls, saved);
    var r := Reconcile(hash, urls, saved);
    if saved.Some? {
      SelectNoDup(saved.value, urls, true);
    }
    SettledWithoutDuplicates(urls, kept, r);
  }

  /** A list made of duplicate-free survivors of a duplicate-free URL list
      and a top-up drawn from the URLs not among them, as `Reconcile`
      describes it, has no duplicates and fifteen entries (all the URLs
      when there are fewer) unless the survivors alone are more. */
  lemma SettledWithoutDuplicates(urls: seq<string>, kept: seq<string>, r: seq<string>)
    requires NoDup(urls) && NoDup(kept)
    requires forall u :: u in kept ==> u in urls
    requires |kept| <= |r| && r[..|kept|] == kept
    requires |kept| >= EvalSize ==> r == kept
    requires |kept| < EvalSize ==> |r| == |kept| + Min(EvalSize - |kept|, |Remaining(urls, kept)|)
    requires forall u :: u in r[|kept|..] ==> u !in kept
    requires multiset(r[|kept|..]) <= multiset(Remaining(urls, kept))
    ensures NoDup(r)
    ensures |r| == if |kept| >= EvalSize then |kept| else Min(EvalSize, |urls|)
  {
    var topUp := r[|kept|..];
    SelectNoDup(urls, kept, false);
    NoDupSub(Remaining(urls, kept), topUp);
    NoDupAppend(kept, topUp);
    assert r == kept + topUp;
    SelectOutsideLength(urls, kept);
  }
}

=== FILE: hash_sort.dfy ===
/** `deterministic_top_k` of data/data_cleaning.py: order the URLs by the hex
    digest of their MD5 hash with Python's stable `sorted`, then take the
    first `k`. MD5 and its hex encoding are the parameter `hash`, about
    which nothing is assumed unless a lemma says so. */
module HashSort {
  import opened LexOrder
  import opened Seqs

  /** Digests never decrease along `s`. */
  predicate SortedByHash(hash: string -> string, s: seq<string>)
  {
    forall i, j :: 0 <= i < j < |s| ==> !Less(hash(s[j]), hash(s[i]))
  }

  /** The entries of `s` whose digest is `d`, in their order in `s`. */
  function WithHash(hash: string -> string, s: seq<string>, d: string): seq<string>
    decreases |s|
  {
    if s == [] then []
    else (if hash(s[0]) == d then [s[0]] else []) + WithHash(hash, s[1..], d)
  }

  lemma {:induction false} WithHashAppend(hash: string -> string, a: seq<string>, b: seq<string>, d: string)
    ensures WithHash(hash, a + b, d) == WithHash(hash, a, d) + WithHash(hash, b, d)
    decreases |a|
  {
    if a != [] {
      WithHashAppend(hash, a[1..], b, d);
      assert (a + b)[0] == a[0];
      assert (a + b)[1..] == a[1..] + b;
      calc {
        WithHash(hash, a + b, d);
        (if hash(a[0]) == d then [a[0]] else []) + WithHash(hash, a[1..] + b, d);
        (if hash(a[0]) == d then [a[0]] else []) + (WithHash(hash, a[1..], d) + WithHash(hash, b, d));
      }
    } else {
      assert a + b == b;
    }
  }

  lemma {:induction false} WithHashNone(hash: string -> string, s: seq<string>, d: string)
    requires forall u :: u in s ==> hash(u) != d
    ensures WithHash(hash, s, d) == []
    decreases |s|
  {
    if s != [] {
      WithHashNone(hash, s[1..], d);
    }
  }

  /** One step of a stable insertion sort: `x` goes after every entry whose
      digest is not above its own. */
  function Insert(hash: string -> string, x: string, s: seq<string>): (r: seq<string>)
    requires SortedByHash(hash, s)
    ensures SortedByHash(hash, r)
    ensures forall u :: u in r ==> u == x || u in s
    decreases |s|
  {
    if s == [] then [x]
    else if Less(hash(x), hash(s[0])) then
      assert forall j :: 0 < j < |s| ==> !Less(hash(s[j]), hash(s[0]));
      forall j | 0 <= j < |s|
        ensures !Less(hash(s[j]), hash(x))
      {
        if j == 0 {
          Asymmetric(hash(x), hash(s[0]));
        } else if Less(hash(s[j]), hash(x)) {
          Transitive(hash(s[j]), hash(x), hash(s[0]));
        }
      }
      [x] + s
    else
      var rest := Insert(hash, x, s[1..]);
      forall u | u in rest
        ensures !Less(hash(u), hash(s[0]))
      {
        if u != x {
          SortedHead(hash, s, u);
        }
      }
      [s[0]] + rest
  }

  /** In a sorted sequence nothing has a digest below that of the head. */
  lemma SortedHead(hash: string -> string, s: seq<string>, u: string)
    requires SortedByHash(hash, s) && s != [] && u in s
    ensures !Less(hash(u), hash(s[0]))
  {
    var j :| 0 <= j < |s| && s[j] == u;
    if j == 0 {
      Irreflexive(hash(u));
    }
  }

  /** A digest strictly below the head of a sorted sequence is nobody's. */
  lemma BelowHeadUnused(hash: string -> string, x: string, s: seq<string>)
    requires SortedByHash(hash, s) && s != []
    requires Less(hash(x), hash(s[0]))
    ensures forall u :: u in s ==> hash(u) != hash(x)
  {
    forall u | u in s
      ensures hash(u) != hash(x)
    {
      SortedHead(hash, s, u);
      LessThenNotBelow(hash(x), hash(s[0]), hash(u));
      Irreflexive(hash(x));
    }
  }

  /** Insertion keeps the per-digest order and puts `x` last among the
      entries sharing its digest. */
  lemma {:induction false} InsertStable(hash: string -> string, x: string, s: seq<string>, d: string)
    requires SortedByHash(hash, s)
    ensures WithHash(hash, Insert(hash, x, s), d)
         == WithHash(hash, s, d) + (if hash(x) == d then [x] else [])
    decreases |s|
  {
    if s == [] {
    } else if Less(hash(x), hash(s[0])) {
      assert Insert(hash, x, s) == [x] + s;
      assert ([x] + s)[1..] == s;
      if hash(x) == d {
        BelowHeadUnused(hash, x, s);
        WithHashNone(hash, s, d);
      }
    } else {
      var rest := Insert(hash, x, s[1..]);
      var head := if hash(s[0]) == d then [s[0]] else [];
      var tail := if hash(x) == d then [x] else [];
      assert Insert(hash, x, s) == [s[0]] + rest;
      InsertStable(hash, x, s[1..], d);
      assert ([s[0]] + rest)[1..] == rest;
      assert WithHash(hash, [s[0]] + rest, d) == head + WithHash(hash, rest, d);
      assert WithHash(hash, s, d) == head + WithHash(hash, s[1..], d);
      AppendAssoc(head, WithHash(hash, s[1..], d), tail);
    }
  }

  /** Python's `sorted(urls, key=digest)`: a stable sort by digest. */
  function SortByHash(hash: string -> string, urls: seq<string>): (r: seq<string>)
    ensures SortedByHash(hash, r)
    decreases |urls|
  {
    if urls == [] then []
    else
      var n := |urls| - 1;
      Insert(hash, urls[n], SortByHash(hash, urls[..n]))
  }

  lemma {:induction false} InsertPermutes(hash: string -> string, x: string, s: seq<string>)
    requires SortedByHash(hash, s)
    ensures multiset(Insert(hash, x, s)) == multiset(s) + multiset{x}
    decreases |s|
  {
    if s != [] && !Less(hash(x), hash(s[0])) {
      InsertPermutes(hash, x, s[1..]);
      assert s == [s[0]] + s[1..];
    }
  }

  /** The sort is a permutation of its input. */
  lemma {:induction false} SortByHashPermutes(hash: string -> string, urls: seq<string>)
    ensures multiset(SortByHash(hash, urls)) == multiset(urls)
    decreases |urls|
  {
    if urls != [] {
      var n := |urls| - 1;
      SortByHashPermutes(hash, urls[..n]);
      InsertPermutes(hash, urls[n], SortByHash(hash, urls[..n]));
      assert urls == urls[..n] + [urls[n]];
    }
  }

  /** Stability: the URLs sharing one digest come out in their input order. */
  lemma {:induction false} SortByHashStable(hash: string -> string, urls: seq<string>, d: string)
    ensures WithHash(hash, SortByHash(hash, urls), d) == WithHash(hash, urls, d)
    decreases |urls|
  {
    if urls != [] {
      var n := |urls| - 1;
      var pre := urls[..n];
      var x := urls[n];
      var sorted := SortByHash(hash, pre);
      assert A: SortByHash(hash, urls) == Insert(hash, x, sorted);
      SortByHashStable(hash, pre, d);
      InsertStable(hash, x, sorted, d);
      assert B: WithHash(hash, SortByHash(hash, urls), d) == WithHash(hash, pre, d) + (if hash(x) == d then [x] else []);
      assert urls == pre + [x];
      WithHashAppend(hash, pre, [x], d);
      assert C: WithHash(hash, [x], d) == (if hash(x) == d then [x] else []);
    }
  }

  function Min(a: nat, b: nat): nat
  {
    if a <= b then a else b
  }

  /** Everything after position `k` of a sorted sequence has a digest no
      smaller than anything before it. */
  lemma SortedSplit(hash: string -> string, sorted: seq<string>, k: nat)
    requires SortedByHash(hash, sorted) && k <= |sorted|
    ensures forall u, v :: u in sorted[k..] && v in sorted[..k] ==> !Less(hash(u), hash(v))
  {
    forall u, v | u in sorted[k..] && v in sorted[..k]
      ensures !Less(hash(u), hash(v))
    {
      var j :| k <= j < |sorted| && sorted[j] == u;
      var i :| 0 <= i < k && sorted[i] == v;
    }
  }

  /** What is left out of a prefix of a permutation of `urls` is the rest of it. */
  lemma PrefixRemainder(urls: seq<string>, sorted: seq<string>, m: nat)
    requires multiset(sorted) == multiset(urls) && m <= |sorted|
    ensures multiset(urls) - multiset(sorted[..m]) == multiset(sorted[m..])
    ensures multiset(sorted[..m]) <= multiset(urls)
  {
    assert sorted == sorted[..m] + sorted[m..];
  }

  /** `deterministic_top_k(urls, k)`: the first `k` URLs in digest order
      (all of them when there are fewer than `k`). */
  function TopK(hash: string -> string, urls: seq<string>, k: nat): (r: seq<string>)
    ensures |r| == Min(k, |urls|)
    ensures multiset(r) <= multiset(urls)
    ensures forall u :: u in r ==> u in urls
    ensures SortedByHash(hash, r)
    ensures forall u, v :: u in multiset(urls) - multiset(r) && v in r ==> !Less(hash(u), hash(v))
  {
    var sorted := SortByHash(hash, urls);
    SortByHashPermutes(hash, urls);
    var m := Min(k, |sorted|);
    PrefixRemainder(urls, sorted, m);
    SortedSplit(hash, sorted, m);
    assert forall u :: u in sorted[..m] ==> u in multiset(urls);
    sorted[..m]
  }

  /** The digest is injective on the URLs of `s`. */
  predicate HashInjective(hash: string -> string, s: seq<string>)
  {
    forall u, v :: u in s && v in s && hash(u) == hash(v) ==> u == v
  }

  /** Two sorted arrangements of one multiset start with the same URL when
      digests do not collide. */
  lemma SameHead(hash: string -> string, a: seq<string>, b: seq<string>)
    requires SortedByHash(hash, a) && SortedByHash(hash, b)
    requires multiset(a) == multiset(b) && a != []
    requires HashInjective(hash, a)
    ensures b != [] && a[0] == b[0]
  {
    assert a[0] in multiset(b);
    assert b[0] in multiset(a);
    SortedHead(hash, a, b[0]);
    SortedHead(hash, b, a[0]);
    Antisymmetric(hash(a[0]), hash(b[0]));
  }

  lemma SortedTail(hash: string -> string, a: seq<string>)
    requires SortedByHash(hash, a) && a != []
    ensures SortedByHash(hash, a[1..])
  {
    forall i, j | 0 <= i < j < |a| - 1
      ensures !Less(hash(a[1..][j]), hash(a[1..][i]))
    {
      assert a[1..][j] == a[j + 1] && a[1..][i] == a[i + 1];
    }
  }

  /** Without digest collisions a sorted arrangement of a multiset of URLs
      is unique. */
  lemma {:induction false} SortedUnique(hash: string -> string, a: seq<string>, b: seq<string>)
    requires SortedByHash(hash, a) && SortedByHash(hash, b)
    requires multiset(a) == multiset(b)
    requires HashInjective(hash, a)
    ensures a == b
    decreases |a|
  {
    if a == [] {
      assert |b| == |multiset(b)| == 0;
    } else {
      SameHead(hash, a, b);
      SameHeadTails(a, b);
      assert forall u :: u in a[1..] ==> u in a;
      SortedTail(hash, a);
      SortedTail(hash, b);
      SortedUnique(hash, a[1..], b[1..]);
      HeadTail(a);
      HeadTail(b);
    }
  }

  /** Removing the same head from two arrangements of one multiset leaves
      arrangements of one multiset. */
  lemma SameHeadTails<T>(a: seq<T>, b: seq<T>)
    requires a != [] && b != [] && a[0] == b[0]
    requires multiset(a) == multiset(b)
    ensures multiset(a[1..]) == multiset(b[1..])
  {
    HeadTail(a);
    HeadTail(b);
    assert multiset(a) == multiset{a[0]} + multiset(a[1..]);
    assert multiset(b) == multiset{b[0]} + multiset(b[1..]);
    forall u
      ensures multiset(a[1..])[u] == multiset(b[1..])[u]
    {
      assert multiset(a)[u] == multiset(b)[u];
    }
  }

  /** Without digest collisions `deterministic_top_k` depends only on which
      URLs are given (with multiplicity), not on their order. */
  lemma TopKOrderIndependent(hash: string -> string, a: seq<string>, b: seq<string>, k: nat)
    requires multiset(a) == multiset(b)
    requires HashInjective(hash, a)
    ensures TopK(hash, a, k) == TopK(hash, b, k)
  {
    var sa := SortByHash(hash, a);
    SortByHashPermutes(hash, a);
    SortByHashPermutes(hash, b);
    assert forall u :: u in sa ==> u in multiset(a);
    SortedUnique(hash, sa, SortByHash(hash, b));
  }
}

=== FILE: layout.dfy ===
/** The layout of a text: its non-whitespace characters in order, with one
    gap for each maximal whitespace run between them. A gap records whether
    its run holds a line break, for a line-break class the caller picks.
    The whitespace rewrites of the cleaners keep this layout, and the words
    of Python's `str.split()` are determined by it. */
module Layout {
  import opened Seqs
  import opened Text

  datatype Token = Char(c: char) | Gap(breaks: bool)

  /** The line ends of universal-newline reading. */
  predicate IsLineEnd(c: char)
  {
    c == '\n' || c == '\r'
  }

  /** The line-break class that sees no line breaks at all. */
  predicate NoBreak(c: char)
  {
    false
  }

  /** Some character of `s` is a line break. */
  predicate HasBreak(s: string, brk: char -> bool)
  {
    exists i :: 0 <= i < |s| && brk(s[i])
  }

  lemma HasBreakAppend(a: string, b: string, brk: char -> bool)
    ensures HasBreak(a + b, brk) == (HasBreak(a, brk) || HasBreak(b, brk))
  {
    if HasBreak(a + b, brk) {
      var i :| 0 <= i < |a + b| && brk((a + b)[i]);
      if i < |a| { assert a[i] == (a + b)[i]; } else { assert b[i - |a|] == (a + b)[i]; }
    }
    if HasBreak(a, brk) {
      var i :| 0 <= i < |a| && brk(a[i]);
      assert (a + b)[i] == a[i];
    }
    if HasBreak(b, brk) {
      var i :| 0 <= i < |b| && brk(b[i]);
      assert (a + b)[|a| + i] == b[i];
    }
  }

  lemma HasBreakOne(x: char, brk: char -> bool)
    ensures HasBreak([x], brk) == brk(x)
  {
    if brk(x) { assert [x][0] == x; }
  }

  /** A non-empty run of class characters that all agree on being a break. */
  lemma HasBreakUniform(s: string, cls: char -> bool, brk: char -> bool, b: bool)
    requires s != [] && forall i :: 0 <= i < |s| ==> cls(s[i])
    requires forall c :: cls(c) ==> brk(c) == b
    ensures HasBreak(s, brk) == b
  {
    assert brk(s[0]) == b;
  }

  /** The layout of `s`, with line breaks as `brk` sees them. */
  function Shape(s: string, brk: char -> bool): (t: seq<Token>)
    ensures t == [] <==> s == []
    ensures s != [] ==> (t[0].Gap? <==> IsSpace(s[0]))
    decreases |s|
  {
    if s == [] then []
    else if IsSpace(s[0]) then
      var n := RunLen(s, IsSpace);
      [Gap(HasBreak(s[..n], brk))] + Shape(s[n..], brk)
    else
      [Char(s[0])] + Shape(s[1..], brk)
  }

  /** A gap in front of `t`, merged with the gap `t` opens with, if any. */
  function GapThen(b: bool, t: seq<Token>): seq<Token>
  {
    if t != [] && t[0].Gap? then [Gap(b || t[0].breaks)] + t[1..] else [Gap(b)] + t
  }

  /** Whitespace in front of a text joins the gap the text opens with. */
  lemma ShapeGapPrefix(g: string, y: string, brk: char -> bool)
    requires g != [] && AllSpace(g)
    ensures Shape(g + y, brk) == GapThen(HasBreak(g, brk), Shape(y, brk))
  {
    var m := RunLen(y, IsSpace);
    GapRun(g, y, m);
    HasBreakAppend(g, y[..m], brk);
    if m == 0 {
      assert y[..0] == [] && y[0..] == y;
    } else {
      assert Shape(y, brk) == [Gap(HasBreak(y[..m], brk))] + Shape(y[m..], brk);
    }
  }

  /** The opening whitespace run of `g + y` is `g` and the run `y` opens with. */
  lemma GapRun(g: string, y: string, m: nat)
    requires AllSpace(g) && m == RunLen(y, IsSpace)
    ensures RunLen(g + y, IsSpace) == |g| + m
    ensures (g + y)[..|g| + m] == g + y[..m]
    ensures (g + y)[|g| + m..] == y[m..]
  {
    var s := g + y;
    forall i | 0 <= i < |g| + m ensures IsSpace(s[i]) {
      if i >= |g| { assert s[i] == y[i - |g|]; }
    }
    if m < |y| { assert s[|g| + m] == y[m]; }
    RunLenIs(s, IsSpace, |g| + m);
  }

  lemma ShapeCharPrefix(c: char, y: string, brk: char -> bool)
    requires !IsSpace(c)
    ensures Shape([c] + y, brk) == [Char(c)] + Shape(y, brk)
  {
    assert ([c] + y)[1..] == y;
  }

  /** A whitespace character in front of a text joins its opening gap. */
  lemma ShapeSpacePrefix(c: char, y: string, brk: char -> bool)
    requires IsSpace(c)
    ensures Shape([c] + y, brk) == GapThen(brk(c), Shape(y, brk))
  {
    HasBreakOne(c, brk);
    ShapeGapPrefix([c], y, brk);
  }

  lemma GapThenAppend(b: bool, x: seq<Token>, y: seq<Token>)
    requires x != []
    ensures GapThen(b, x + y) == GapThen(b, x) + y
  {
    assert (x + y)[0] == x[0];
    if x[0].Gap? {
      assert (x + y)[1..] == x[1..] + y;
      AppendAssoc([Gap(b || x[0].breaks)], x[1..], y);
    } else {
      AppendAssoc([Gap(b)], x, y);
    }
  }

  /** Texts joined where no whitespace run is cut lay out piece by piece. */
  lemma {:induction false} ShapeAppend(a: string, b: string, brk: char -> bool)
    requires a == [] || b == [] || !IsSpace(a[|a| - 1]) || !IsSpace(b[0])
    ensures Shape(a + b, brk) == Shape(a, brk) + Shape(b, brk)
    decreases |a|
  {
    if a == [] {
      assert a + b == b;
    } else {
      var x := a[1..];
      HeadTail(a);
      AppendAssoc([a[0]], x, b);
      assert x != [] ==> x[|x| - 1] == a[|a| - 1];
      ShapeAppend(x, b, brk);
      ShapeConsAppend(a[0], x, b, brk);
    }
  }

  /** One step of `ShapeAppend`: a character in front of both sides. */
  lemma ShapeConsAppend(c: char, x: string, b: string, brk: char -> bool)
    requires Shape(x + b, brk) == Shape(x, brk) + Shape(b, brk)
    requires x != [] || b == [] || !IsSpace(c) || !IsSpace(b[0])
    ensures Shape([c] + (x + b), brk) == Shape([c] + x, brk) + Shape(b, brk)
  {
    if IsSpace(c) {
      ShapeSpacePrefix(c, x + b, brk);
      ShapeSpacePrefix(c, x, brk);
      if x == [] {
        assert x + b == b && [c] + x == [c];
      } else {
        GapThenAppend(brk(c), Shape(x, brk), Shape(b, brk));
      }
    } else {
      ShapeCharPrefix(c, x + b, brk);
      ShapeCharPrefix(c, x, brk);
      AppendAssoc([Char(c)], Shape(x, brk), Shape(b, brk));
    }
  }

  /** A non-empty all-whitespace text is a single gap. */
  lemma ShapeAllSpace(g: string, brk: char -> bool)
    requires g != [] && AllSpace(g)
    ensures Shape(g, brk) == [Gap(HasBreak(g, brk))]
  {
    assert g + [] == g;
    ShapeGapPrefix(g, [], brk);
  }

  /** Whitespace fronts that agree on holding a break, in front of texts
      with the same layout, give the same layout. */
  lemma ShapeSameGapFront(g1: string, y1: string, g2: string, y2: string, brk: char -> bool)
    requires g1 != [] && AllSpace(g1) && g2 != [] && AllSpace(g2)
    requires HasBreak(g1, brk) == HasBreak(g2, brk)
    requires Shape(y1, brk) == Shape(y2, brk)
    ensures Shape(g1 + y1, brk) == Shape(g2 + y2, brk)
  {
    ShapeGapPrefix(g1, y1, brk);
    ShapeGapPrefix(g2, y2, brk);
  }

  /** The same first character in front of texts with the same layout
      gives the same layout. */
  lemma ShapeSameFront(c: char, y1: string, y2: string, brk: char -> bool)
    requires Shape(y1, brk) == Shape(y2, brk)
    ensures Shape([c] + y1, brk) == Shape([c] + y2, brk)
  {
    if IsSpace(c) {
      ShapeSameGapFront([c], y1, [c], y2, brk);
    } else {
      ShapeCharPrefix(c, y1, brk);
      ShapeCharPrefix(c, y2, brk);
    }
  }

  /** Turning one whitespace character into another with the same break
      status keeps the layout. */
  lemma {:induction false} ReplaceCharShape(s: string, from: char, to: char, brk: char -> bool)
    requires IsSpace(from) && IsSpace(to) && brk(from) == brk(to)
    ensures Shape(ReplaceChar(s, from, to), brk) == Shape(s, brk)
    decreases |s|
  {
    if s != [] {
      var r := ReplaceChar(s, from, to);
      var rest := ReplaceChar(s[1..], from, to);
      ReplaceCharShape(s[1..], from, to, brk);
      assert r == [r[0]] + rest;
      assert s == [s[0]] + s[1..];
      if s[0] == from {
        HasBreakOne(from, brk);
        HasBreakOne(to, brk);
        ShapeSameGapFront([s[0]], s[1..], [r[0]], rest, brk);
      } else {
        ShapeSameFront(s[0], s[1..], rest, brk);
      }
    }
  }

  /** Turning "\r\n" into "\n" keeps the layout when both are breaks or
      neither is. */
  lemma {:induction false} ReplaceCrLfShape(s: string, brk: char -> bool)
    requires brk('\r') == brk('\n')
    ensures Shape(ReplaceCrLf(s), brk) == Shape(s, brk)
    decreases |s|
  {
    if s != [] {
      if |s| >= 2 && s[0] == '\r' && s[1] == '\n' {
        ReplaceCrLfShape(s[2..], brk);
        CrLfStepShape(s, brk);
      } else {
        ReplaceCrLfShape(s[1..], brk);
        OtherStepShape(s, brk);
      }
    }
  }

  lemma CrLfStepShape(s: string, brk: char -> bool)
    requires brk('\r') == brk('\n')
    requires |s| >= 2 && s[0] == '\r' && s[1] == '\n'
    requires Shape(ReplaceCrLf(s[2..]), brk) == Shape(s[2..], brk)
    ensures Shape(ReplaceCrLf(s), brk) == Shape(s, brk)
  {
    var rest := ReplaceCrLf(s[2..]);
    assert s[1..][1..] == s[2..];
    assert ReplaceCrLf(s) == ['\n'] + rest;
    HeadTail(s);
    HeadTail(s[1..]);
    ShapeSpacePrefix('\r', s[1..], brk);
    ShapeSpacePrefix('\n', s[2..], brk);
    ShapeSpacePrefix('\n', rest, brk);
    GapThenTwice(brk('\n'), Shape(s[2..], brk));
  }

  lemma GapThenTwice(b: bool, t: seq<Token>)
    ensures GapThen(b, GapThen(b, t)) == GapThen(b, t)
  {
  }

  lemma OtherStepShape(s: string, brk: char -> bool)
    requires s != [] && !(|s| >= 2 && s[0] == '\r' && s[1] == '\n')
    requires Shape(ReplaceCrLf(s[1..]), brk) == Shape(s[1..], brk)
    ensures Shape(ReplaceCrLf(s), brk) == Shape(s, brk)
  {
    var rest := ReplaceCrLf(s[1..]);
    assert ReplaceCrLf(s) == [s[0]] + rest;
    HeadTail(s);
    ShapeSameFront(s[0], s[1..], rest, brk);
  }

  /** Collapsing runs of a whitespace class whose characters agree on being
      breaks, into whitespace that agrees with them, keeps the layout. */
  lemma {:induction false} CollapseShape(s: string, cls: char -> bool, minLen: nat, repl: string,
                                         brk: char -> bool, b: bool)
    requires forall c :: cls(c) ==> IsSpace(c) && brk(c) == b
    requires repl != [] && AllSpace(repl) && HasBreak(repl, brk) == b
    ensures Shape(Collapse(s, cls, minLen, repl), brk) == Shape(s, brk)
    decreases |s|, 1
  {
    if s != [] {
      if cls(s[0]) {
        CollapseShapeRun(s, cls, minLen, repl, brk, b);
      } else {
        var rest := Collapse(s[1..], cls, minLen, repl);
        CollapseShape(s[1..], cls, minLen, repl, brk, b);
        assert Collapse(s, cls, minLen, repl) == [s[0]] + rest;
        assert s == [s[0]] + s[1..];
        ShapeSameFront(s[0], s[1..], rest, brk);
      }
    }
  }

  lemma CollapseShapeRun(s: string, cls: char -> bool, minLen: nat, repl: string,
                         brk: char -> bool, b: bool)
    requires forall c :: cls(c) ==> IsSpace(c) && brk(c) == b
    requires repl != [] && AllSpace(repl) && HasBreak(repl, brk) == b
    requires s != [] && cls(s[0])
    ensures Shape(Collapse(s, cls, minLen, repl), brk) == Shape(s, brk)
    decreases |s|, 0
  {
    var n := RunLen(s, cls);
    var run := s[..n];
    var head := if n >= minLen then repl else run;
    var rest := Collapse(s[n..], cls, minLen, repl);
    CollapseRunStep(s, cls, minLen, repl, n);
    CollapseShape(s[n..], cls, minLen, repl, brk, b);
    RunFront(s, cls, n, brk, b);
    ShapeSameGapFront(run, s[n..], head, rest, brk);
  }

  /** The opening run of a whitespace class whose characters agree on being
      breaks. */
  lemma RunFront(s: string, cls: char -> bool, n: nat, brk: char -> bool, b: bool)
    requires forall c :: cls(c) ==> IsSpace(c) && brk(c) == b
    requires s != [] && cls(s[0]) && n == RunLen(s, cls)
    ensures s[..n] != [] && AllSpace(s[..n]) && HasBreak(s[..n], brk) == b
    ensures s == s[..n] + s[n..]
  {
    assert forall i :: 0 <= i < n ==> s[..n][i] == s[i];
    HasBreakUniform(s[..n], cls, brk, b);
  }

  /** The layout without its leading and trailing gap. */
  function TrimGaps(t: seq<Token>): seq<Token>
  {
    var v := if t != [] && t[0].Gap? then t[1..] else t;
    if v != [] && v[|v| - 1].Gap? then v[..|v| - 1] else v
  }

  /** A layout without a trailing gap that does not hold a line break. */
  function DropEndGap(t: seq<Token>): seq<Token>
  {
    if t != [] && t[|t| - 1] == Gap(false) then t[..|t| - 1] else t
  }

  /** Dropping a final break-free gap first changes nothing for `TrimGaps`
      when that gap follows a character. */
  lemma TrimDropEnd(t: seq<Token>)
    requires |t| >= 2 && t[|t| - 1].Gap? ==> t[|t| - 2].Char?
    ensures TrimGaps(DropEndGap(t)) == TrimGaps(t)
  {
    if t != [] && t[|t| - 1] == Gap(false) && |t| >= 2 {
      var u := t[..|t| - 1];
      var v := if t[0].Gap? then t[1..] else t;
      assert v[..|v| - 1] == if u[0].Gap? then u[1..] else u;
    }
  }

  /** Dropping a final break-free gap commutes with putting a gap that
      holds a break in front. */
  lemma GapThenDrop(t: seq<Token>)
    ensures GapThen(true, DropEndGap(t)) == DropEndGap(GapThen(true, t))
  {
    if |t| >= 2 && t[|t| - 1] == Gap(false) {
      var g := GapThen(true, t);
      assert g[..|g| - 1] == GapThen(true, t[..|t| - 1]);
    }
  }

  lemma DropEndGapAppend(p: seq<Token>, u: seq<Token>)
    requires u != []
    ensures DropEndGap(p + u) == p + DropEndGap(u)
  {
    if u[|u| - 1] == Gap(false) {
      assert (p + u)[..|p + u| - 1] == p + u[..|u| - 1];
    }
  }

  /** A text without '\n' and '\r' holds no line end. */
  lemma NoLineEnd(s: string)
    requires '\n' !in s && '\r' !in s
    ensures !HasBreak(s, IsLineEnd)
  {
    assert forall i :: 0 <= i < |s| ==> s[i] in s;
  }

  /** A text between optional whitespace on both sides trims to itself. */
  lemma TrimGapsFrame(p: seq<Token>, x: seq<Token>, q: seq<Token>)
    requires |p| <= 1 && |q| <= 1
    requires p != [] ==> p[0].Gap?
    requires q != [] ==> q[0].Gap?
    requires x != [] && x[0].Char? && x[|x| - 1].Char?
    ensures TrimGaps(p + x + q) == x
  {
    var t := p + x + q;
    var v := if t != [] && t[0].Gap? then t[1..] else t;
    assert v == x + q;
  }

  /** The layout ends with a gap exactly when the text ends with whitespace. */
  lemma {:induction false} ShapeLast(s: string, brk: char -> bool)
    requires s != []
    ensures Shape(s, brk)[|Shape(s, brk)| - 1].Gap? <==> IsSpace(s[|s| - 1])
    decreases |s|
  {
    var k := if IsSpace(s[0]) then RunLen(s, IsSpace) else 1;
    EndAfterFront(s, k, brk);
    if k < |s| {
      ShapeLast(s[k..], brk);
      LastOfCons(Shape(s, brk), Shape(s[k..], brk));
      assert s[k..][|s[k..]| - 1] == s[|s| - 1];
    } else {
      assert Shape(s, brk) == [Shape(s, brk)[0]];
      assert IsSpace(s[0]) ==> IsSpace(s[|s| - 1]);
    }
  }

  lemma LastOfCons(t: seq<Token>, u: seq<Token>)
    requires u != [] && t != [] && t == [t[0]] + u
    ensures t[|t| - 1] == u[|u| - 1]
  {
  }

  /** A layout never holds two gaps side by side; in particular a final
      gap follows a character. */
  lemma {:induction false} ShapeEndGapAfterChar(s: string, brk: char -> bool)
    requires |Shape(s, brk)| >= 2 && Shape(s, brk)[|Shape(s, brk)| - 1].Gap?
    ensures Shape(s, brk)[|Shape(s, brk)| - 2].Char?
    decreases |s|
  {
    var k := if IsSpace(s[0]) then RunLen(s, IsSpace) else 1;
    var u := Shape(s[k..], brk);
    EndAfterFront(s, k, brk);
    if |u| >= 2 {
      ShapeEndGapAfterChar(s[k..], brk);
    }
  }

  /** Unconditional form of `ShapeEndGapAfterChar`. */
  lemma EndGapAfterChar(s: string, brk: char -> bool)
    ensures |Shape(s, brk)| >= 2 && Shape(s, brk)[|Shape(s, brk)| - 1].Gap? ==>
              Shape(s, brk)[|Shape(s, brk)| - 2].Char?
  {
    if |Shape(s, brk)| >= 2 && Shape(s, brk)[|Shape(s, brk)| - 1].Gap? {
      ShapeEndGapAfterChar(s, brk);
    }
  }

  /** The layout is one token for the front of `s` followed by the layout
      of the rest; when the front is a gap, the rest opens with a character. */
  lemma EndAfterFront(s: string, k: nat, brk: char -> bool)
    requires s != [] && k == if IsSpace(s[0]) then RunLen(s, IsSpace) else 1
    ensures 1 <= k <= |s|
    ensures Shape(s, brk) == [Shape(s, brk)[0]] + Shape(s[k..], brk)
    ensures Shape(s, brk)[0].Gap? ==> Shape(s[k..], brk) == [] || Shape(s[k..], brk)[0].Char?
  {
  }

  /** A text that ends with a non-whitespace character ends its layout
      with that character. */
  lemma ShapeEndsWithChar(s: string, brk: char -> bool)
    requires s != [] && !IsSpace(s[|s| - 1])
    ensures Shape(s, brk) != [] && Shape(s, brk)[|Shape(s, brk)| - 1] == Char(s[|s| - 1])
  {
    var c := s[|s| - 1];
    assert s == s[..|s| - 1] + [c];
    ShapeAppend(s[..|s| - 1], [c], brk);
    assert [c] + [] == [c];
    ShapeCharPrefix(c, [], brk);
  }

  /** `str.strip()` drops exactly the leading and trailing gap. */
  lemma StripShape(s: string, brk: char -> bool)
    ensures Shape(Strip(s), brk) == TrimGaps(Shape(s, brk))
  {
    var r := Strip(s);
    if r == [] {
      if s != [] { ShapeAllSpace(s, brk); }
    } else {
      StripShapeOf(s, RunLen(s, IsSpace), r, brk);
    }
  }

  /** `s` is its leading whitespace, the stripped text `r` and the trailing
      whitespace, in that order. */
  lemma StripShapeOf(s: string, a: nat, r: string, brk: char -> bool)
    requires a + |r| <= |s| && r == s[a..a + |r|]
    requires forall i :: 0 <= i < a ==> IsSpace(s[i])
    requires AllSpace(s[a + |r|..])
    requires r != [] && !IsSpace(r[0]) && !IsSpace(r[|r| - 1])
    ensures Shape(r, brk) == TrimGaps(Shape(s, brk))
  {
    assert s[a..] == r + s[a + |r|..];
    assert s == s[..a] + s[a..];
    assert forall i :: 0 <= i < a ==> s[..a][i] == s[i];
    StripShapeParts(s[..a], r, s[a + |r|..], brk);
  }

  lemma StripShapeParts(lead: string, r: string, trail: string, brk: char -> bool)
    requires AllSpace(lead) && AllSpace(trail)
    requires r != [] && !IsSpace(r[0]) && !IsSpace(r[|r| - 1])
    ensures TrimGaps(Shape(lead + (r + trail), brk)) == Shape(r, brk)
  {
    ShapeAppend(r, trail, brk);
    ShapeAppend(lead, r + trail, brk);
    AppendAssoc(Shape(lead, brk), Shape(r, brk), Shape(trail, brk));
    ShapeEndsWithChar(r, brk);
    ShapeOfSpace(lead, brk);
    ShapeOfSpace(trail, brk);
    TrimGapsFrame(Shape(lead, brk), Shape(r, brk), Shape(trail, brk));
  }

  /** Whitespace alone lays out as at most one gap. */
  lemma ShapeOfSpace(g: string, brk: char -> bool)
    requires AllSpace(g)
    ensures |Shape(g, brk)| <= 1
    ensures Shape(g, brk) != [] ==> Shape(g, brk)[0].Gap?
  {
    if g != [] { ShapeAllSpace(g, brk); }
  }

  predicate NotSpace(c: char)
  {
    !IsSpace(c)
  }

  /** Python's `str.split()` with no separator: the maximal runs of
      non-whitespace characters, in order. */
  function Words(s: string): (w: seq<string>)
    ensures forall i :: 0 <= i < |w| ==> w[i] != []
    decreases |s|
  {
    if s == [] then []
    else if IsSpace(s[0]) then Words(s[1..])
    else
      var n := RunLen(s, NotSpace);
      [s[..n]] + Words(s[n..])
  }

  /** A non-whitespace character in front of a text opens its first word
      or is a word of its own. */
  lemma WordsCons(c: char, y: string)
    requires !IsSpace(c)
    ensures Words([c] + y) == if y != [] && !IsSpace(y[0])
                              then [[c] + Words(y)[0]] + Words(y)[1..]
                              else [[c]] + Words(y)
  {
    var s := [c] + y;
    var m := RunLen(y, NotSpace);
    assert s[1..] == y;
    assert RunLen(s, NotSpace) == 1 + m;
    assert s[..1 + m] == [c] + y[..m];
    assert s[1 + m..] == y[m..];
    if m == 0 {
      assert y[..0] == [] && y[0..] == y;
    }
  }

  lemma {:induction false} WordsSkip(g: string, y: string)
    requires AllSpace(g)
    ensures Words(g + y) == Words(y)
    decreases |g|
  {
    if g != [] {
      assert (g + y)[1..] == g[1..] + y;
      WordsSkip(g[1..], y);
    } else {
      assert g + y == y;
    }
  }

  /** The words a layout spells. */
  function TokenWords(t: seq<Token>): (w: seq<string>)
    ensures t != [] && t[0].Char? ==> w != []
    decreases |t|
  {
    if t == [] then []
    else if t[0].Gap? then TokenWords(t[1..])
    else
      var rest := TokenWords(t[1..]);
      if |t| > 1 && t[1].Char? then [[t[0].c] + rest[0]] + rest[1..]
      else [[t[0].c]] + rest
  }

  /** The words of a text are the words of its layout, whatever the
      line-break class. */
  lemma {:induction false} WordsShape(s: string, brk: char -> bool)
    ensures Words(s) == TokenWords(Shape(s, brk))
    decreases |s|, 1
  {
    if s != [] {
      if IsSpace(s[0]) {
        WordsShapeGap(s, brk);
      } else {
        WordsShape(s[1..], brk);
        assert s == [s[0]] + s[1..];
        WordsCons(s[0], s[1..]);
        ShapeCharPrefix(s[0], s[1..], brk);
        assert ([Char(s[0])] + Shape(s[1..], brk))[1..] == Shape(s[1..], brk);
      }
    }
  }

  lemma WordsShapeGap(s: string, brk: char -> bool)
    requires s != [] && IsSpace(s[0])
    ensures Words(s) == TokenWords(Shape(s, brk))
    decreases |s|, 0
  {
    var n := RunLen(s, IsSpace);
    var g := s[..n];
    assert s == g + s[n..];
    assert AllSpace(g) by {
      forall i | 0 <= i < n ensures IsSpace(g[i]) { assert g[i] == s[i]; }
    }
    WordsSkip(g, s[n..]);
    WordsShape(s[n..], brk);
    assert ([Gap(HasBreak(g, brk))] + Shape(s[n..], brk))[1..] == Shape(s[n..], brk);
  }

  /** Texts with the same layout have the same words. */
  lemma SameShapeSameWords(a: string, b: string, brk: char -> bool)
    requires Shape(a, brk) == Shape(b, brk)
    ensures Words(a) == Words(b)
  {
    WordsShape(a, brk);
    WordsShape(b, brk);
  }

  lemma {:induction false} TokenWordsDropLast(u: seq<Token>)
    requires u != [] && u[|u| - 1].Gap?
    ensures TokenWords(u[..|u| - 1]) == TokenWords(u)
    decreases |u|
  {
    var v := u[..|u| - 1];
    if |u| > 1 {
      TokenWordsDropLast(u[1..]);
      assert v[1..] == u[1..][..|u[1..]| - 1];
      if |u| > 2 { assert v[1] == u[1]; }
    }
  }

  /** Trimming the outer gaps keeps the words. */
  lemma TokenWordsTrim(t: seq<Token>)
    ensures TokenWords(TrimGaps(t)) == TokenWords(t)
  {
    var v := if t != [] && t[0].Gap? then t[1..] else t;
    if v != [] && v[|v| - 1].Gap? { TokenWordsDropLast(v); }
  }
}

=== FILE: lex_order.dfy ===
/** Python's ordering of `str` values: lexicographic by code point, a proper
    prefix coming first. Hex digests are compared with it when they are
    used as sort keys. */
module LexOrder {

  predicate Less(a: string, b: string)
    decreases |a|
  {
    if a == [] then b != []
    else if b == [] then false
    else if a[0] == b[0] then Less(a[1..], b[1..])
    else a[0] < b[0]
  }

  lemma {:induction false} Irreflexive(a: string)
    ensures !Less(a, a)
    decreases |a|
  {
    if a != [] {
      Irreflexive(a[1..]);
    }
  }

  lemma {:induction false} Transitive(a: string, b: string, c: string)
    requires Less(a, b) && Less(b, c)
    ensures Less(a, c)
    decreases |a|
  {
    if a != [] && a[0] == b[0] && b[0] == c[0] {
      Transitive(a[1..], b[1..], c[1..]);
    }
  }

  lemma {:induction false} Total(a: string, b: string)
    ensures a == b || Less(a, b) || Less(b, a)
    decreases |a|
  {
    if a != [] && b != [] && a[0] == b[0] {
      Total(a[1..], b[1..]);
      if a[1..] == b[1..] {
        assert a == [a[0]] + a[1..] && b == [b[0]] + b[1..];
      }
    }
  }

  /** No two strings are each below the other. */
  lemma Asymmetric(a: string, b: string)
    ensures !(Less(a, b) && Less(b, a))
  {
    if Less(a, b) && Less(b, a) {
      Transitive(a, b, a);
      Irreflexive(a);
    }
  }

  /** Two strings neither of which is below the other are equal. */
  lemma Antisymmetric(a: string, b: string)
    requires !Less(a, b) && !Less(b, a)
    ensures a == b
  {
    Total(a, b);
  }

  /** `a < b <= c` gives `a < c`. */
  lemma LessThenNotBelow(a: string, b: string, c: string)
    requires Less(a, b) && !Less(c, b)
    ensures Less(a, c)
  {
    Total(b, c);
    if b != c {
      Transitive(a, b, c);
    }
  }
}

=== FILE: patterns.dfy ===
/** The regular-expression substitutions of extract_amg.py and
    extract_amg_better.py: the `\s+` collapse and the fixed artifact
    patterns deleted with `re.sub(pattern, '', text)`. `\s` is Python's
    Unicode whitespace (`IsSpace`); `\d` is taken to be an ASCII digit. */
module Patterns {
  import opened Seqs
  import opened Text
  import opened Layout

  /** `re.sub(r'\s+', ' ', text)`: every whitespace run becomes one space. */
  function CollapseWhitespace(s: string): (r: string)
    ensures |r| <= |s|
    ensures NoAdjacent(r, IsSpace)
    ensures forall c :: c in r && IsSpace(c) ==> c == ' '
    ensures forall c :: c in r ==> c in s || c == ' '
    ensures (forall i :: 0 <= i < |s| ==> !IsSpace(s[i])) ==> r == s
    ensures NonClass(r, IsSpace) == NonClass(s, IsSpace)
    ensures Shape(r, NoBreak) == Shape(s, NoBreak)
    ensures Words(r) == Words(s)
    ensures (r != [] && r[0] == ' ') <==> (s != [] && IsSpace(s[0]))
    ensures (r != [] && r[|r| - 1] == ' ') <==> (s != [] && IsSpace(s[|s| - 1]))
  {
    CollapseShorter(s, IsSpace, 1, " ");
    CollapseKeepsOthers(s, IsSpace, IsSpace, 1, " ");
    CollapseNoAdjacent(s, IsSpace, 1, " ");
    CollapseClassChars(s, IsSpace, 1, " ");
    WhitespaceLayout(s, Collapse(s, IsSpace, 1, " "));
    Collapse(s, IsSpace, 1, " ")
  }

  /** The `\s+` collapse keeps every word and every gap between words, and
      leaves a space at either end exactly where the input had whitespace. */
  lemma WhitespaceLayout(s: string, r: string)
    requires r == Collapse(s, IsSpace, 1, " ")
    ensures Shape(r, NoBreak) == Shape(s, NoBreak)
    ensures Words(r) == Words(s)
    ensures (r != [] && r[0] == ' ') <==> (s != [] && IsSpace(s[0]))
    ensures (r != [] && r[|r| - 1] == ' ') <==> (s != [] && IsSpace(s[|s| - 1]))
  {
    HasBreakOne(' ', NoBreak);
    CollapseShape(s, IsSpace, 1, " ", NoBreak, false);
    SameShapeSameWords(r, s, NoBreak);
    CollapseClassChars(s, IsSpace, 1, " ");
    if s != [] {
      ShapeLast(r, NoBreak);
      ShapeLast(s, NoBreak);
      assert r[0] in r && r[|r| - 1] in r;
    }
  }

  /** The artifact patterns. */
  datatype Pattern =
    | ExhibitHeader     // `Exhibit 10\.1\s+`
    | ExecutionVersion  // `EXECUTION VERSION\s+`
    | PageNumber        // `\[\d+\]`
    | RemainderNotice   // `\[Remainder\s+of\s+Page\s+Intentionally\s+Left\s+Blank\]`
    | PoundSign         // `£`

  /** The fixed text every match of a pattern starts with. */
  function Opening(p: Pattern): (o: string)
    ensures o != []
  {
    match p
    case ExhibitHeader => "Exhibit 10.1"
    case ExecutionVersion => "EXECUTION VERSION"
    case PageNumber => "["
    case RemainderNotice => "[" + RemainderWords[0]
    case PoundSign => "\U{A3}"
  }

  const RemainderWords: seq<string> := ["Remainder", "of", "Page", "Intentionally", "Left", "Blank"]

  predicate IsDigit(c: char)
  {
    '0' <= c <= '9'
  }

  /** Length of a match of `w0\s+w1\s+...\s+wn` at the start of `s`, 0 when
      there is none. The words start with a letter, so taking the longest
      whitespace run is the only way to match. */
  function SpacedWords(words: seq<string>, s: string): (n: nat)
    requires words != [] && words[0] != []
    ensures n <= |s|
    ensures n > 0 ==> StartsWith(s, words[0])
    decreases |words|
  {
    var w := words[0];
    if !StartsWith(s, w) then 0
    else if |words| == 1 then |w|
    else
      var gap := RunLen(s[|w|..], IsSpace);
      if gap == 0 || words[1] == [] then 0
      else
        var m := SpacedWords(words[1..], s[|w| + gap..]);
        if m == 0 then 0 else |w| + gap + m
  }

  /** Length of the match of `p` at the start of `s`, 0 when there is none. */
  function MatchLength(p: Pattern, s: string): (n: nat)
    ensures n <= |s|
    ensures n > 0 ==> StartsWith(s, Opening(p))
  {
    match p
    case ExhibitHeader => LiteralThenSpace("Exhibit 10.1", s)
    case ExecutionVersion => LiteralThenSpace("EXECUTION VERSION", s)
    case PageNumber => PageNumberLength(s)
    case RemainderNotice => RemainderLength(s)
    case PoundSign => if StartsWith(s, "\U{A3}") then 1 else 0
  }

  /** `\[\d+\]`: there is no other way to match than the longest digit run. */
  function PageNumberLength(s: string): (n: nat)
    ensures n <= |s|
    ensures n > 0 ==> StartsWith(s, "[")
  {
    if s == [] || s[0] != '[' then 0
    else
      var d := RunLen(s[1..], IsDigit);
      if d > 0 && 1 + d < |s| && s[1 + d] == ']' then d + 2 else 0
  }

  /** `\[Remainder\s+of\s+Page\s+Intentionally\s+Left\s+Blank\]`. */
  function RemainderLength(s: string): (n: nat)
    ensures n <= |s|
    ensures n > 0 ==> StartsWith(s, "[" + RemainderWords[0])
  {
    if s == [] || s[0] != '[' then 0
    else
      var m := RemainderWordsLength(s[1..]);
      if m > 0 && 1 + m < |s| && s[1 + m] == ']' then
        StartsWithCons('[', s[1..], RemainderWords[0]);
        HeadTail(s);
        m + 2
      else 0
  }

  /** The words of the notice with whitespace runs between them. */
  function RemainderWordsLength(t: string): (m: nat)
    ensures m <= |t|
    ensures m > 0 ==> StartsWith(t, RemainderWords[0])
  {
    SpacedWords(RemainderWords, t)
  }

  /** `literal\s+`: the literal and the whole whitespace run after it. */
  function LiteralThenSpace(literal: string, s: string): (n: nat)
    ensures n <= |s|
    ensures n > 0 ==> StartsWith(s, literal) && n > |literal|
    ensures n > 0 ==> forall i :: |literal| <= i < n ==> IsSpace(s[i])
    ensures n > 0 ==> n == |s| || !IsSpace(s[n])
    ensures n == 0 <==>
              !StartsWith(s, literal) || |s| == |literal| || !IsSpace(s[|literal|])
  {
    if StartsWith(s, literal) then
      var t := s[|literal|..];
      var gap := RunLen(t, IsSpace);
      assert forall k :: 0 <= k < |t| ==> t[k] == s[|literal| + k];
      if gap > 0 then |literal| + gap else 0
    else 0
  }

  /** `re.sub(p, '', s)`: scanning from the left, each match is deleted
      and scanning resumes after it; the result is not scanned again. */
  function Delete(p: Pattern, s: string): (r: string)
    ensures IsSubseq(r, s)
    decreases |s|
  {
    if s == [] then []
    else
      var n := MatchLength(p, s);
      if n > 0 then
        var rest := Delete(p, s[n..]);
        SubseqSlice(s, n, |s|);
        assert s[n..|s|] == s[n..];
        SubseqTrans(rest, s[n..], s);
        rest
      else
        var rest := Delete(p, s[1..]);
        SubseqCons(rest, s[0], s[1..]);
        HeadTail(s);
        [s[0]] + rest
  }

  /** Where the pattern's opening text never occurs, nothing is deleted. */
  lemma {:induction false} DeleteUnchanged(p: Pattern, s: string)
    requires forall i :: 0 <= i < |s| ==> !StartsWith(s[i..], Opening(p))
    ensures Delete(p, s) == s
    decreases |s|
  {
    if s != [] {
      assert s[0..] == s;
      forall i | 0 <= i < |s[1..]|
        ensures !StartsWith(s[1..][i..], Opening(p))
      {
        assert s[1..][i..] == s[1 + i..];
      }
      DeleteUnchanged(p, s[1..]);
      HeadTail(s);
    }
  }
}

=== FILE: sections.dfy ===
/** `clean_and_format_text` of extract_amg_better.py; the copy in
    archive/extract_amg_credit_agreement.py is the same code. The text's
    whitespace is collapsed, split by `re.split` into parts (the parameter
    `split`, markers included), the parts are grouped into sections, sections
    whose first fifty characters were seen before are dropped, and the rest
    are joined by blank lines and cleaned of artifacts. */
module Sections {
  import opened Seqs
  import opened Text
  import opened Patterns

  /** `part.startswith(('Section', 'WHEREAS', 'NOW THEREFORE', 'IN WITNESS', 'ANNEX'))`. */
  predicate OpensSection(part: string)
  {
    || StartsWith(part, "Section")
    || StartsWith(part, "WHEREAS")
    || StartsWith(part, "NOW THEREFORE")
    || StartsWith(part, "IN WITNESS")
    || StartsWith(part, "ANNEX")
  }

  /** `part.strip()` is empty: the part is all whitespace. */
  predicate IsBlank(part: string)
  {
    AllSpace(part)
  }

  // ---------------------------------------------------------------------
  // Grouping, as the loop does it: strings accumulated in `current_section`.

  /** `sections` and `current_section` during the loop. */
  datatype Grouping = Grouping(sections: seq<string>, current: string)

  /** One iteration of the loop over the parts. */
  function Step(g: Grouping, part: string): (h: Grouping)
    ensures g.sections <= h.sections && |h.sections| <= |g.sections| + 1
    ensures forall i :: |g.sections| <= i < |h.sections| ==> h.sections[i] != [] && IsStripped(h.sections[i])
    ensures |h.sections| == |g.sections| + 1 <==> !IsBlank(part) && OpensSection(part) && !AllSpace(g.current)
  {
    if IsBlank(part) then g
    else if OpensSection(part) then
      Grouping(if Strip(g.current) != [] then g.sections + [Strip(g.current)] else g.sections, part)
    else Grouping(g.sections, g.current + part)
  }

  function GroupFrom(g: Grouping, parts: seq<string>): Grouping
    decreases |parts|
  {
    if parts == [] then g else GroupFrom(Step(g, parts[0]), parts[1..])
  }

  /** The sections the loop builds, the last one flushed after it. */
  function Sections(parts: seq<string>): (secs: seq<string>)
    ensures forall i :: 0 <= i < |secs| ==> secs[i] != [] && IsStripped(secs[i])
    ensures forall i :: 1 <= i < |secs| ==> OpensSection(secs[i])
  {
    var secs := FlushSections(GroupFrom(Grouping([], ""), parts));
    LoopRendersGroups(parts);
    RenderedSections(secs, GroupParts(parts));
    secs
  }

  /** After the loop: the last section, if not blank, is appended. */
  function FlushSections(g: Grouping): (secs: seq<string>)
    ensures g.sections <= secs && |secs| <= |g.sections| + 1
    ensures |secs| == |g.sections| + 1 <==> !AllSpace(g.current)
    ensures forall i :: |g.sections| <= i < |secs| ==> secs[i] != [] && IsStripped(secs[i])
  {
    if Strip(g.current) != [] then g.sections + [Strip(g.current)] else g.sections
  }

  // ---------------------------------------------------------------------
  // Grouping at the level of parts: which parts make up each section.

  /** Finished groups of parts and the group being filled. */
  datatype PartGroups = PartGroups(done: seq<seq<string>>, current: seq<string>)

  function GroupStep(st: PartGroups, part: string): PartGroups
  {
    if IsBlank(part) then st
    else if OpensSection(part) then
      PartGroups(if st.current != [] then st.done + [st.current] else st.done, [part])
    else PartGroups(st.done, st.current + [part])
  }

  function Flatten(groups: seq<seq<string>>): seq<string>
    decreases |groups|
  {
    if groups == [] then [] else Flatten(groups[..|groups| - 1]) + groups[|groups| - 1]
  }

  /** The parts that are not blank, in order. */
  function NonBlank(parts: seq<string>): seq<string>
    decreases |parts|
  {
    if parts == [] then [] else (if IsBlank(parts[0]) then [] else [parts[0]]) + NonBlank(parts[1..])
  }

  /** How groups look: no empty group, no blank part, a part that opens a
      section at the head of every group but the first and nowhere else. */
  predicate WellShaped(groups: seq<seq<string>>)
  {
    && (forall i :: 0 <= i < |groups| ==> groups[i] != [])
    && (forall i, j :: 0 <= i < |groups| && 0 <= j < |groups[i]| ==> !IsBlank(groups[i][j]))
    && (forall i :: 1 <= i < |groups| ==> OpensSection(groups[i][0]))
    && (forall i, j :: 0 <= i < |groups| && 1 <= j < |groups[i]| ==> !OpensSection(groups[i][j]))
  }

  predicate WellGrouped(st: PartGroups)
  {
    && WellShaped(st.done)
    && (forall j :: 0 <= j < |st.current| ==> !IsBlank(st.current[j]))
    && (forall j :: 1 <= j < |st.current| ==> !OpensSection(st.current[j]))
    && (st.done != [] ==> st.current != [] && OpensSection(st.current[0]))
  }

  function Flush(st: PartGroups): seq<seq<string>>
  {
    if st.current != [] then st.done + [st.current] else st.done
  }

  lemma FlushShaped(st: PartGroups)
    requires WellGrouped(st)
    ensures WellShaped(Flush(st))
    ensures Flatten(Flush(st)) == Flatten(st.done) + st.current
  {
    if st.current != [] {
      WellShapedSnoc(st.done, st.current);
      assert (st.done + [st.current])[..|st.done|] == st.done;
    } else {
      assert Flatten(st.done) + [] == Flatten(st.done);
    }
  }

  /** A finished group may be appended to well-shaped groups. */
  lemma WellShapedSnoc(groups: seq<seq<string>>, g: seq<string>)
    requires WellShaped(groups) && g != []
    requires forall j :: 0 <= j < |g| ==> !IsBlank(g[j])
    requires forall j :: 1 <= j < |g| ==> !OpensSection(g[j])
    requires groups != [] ==> OpensSection(g[0])
    ensures WellShaped(groups + [g])
  {
    var r := groups + [g];
    forall i | 0 <= i < |r|
      ensures r[i] == if i < |groups| then groups[i] else g
    {
    }
    forall i, j | 0 <= i < |r| && 0 <= j < |r[i]|
      ensures !IsBlank(r[i][j])
    {
      if i < |groups| {
        assert r[i][j] == groups[i][j];
      }
    }
    forall i, j | 0 <= i < |r| && 1 <= j < |r[i]|
      ensures !OpensSection(r[i][j])
    {
      if i < |groups| {
        assert r[i][j] == groups[i][j];
      }
    }
  }

  lemma GroupStepShaped(st: PartGroups, part: string)
    requires WellGrouped(st)
    ensures WellGrouped(GroupStep(st, part))
    ensures Flatten(GroupStep(st, part).done) + GroupStep(st, part).current
         == Flatten(st.done) + st.current + (if IsBlank(part) then [] else [part])
  {
    if IsBlank(part) {
      assert Flatten(st.done) + st.current + [] == Flatten(st.done) + st.current;
    } else if OpensSection(part) {
      OpeningStepShaped(st, part);
    } else {
      ContinuingStepShaped(st, part);
    }
  }

  /** A part that opens a section closes the current group and starts one. */
  lemma OpeningStepShaped(st: PartGroups, part: string)
    requires WellGrouped(st) && !IsBlank(part) && OpensSection(part)
    ensures WellGrouped(PartGroups(Flush(st), [part]))
    ensures Flatten(Flush(st)) + [part] == Flatten(st.done) + st.current + [part]
  {
    FlushShaped(st);
    var c := [part];
    assert |c| == 1 && c[0] == part;
    assert forall j :: 0 <= j < |c| ==> !IsBlank(c[j]);
  }

  /** Any other non-blank part joins the current group. */
  lemma ContinuingStepShaped(st: PartGroups, part: string)
    requires WellGrouped(st) && !IsBlank(part) && !OpensSection(part)
    ensures WellGrouped(PartGroups(st.done, st.current + [part]))
    ensures Flatten(st.done) + (st.current + [part]) == Flatten(st.done) + st.current + [part]
  {
    var c := st.current + [part];
    forall j | 0 <= j < |c|
      ensures !IsBlank(c[j]) && (j >= 1 ==> !OpensSection(c[j]))
    {
      if j < |st.current| {
        assert c[j] == st.current[j];
      }
    }
    AppendAssoc(Flatten(st.done), st.current, [part]);
  }

  function GroupPartsFrom(st: PartGroups, parts: seq<string>): (r: PartGroups)
    requires WellGrouped(st)
    ensures WellGrouped(r)
    ensures Flatten(r.done) + r.current == Flatten(st.done) + st.current + NonBlank(parts)
    decreases |parts|
  {
    if parts == [] then
      assert Flatten(st.done) + st.current + [] == Flatten(st.done) + st.current;
      st
    else
      var next := GroupStep(st, parts[0]);
      GroupStepShaped(st, parts[0]);
      var r := GroupPartsFrom(next, parts[1..]);
      var head := if IsBlank(parts[0]) then [] else [parts[0]];
      AppendAssoc(Flatten(st.done) + st.current, head, NonBlank(parts[1..]));
      r
  }

  /** The parts of each section: every non-blank part, in order, with a new
      group begun at each part that opens a section. */
  function GroupParts(parts: seq<string>): (groups: seq<seq<string>>)
    ensures Flatten(groups) == NonBlank(parts)
    ensures WellShaped(groups)
  {
    var st := GroupPartsFrom(PartGroups([], []), parts);
    FlushShaped(st);
    assert Flatten([]) + [] + NonBlank(parts) == NonBlank(parts);
    Flush(st)
  }

  // ---------------------------------------------------------------------
  // The loop's strings are the stripped concatenations of those groups.

  /** The section a group of parts makes: its parts joined, then stripped. */
  function Render(group: seq<string>): string
  {
    Strip(Concat(group))
  }

  /** `secs[i]` is the section `groups[i]` makes. */
  predicate Renders(secs: seq<string>, groups: seq<seq<string>>)
  {
    |secs| == |groups| && forall i :: 0 <= i < |secs| ==> secs[i] == Render(groups[i])
  }

  predicate Simulates(g: Grouping, st: PartGroups)
  {
    Renders(g.sections, st.done) && g.current == Concat(st.current)
  }

  lemma {:induction false} AllSpaceConcat(a: string, b: string)
    ensures AllSpace(a + b) <==> AllSpace(a) && AllSpace(b)
  {
    if AllSpace(a) && AllSpace(b) {
      forall i | 0 <= i < |a + b|
        ensures IsSpace((a + b)[i])
      {
        if i >= |a| {
          assert (a + b)[i] == b[i - |a|];
        }
      }
    }
    if AllSpace(a + b) {
      forall i | 0 <= i < |a|
        ensures IsSpace(a[i])
      {
        assert (a + b)[i] == a[i];
      }
      forall i | 0 <= i < |b|
        ensures IsSpace(b[i])
      {
        assert (a + b)[|a| + i] == b[i];
      }
    }
  }

  /** A concatenation of non-blank parts is blank only when there are none. */
  lemma {:induction false} ConcatBlank(parts: seq<string>)
    requires forall j :: 0 <= j < |parts| ==> !IsBlank(parts[j])
    ensures IsBlank(Concat(parts)) <==> parts == []
    decreases |parts|
  {
    if parts != [] {
      AllSpaceConcat(parts[0], Concat(parts[1..]));
    }
  }

  lemma {:induction false} ConcatSnoc(parts: seq<string>, p: string)
    ensures Concat(parts + [p]) == Concat(parts) + p
    decreases |parts|
  {
    if parts == [] {
      assert [] + [p] == [p];
      assert [p][1..] == [];
      assert p + [] == p;
    } else {
      assert (parts + [p])[1..] == parts[1..] + [p];
      ConcatSnoc(parts[1..], p);
    }
  }

  lemma StepSimulates(g: Grouping, st: PartGroups, part: string)
    requires WellGrouped(st) && Simulates(g, st)
    ensures Simulates(Step(g, part), GroupStep(st, part))
  {
    if !IsBlank(part) {
      if OpensSection(part) {
        OpeningStepSimulates(g, st, part);
      } else {
        ConcatSnoc(st.current, part);
      }
    }
  }

  lemma OpeningStepSimulates(g: Grouping, st: PartGroups, part: string)
    requires WellGrouped(st) && Simulates(g, st)
    requires !IsBlank(part) && OpensSection(part)
    ensures Simulates(Step(g, part), GroupStep(st, part))
  {
    ConcatBlank(st.current);
    assert [part][1..] == [];
    assert Concat([part]) == part + [];
    assert Step(g, part) == Grouping(FlushSections(g), part);
    assert GroupStep(st, part) == PartGroups(Flush(st), [part]);
    FlushRenders(g, st);
  }

  lemma {:induction false} GroupSimulation(g: Grouping, st: PartGroups, parts: seq<string>)
    requires WellGrouped(st) && Simulates(g, st)
    ensures Simulates(GroupFrom(g, parts), GroupPartsFrom(st, parts))
    decreases |parts|
  {
    if parts != [] {
      StepSimulates(g, st, parts[0]);
      GroupStepShaped(st, parts[0]);
      GroupSimulation(Step(g, parts[0]), GroupStep(st, parts[0]), parts[1..]);
    }
  }

  lemma FlushRenders(g: Grouping, st: PartGroups)
    requires WellGrouped(st) && Simulates(g, st)
    ensures Renders(FlushSections(g), Flush(st))
  {
    ConcatBlank(st.current);
    if st.current != [] {
      RendersSnoc(g.sections, st.done, Strip(g.current), st.current);
    }
  }

  lemma RendersSnoc(secs: seq<string>, groups: seq<seq<string>>, s: string, group: seq<string>)
    requires Renders(secs, groups) && s == Render(group)
    ensures Renders(secs + [s], groups + [group])
  {
    forall i | 0 <= i < |secs| + 1
      ensures (secs + [s])[i] == Render((groups + [group])[i])
    {
      if i < |secs| {
        assert (secs + [s])[i] == secs[i];
        assert (groups + [group])[i] == groups[i];
      }
    }
  }

  lemma LoopRendersGroups(parts: seq<string>)
    ensures Renders(FlushSections(GroupFrom(Grouping([], ""), parts)), GroupParts(parts))
  {
    var g := GroupFrom(Grouping([], ""), parts);
    var st := GroupPartsFrom(PartGroups([], []), parts);
    GroupSimulation(Grouping([], ""), PartGroups([], []), parts);
    FlushRenders(g, st);
  }

  /** Marker prefixes begin and end with a non-space, so stripping keeps them. */
  lemma StripKeepsPrefix(s: string, p: string)
    requires StartsWith(s, p) && p != []
    requires !IsSpace(p[0]) && !IsSpace(p[|p| - 1])
    ensures StartsWith(Strip(s), p)
  {
    assert RunLen(s, IsSpace) == 0 && s[0..] == s;
    assert s[|p| - 1] == p[|p| - 1];
    var r := RStrip(s);
    assert |r| >= |p|;
    assert r[..|p|] == s[..|p|];
  }

  lemma StripKeepsOpening(s: string)
    requires OpensSection(s)
    ensures OpensSection(Strip(s))
  {
    if StartsWith(s, "Section") {
      StripKeepsPrefix(s, "Section");
    } else if StartsWith(s, "WHEREAS") {
      StripKeepsPrefix(s, "WHEREAS");
    } else if StartsWith(s, "NOW THEREFORE") {
      StripKeepsPrefix(s, "NOW THEREFORE");
    } else if StartsWith(s, "IN WITNESS") {
      StripKeepsPrefix(s, "IN WITNESS");
    } else {
      StripKeepsPrefix(s, "ANNEX");
    }
  }

  lemma StartsWithAppend(s: string, t: string, p: string)
    requires StartsWith(s, p)
    ensures StartsWith(s + t, p)
  {
    assert (s + t)[..|p|] == s[..|p|];
  }

  lemma OpensSectionAppend(s: string, t: string)
    requires OpensSection(s)
    ensures OpensSection(s + t)
  {
    if StartsWith(s, "Section") {
      StartsWithAppend(s, t, "Section");
    } else if StartsWith(s, "WHEREAS") {
      StartsWithAppend(s, t, "WHEREAS");
    } else if StartsWith(s, "NOW THEREFORE") {
      StartsWithAppend(s, t, "NOW THEREFORE");
    } else if StartsWith(s, "IN WITNESS") {
      StartsWithAppend(s, t, "IN WITNESS");
    } else {
      StartsWithAppend(s, t, "ANNEX");
    }
  }

  /** Rendering well-shaped groups gives non-empty stripped sections, each
      after the first opening with a marker. */
  lemma RenderedSections(secs: seq<string>, groups: seq<seq<string>>)
    requires Renders(secs, groups) && WellShaped(groups)
    ensures forall i :: 0 <= i < |secs| ==> secs[i] != [] && IsStripped(secs[i])
    ensures forall i :: 1 <= i < |secs| ==> OpensSection(secs[i])
  {
    forall i | 0 <= i < |secs|
      ensures secs[i] != [] && IsStripped(secs[i])
      ensures i >= 1 ==> OpensSection(secs[i])
    {
      var gi := groups[i];
      ConcatBlank(gi);
      if i >= 1 {
        assert Concat(gi) == gi[0] + Concat(gi[1..]);
        OpensSectionAppend(gi[0], Concat(gi[1..]));
        StripKeepsOpening(Concat(gi));
      }
    }
  }

  /** The sections are exactly the groups of parts, each concatenated and
      stripped: grouping loses, duplicates and reorders no non-blank part. */
  lemma SectionsAreGroups(parts: seq<string>)
    ensures Renders(Sections(parts), GroupParts(parts))
  {
    LoopRendersGroups(parts);
  }

  // ---------------------------------------------------------------------
  // Removing sections whose first fifty characters were seen before.

  /** `section[:50]`. */
  function Key(s: string): (k: string)
    ensures |k| <= 50 && |k| <= |s| && k == s[..|k|]
    ensures |k| == 50 || k == s
  {
    if |s| <= 50 then s else s[..50]
  }

  /** The loop from `seen`: a section is kept when its key is new. */
  function DedupFrom(secs: seq<string>, seen: set<string>): (r: seq<string>)
    ensures IsSubseq(r, secs)
    ensures forall i :: 0 <= i < |r| ==> Key(r[i]) !in seen
    ensures forall i, j :: 0 <= i < j < |r| ==> Key(r[i]) != Key(r[j])
    decreases |secs|
  {
    if secs == [] then []
    else
      var k := Key(secs[0]);
      HeadTail(secs);
      if k in seen then
        var rest := DedupFrom(secs[1..], seen);
        SubseqConcat([], rest, [secs[0]], secs[1..]);
        assert [] + rest == rest;
        rest
      else
        var rest := DedupFrom(secs[1..], seen + {k});
        SubseqCons(rest, secs[0], secs[1..]);
        [secs[0]] + rest
  }

  function Dedup(secs: seq<string>): (r: seq<string>)
    ensures IsSubseq(r, secs) && |r| <= |secs|
    ensures forall i, j :: 0 <= i < j < |r| ==> Key(r[i]) != Key(r[j])
  {
    var r := DedupFrom(secs, {});
    SubseqBounds(r, secs);
    r
  }

  /** `secs[j]` is the first section with its key. */
  predicate FirstWithKey(secs: seq<string>, j: nat)
    requires j < |secs|
  {
    forall l :: 0 <= l < j ==> Key(secs[l]) != Key(secs[j])
  }

  /** Some section of `r` has key `k`. */
  predicate KeyKept(r: seq<string>, k: string)
  {
    exists i :: 0 <= i < |r| && Key(r[i]) == k
  }

  /** `x` is the first section of `secs` with its key. */
  predicate IsFirstOccurrence(secs: seq<string>, x: string)
  {
    exists j :: 0 <= j < |secs| && secs[j] == x && FirstWithKey(secs, j)
  }

  /** Every key not yet seen is kept. */
  lemma {:induction false} DedupFromCovers(secs: seq<string>, seen: set<string>)
    ensures forall j :: 0 <= j < |secs| && Key(secs[j]) !in seen ==> KeyKept(DedupFrom(secs, seen), Key(secs[j]))
    decreases |secs|
  {
    if secs != [] {
      var k := Key(secs[0]);
      var tail := secs[1..];
      var seen' := if k in seen then seen else seen + {k};
      var rest := DedupFrom(tail, seen');
      var r := DedupFrom(secs, seen);
      DedupFromCovers(tail, seen');
      assert r == if k in seen then rest else [secs[0]] + rest;
      forall j | 0 <= j < |secs| && Key(secs[j]) !in seen
        ensures KeyKept(r, Key(secs[j]))
      {
        if Key(secs[j]) == k {
          assert Key(r[0]) == k;
        } else {
          assert tail[j - 1] == secs[j];
          assert KeyKept(rest, Key(tail[j - 1]));
          var i :| 0 <= i < |rest| && Key(rest[i]) == Key(tail[j - 1]);
          assert r[|r| - |rest| + i] == rest[i];
        }
      }
    }
  }

  lemma FirstWithKeyShift(secs: seq<string>, j: nat)
    requires j + 1 < |secs| && FirstWithKey(secs[1..], j)
    requires Key(secs[0]) != Key(secs[j + 1])
    ensures FirstWithKey(secs, j + 1)
  {
    forall l | 0 <= l < j + 1
      ensures Key(secs[l]) != Key(secs[j + 1])
    {
      if l > 0 {
        assert secs[l] == secs[1..][l - 1];
      }
    }
  }

  /** What is kept for each key is the first section that has it. */
  lemma {:induction false} DedupFromFirst(secs: seq<string>, seen: set<string>)
    ensures forall i :: 0 <= i < |DedupFrom(secs, seen)| ==> IsFirstOccurrence(secs, DedupFrom(secs, seen)[i])
    decreases |secs|
  {
    if secs != [] {
      var k := Key(secs[0]);
      var tail := secs[1..];
      var seen' := if k in seen then seen else seen + {k};
      var rest := DedupFrom(tail, seen');
      var r := DedupFrom(secs, seen);
      DedupFromFirst(tail, seen');
      assert r == if k in seen then rest else [secs[0]] + rest;
      forall i | 0 <= i < |r|
        ensures IsFirstOccurrence(secs, r[i])
      {
        if k !in seen && i == 0 {
          assert secs[0] == r[0] && FirstWithKey(secs, 0);
        } else {
          var i' := if k in seen then i else i - 1;
          assert r[i] == rest[i'];
          assert IsFirstOccurrence(tail, rest[i']);
          var j :| 0 <= j < |tail| && tail[j] == rest[i'] && FirstWithKey(tail, j);
          assert Key(rest[i']) !in seen';
          assert tail[j] == secs[j + 1];
          FirstWithKeyShift(secs, j);
        }
      }
    }
  }

  /** Every key is kept once, by the first section that has it. */
  lemma DedupFirstOccurrences(secs: seq<string>)
    ensures forall j :: 0 <= j < |secs| ==> KeyKept(Dedup(secs), Key(secs[j]))
    ensures forall i :: 0 <= i < |Dedup(secs)| ==> IsFirstOccurrence(secs, Dedup(secs)[i])
  {
    DedupFromCovers(secs, {});
    DedupFromFirst(secs, {});
  }

  /** Sections whose keys are new and pairwise distinct are all kept. */
  lemma {:induction false} DedupFromDistinct(secs: seq<string>, seen: set<string>)
    requires forall i :: 0 <= i < |secs| ==> Key(secs[i]) !in seen
    requires forall i, j :: 0 <= i < j < |secs| ==> Key(secs[i]) != Key(secs[j])
    ensures DedupFrom(secs, seen) == secs
    decreases |secs|
  {
    if secs != [] {
      var k := Key(secs[0]);
      forall i | 0 <= i < |secs| - 1
        ensures Key(secs[1..][i]) !in seen + {k}
      {
        assert secs[1..][i] == secs[i + 1];
      }
      DedupFromDistinct(secs[1..], seen + {k});
      HeadTail(secs);
    }
  }

  /** Removing duplicates twice is removing them once. */
  lemma DedupIdempotent(secs: seq<string>)
    ensures Dedup(Dedup(secs)) == Dedup(secs)
  {
    DedupFromDistinct(Dedup(secs), {});
  }

  // ---------------------------------------------------------------------
  // The whole function.

  /** The sections kept, before they are joined. */
  function UniqueSections(text: string, split: string -> seq<string>): seq<string>
  {
    Dedup(Sections(split(CollapseWhitespace(text))))
  }

  /** `clean_and_format_text(text)`: the kept sections joined by blank lines,
      the five artifact patterns deleted in turn, the result stripped. */
  function CleanAndFormatText(text: string, split: string -> seq<string>): (r: string)
    ensures IsStripped(r)
    ensures IsSubseq(r, Join(UniqueSections(text, split), "\n\n"))
  {
    var formatted := Join(UniqueSections(text, split), "\n\n");
    var a := Delete(ExhibitHeader, formatted);
    var b := Delete(ExecutionVersion, a);
    var c := Delete(PageNumber, b);
    var d := Delete(RemainderNotice, c);
    var e := Delete(PoundSign, d);
    var r := Strip(e);
    StripSubseq(e);
    SubseqTrans(r, e, d);
    SubseqTrans(r, d, c);
    SubseqTrans(r, c, b);
    SubseqTrans(r, b, a);
    SubseqTrans(r, a, formatted);
    r
  }
}

=== FILE: seqs.dfy ===
/** Generic facts about sequences used throughout the model: subsequences,
    duplicate-freedom and selection by membership in another sequence. */
module Seqs {

  /** `a` is obtained from `b` by deleting elements, keeping order. */
  predicate IsSubseq<T(==)>(a: seq<T>, b: seq<T>)
    decreases |b|
  {
    if a == [] then true
    else if b == [] then false
    else (a[0] == b[0] && IsSubseq(a[1..], b[1..])) || IsSubseq(a, b[1..])
  }

  lemma {:induction false} SubseqRefl<T>(s: seq<T>)
    ensures IsSubseq(s, s)
    decreases |s|
  {
    if s != [] {
      SubseqRefl(s[1..]);
    }
  }

  /** A subsequence is no longer than its source and draws its elements from it. */
  lemma {:induction false} SubseqBounds<T>(a: seq<T>, b: seq<T>)
    requires IsSubseq(a, b)
    ensures |a| <= |b|
    ensures forall x :: x in a ==> x in b
    decreases |b|
  {
    if a != [] {
      assert b == [b[0]] + b[1..];
      if a[0] == b[0] && IsSubseq(a[1..], b[1..]) {
        SubseqBounds(a[1..], b[1..]);
        assert a == [a[0]] + a[1..];
      } else {
        SubseqBounds(a, b[1..]);
      }
    }
  }

  lemma {:induction false} SubseqTrans<T>(a: seq<T>, b: seq<T>, c: seq<T>)
    requires IsSubseq(a, b) && IsSubseq(b, c)
    ensures IsSubseq(a, c)
    decreases |c|
  {
    if a != [] {
      if b[0] == c[0] && IsSubseq(b[1..], c[1..]) {
        if a[0] == b[0] && IsSubseq(a[1..], b[1..]) {
          SubseqTrans(a[1..], b[1..], c[1..]);
        } else {
          SubseqTrans(a, b[1..], c[1..]);
        }
      } else {
        SubseqTrans(a, b, c[1..]);
      }
    }
  }

  lemma {:induction false} SubseqConcat<T>(a1: seq<T>, a2: seq<T>, b1: seq<T>, b2: seq<T>)
    requires IsSubseq(a1, b1) && IsSubseq(a2, b2)
    ensures IsSubseq(a1 + a2, b1 + b2)
    decreases |b1|
  {
    if b1 == [] {
      assert a1 == [];
      assert a1 + a2 == a2 && b1 + b2 == b2;
    } else if a1 != [] && a1[0] == b1[0] && IsSubseq(a1[1..], b1[1..]) {
      SubseqConcat(a1[1..], a2, b1[1..], b2);
      assert (a1 + a2)[1..] == a1[1..] + a2;
      assert (b1 + b2)[1..] == b1[1..] + b2;
    } else {
      assert IsSubseq(a1, b1[1..]);
      SubseqConcat(a1, a2, b1[1..], b2);
      assert (b1 + b2)[1..] == b1[1..] + b2;
    }
  }

  /** Every contiguous slice is a subsequence. */
  lemma SubseqSlice<T>(s: seq<T>, i: nat, j: nat)
    requires i <= j <= |s|
    ensures IsSubseq(s[i..j], s)
  {
    var t := s[i..];
    SubseqPrefix(t, j - i);
    assert t[..j - i] == s[i..j];
    SubseqSuffix(s, i);
    SubseqTrans(s[i..j], t, s);
  }

  /** A prefix is a subsequence. */
  lemma {:induction false} SubseqPrefix<T>(s: seq<T>, k: nat)
    requires k <= |s|
    ensures IsSubseq(s[..k], s)
    decreases k
  {
    if k > 0 {
      SubseqPrefix(s[1..], k - 1);
      assert s[..k][1..] == s[1..][..k - 1];
    }
  }

  /** A suffix is a subsequence. */
  lemma {:induction false} SubseqSuffix<T>(s: seq<T>, k: nat)
    requires k <= |s|
    ensures IsSubseq(s[k..], s)
    decreases k
  {
    if k == 0 {
      assert s[0..] == s;
      SubseqRefl(s);
    } else {
      SubseqSuffix(s[1..], k - 1);
      assert s[1..][k - 1..] == s[k..];
    }
  }

  /** A subsequence with one element dropped from the front of the source. */
  lemma SubseqCons<T>(a: seq<T>, x: T, b: seq<T>)
    requires IsSubseq(a, b)
    ensures IsSubseq(a, [x] + b) && IsSubseq([x] + a, [x] + b)
  {
    assert ([x] + b)[1..] == b;
    assert ([x] + a)[1..] == a;
  }

  /** No element occurs twice. */
  predicate NoDup<T(==)>(s: seq<T>)
  {
    forall i, j :: 0 <= i < j < |s| ==> s[i] != s[j]
  }

  /** Appending a duplicate-free sequence with no element of `a` to
      duplicate-free `a` creates no duplicate. */
  lemma NoDupAppend<T>(a: seq<T>, b: seq<T>)
    requires NoDup(a) && NoDup(b)
    requires forall x :: x in b ==> x !in a
    ensures NoDup(a + b)
  {
    var r := a + b;
    forall i, j | 0 <= i < j < |r|
      ensures r[i] != r[j]
    {
      if j < |a| {
        assert r[i] == a[i] && r[j] == a[j];
      } else if i >= |a| {
        assert r[i] == b[i - |a|] && r[j] == b[j - |a|];
      } else {
        assert r[i] in a && r[j] in b;
      }
    }
  }

  lemma AppendAssoc<T>(x: seq<T>, y: seq<T>, z: seq<T>)
    ensures x + (y + z) == (x + y) + z
  {
  }

  lemma HeadTail<T>(s: seq<T>)
    requires s != []
    ensures s == [s[0]] + s[1..]
  {
  }

  lemma SplitAt<T>(s: seq<T>, k: nat)
    requires k <= |s|
    ensures s == s[..k] + s[k..]
  {
  }

  lemma NoDupMultiset<T>(s: seq<T>)
    ensures NoDup(s) <==> forall x :: multiset(s)[x] <= 1
  {
    if NoDup(s) {
      forall x
        ensures multiset(s)[x] <= 1
      {
        NoDupCount(s, x);
      }
    } else {
      var i, j :| 0 <= i < j < |s| && s[i] == s[j];
      assert s == s[..j] + [s[j]] + s[j+1..];
      assert s[..j] == s[..i] + [s[i]] + s[i+1..j];
      assert multiset(s)[s[i]] >= 2;
    }
  }

  lemma {:induction false} NoDupCount<T>(s: seq<T>, x: T)
    requires NoDup(s)
    ensures multiset(s)[x] <= 1
    decreases |s|
  {
    if s != [] {
      assert s == [s[0]] + s[1..];
      assert NoDup(s[1..]);
      NoDupCount(s[1..], x);
      if x == s[0] {
        assert x !in s[1..];
        assert multiset(s[1..])[x] == 0;
      }
    }
  }

  /** A sequence drawn from a duplicate-free one (as a multiset) has no
      duplicates either. */
  lemma NoDupSub<T>(a: seq<T>, b: seq<T>)
    requires multiset(b) <= multiset(a) && NoDup(a)
    ensures NoDup(b)
  {
    NoDupMultiset(a);
    NoDupMultiset(b);
  }

  /** The set of elements of a sequence. */
  function Elems<T(!new)>(s: seq<T>): (r: set<T>)
    ensures forall x :: x in r <==> x in s
  {
    set x | x in s
  }

  lemma {:induction false} NoDupCard<T(!new)>(s: seq<T>)
    requires NoDup(s)
    ensures |Elems(s)| == |s|
    decreases |s|
  {
    if s != [] {
      assert Elems(s) == {s[0]} + Elems(s[1..]);
      assert s[0] !in Elems(s[1..]);
      NoDupCard(s[1..]);
    }
  }

  /** The elements `x` of `s` for which `(x in pool) == keep`, in order:
      Python's `[x for x in s if x in pool]` (keep) and
      `[x for x in s if x not in pool]` (not keep). */
  function Select<T(==,!new)>(s: seq<T>, pool: seq<T>, keep: bool): (r: seq<T>)
    ensures IsSubseq(r, s)
    ensures forall x :: x in r <==> x in s && (x in pool) == keep
    ensures forall x :: multiset(r)[x] == if (x in pool) == keep then multiset(s)[x] else 0
    decreases |s|
  {
    if s == [] then []
    else
      var rest := Select(s[1..], pool, keep);
      SubseqCons(rest, s[0], s[1..]);
      assert [s[0]] + s[1..] == s;
      assert multiset(s) == multiset{s[0]} + multiset(s[1..]);
      if (s[0] in pool) == keep then [s[0]] + rest else rest
  }

  /** Selecting and rejecting split the sequence: lengths add up. */
  lemma {:induction false} SelectLengths<T(!new)>(s: seq<T>, pool: seq<T>)
    ensures |Select(s, pool, true)| + |Select(s, pool, false)| == |s|
    decreases |s|
  {
    if s != [] {
      SelectLengths(s[1..], pool);
    }
  }

  /** Selection keeps a sequence whose every element already passes. */
  lemma {:induction false} SelectAll<T(!new)>(s: seq<T>, pool: seq<T>, keep: bool)
    requires forall x :: x in s ==> (x in pool) == keep
    ensures Select(s, pool, keep) == s
    decreases |s|
  {
    if s != [] {
      SelectAll(s[1..], pool, keep);
    }
  }

  lemma {:induction false} SelectNoDup<T(!new)>(s: seq<T>, pool: seq<T>, keep: bool)
    requires NoDup(s)
    ensures NoDup(Select(s, pool, keep))
    decreases |s|
  {
    if s != [] {
      assert NoDup(s[1..]);
      SelectNoDup(s[1..], pool, keep);
      assert s[0] !in s[1..];
    }
  }

  /** When `s` has no duplicates and `pool` is a duplicate-free part of it,
      the elements of `s` outside `pool` number `|s| - |pool|`. */
  lemma SelectOutsideLength<T(!new)>(s: seq<T>, pool: seq<T>)
    requires NoDup(s) && NoDup(pool)
    requires forall x :: x in pool ==> x in s
    ensures |Select(s, pool, false)| == |s| - |pool|
  {
    var inside := Select(s, pool, true);
    SelectLengths(s, pool);
    SelectNoDup(s, pool, true);
    NoDupCard(inside);
    NoDupCard(pool);
    assert Elems(inside) == Elems(pool);
  }
}

=== FILE: spacing_runs.dfy ===
/** A one-pass description of the whitespace normalisation at the end of
    `clean_html_to_text`. The text is read as maximal runs of line-end
    characters, maximal runs of blanks and single other characters, and
    each piece is rewritten on its own. The replacement chain in
    `CleanHtml.NormaliseSpacing` is proved to compute exactly this. */
module SpacingRuns {
  import opened Seqs
  import opened Text
  import opened Layout

  const NoBreakSpace: char := '\U{A0}'

  /** The characters the space collapse sees once no-break spaces are spaces. */
  predicate IsBlank(c: char)
  {
    c == ' ' || c == '\t' || c == NoBreakSpace
  }

  /** Number of line ends in `e`, a "\r\n" pair counting as one. */
  function LineEndCount(e: string): (n: nat)
    ensures n <= |e|
    ensures e != [] ==> n >= 1
    decreases |e|
  {
    if e == [] then 0
    else if |e| >= 2 && e[0] == '\r' && e[1] == '\n' then 1 + LineEndCount(e[2..])
    else 1 + LineEndCount(e[1..])
  }

  /** `k` newline characters. */
  function Newlines(k: nat): string
  {
    seq(k, _ => '\n')
  }

  /** The normalised text, piece by piece: a run of line ends becomes as
      many newlines as it holds line ends, but never more than two; a run
      of two or more blanks becomes one space; a lone no-break space
      becomes a space and a lone space or tab stays; every other
      character stays. */
  function SpacingByRuns(s: string): string
    decreases |s|
  {
    if s == [] then []
    else if IsLineEnd(s[0]) then
      var n := RunLen(s, IsLineEnd);
      var k := LineEndCount(s[..n]);
      Newlines(if k >= 3 then 2 else k) + SpacingByRuns(s[n..])
    else if IsBlank(s[0]) then
      var n := RunLen(s, IsBlank);
      (if n >= 2 || s[0] == NoBreakSpace then " " else [s[0]]) + SpacingByRuns(s[n..])
    else
      [s[0]] + SpacingByRuns(s[1..])
  }

  /** The replacement chain computes the piece-by-piece description. */
  lemma {:induction false} ReplacementsByRuns(s: string)
    ensures Collapse(Collapse(TranslateNewlines(ReplaceChar(s, NoBreakSpace, ' ')),
                              IsNewline, 3, "\n\n"), IsSpaceOrTab, 2, " ")
            == SpacingByRuns(s)
    decreases |s|
  {
    if s == [] {
      assert TranslateNewlines([]) == [];
    } else if IsLineEnd(s[0]) {
      var n := RunLen(s, IsLineEnd);
      var k := LineEndCount(s[..n]);
      assert SpacingByRuns(s) == Newlines(if k >= 3 then 2 else k) + SpacingByRuns(s[n..]);
      LineEndRunStep(s, n);
      ReplacementsByRuns(s[n..]);
    } else if IsBlank(s[0]) {
      var n := RunLen(s, IsBlank);
      assert SpacingByRuns(s) == (if n >= 2 || s[0] == NoBreakSpace then " " else [s[0]]) + SpacingByRuns(s[n..]);
      BlankRunStep(s, n);
      ReplacementsByRuns(s[n..]);
    } else {
      assert SpacingByRuns(s) == [s[0]] + SpacingByRuns(s[1..]);
      OtherCharStep(s);
      ReplacementsByRuns(s[1..]);
    }
  }

  /** A text with no carriage return or no-break space, no run of three
      newlines and no two spaces or tabs side by side passes every
      replacement unchanged. */
  lemma ReplacementsFixed(s: string)
    ensures ('\r' !in s && NoBreakSpace !in s
             && RunsBelow(s, IsNewline, 3) && RunsBelow(s, IsSpaceOrTab, 2)) ==>
            Collapse(Collapse(TranslateNewlines(ReplaceChar(s, NoBreakSpace, ' ')),
                              IsNewline, 3, "\n\n"), IsSpaceOrTab, 2, " ")
            == s
  {
    if '\r' !in s && NoBreakSpace !in s && RunsBelow(s, IsNewline, 3) && RunsBelow(s, IsSpaceOrTab, 2) {
      ReplaceCharAbsent(s, NoBreakSpace, ' ');
      CollapseShortRunsFixed(s, IsNewline, 3, "\n\n");
      CollapseShortRunsFixed(s, IsSpaceOrTab, 2, " ");
    }
  }

  /** A character that is neither a line end nor a blank passes every
      replacement unchanged. */
  lemma OtherCharStep(s: string)
    requires s != [] && !IsLineEnd(s[0]) && !IsBlank(s[0])
    ensures Collapse(Collapse(TranslateNewlines(ReplaceChar(s, NoBreakSpace, ' ')),
                              IsNewline, 3, "\n\n"), IsSpaceOrTab, 2, " ")
            == [s[0]] + Collapse(Collapse(TranslateNewlines(ReplaceChar(s[1..], NoBreakSpace, ' ')),
                                          IsNewline, 3, "\n\n"), IsSpaceOrTab, 2, " ")
  {
    var c := s[0];
    var r := ReplaceChar(s[1..], NoBreakSpace, ' ');
    assert ReplaceChar(s, NoBreakSpace, ' ') == [c] + r;
    var t := TranslateNewlines(r);
    assert TranslateNewlines([c] + r) == [c] + t by {
      TranslateAppend([c], r);
    }
    var v := Collapse(t, IsNewline, 3, "\n\n");
    CollapseCons(c, t, IsNewline, 3, "\n\n");
    CollapseCons(c, v, IsSpaceOrTab, 2, " ");
  }

  /** A run of blanks of length `n` becomes one space when `n >= 2`, and
      the blank itself (a no-break space read as a space) when `n == 1`. */
  lemma BlankRunStep(s: string, n: nat)
    requires s != [] && IsBlank(s[0]) && n == RunLen(s, IsBlank)
    ensures Collapse(Collapse(TranslateNewlines(ReplaceChar(s, NoBreakSpace, ' ')),
                              IsNewline, 3, "\n\n"), IsSpaceOrTab, 2, " ")
            == (if n >= 2 || s[0] == NoBreakSpace then " " else [s[0]])
               + Collapse(Collapse(TranslateNewlines(ReplaceChar(s[n..], NoBreakSpace, ' ')),
                                   IsNewline, 3, "\n\n"), IsSpaceOrTab, 2, " ")
  {
    var p := ReplaceChar(s[..n], NoBreakSpace, ' ');
    var v := Collapse(TranslateNewlines(ReplaceChar(s[n..], NoBreakSpace, ' ')), IsNewline, 3, "\n\n");
    assert Collapse(TranslateNewlines(ReplaceChar(s, NoBreakSpace, ' ')), IsNewline, 3, "\n\n") == p + v by {
      BlankRunNewlines(s, n);
    }
    assert Collapse(p + v, IsSpaceOrTab, 2, " ")
           == (if n >= 2 || s[0] == NoBreakSpace then " " else [s[0]]) + Collapse(v, IsSpaceOrTab, 2, " ") by {
      BlankRunSpaces(s, n);
    }
  }

  /** The first three replacements keep the blank run, with no-break
      spaces read as spaces, in front of the rest. */
  lemma BlankRunNewlines(s: string, n: nat)
    requires s != [] && IsBlank(s[0]) && n == RunLen(s, IsBlank)
    ensures Collapse(TranslateNewlines(ReplaceChar(s, NoBreakSpace, ' ')), IsNewline, 3, "\n\n")
            == ReplaceChar(s[..n], NoBreakSpace, ' ')
               + Collapse(TranslateNewlines(ReplaceChar(s[n..], NoBreakSpace, ' ')), IsNewline, 3, "\n\n")
  {
    var p := ReplaceChar(s[..n], NoBreakSpace, ' ');
    var ry := ReplaceChar(s[n..], NoBreakSpace, ' ');
    BlankPieces(s, n);
    TranslatePrefix(p, ry);
    CollapseFreePrefix(p, TranslateNewlines(ry), IsNewline, 3, "\n\n");
  }

  /** The space collapse turns the blank run into one space, or keeps a
      lone blank, and the rest collapses on its own. */
  lemma BlankRunSpaces(s: string, n: nat)
    requires s != [] && IsBlank(s[0]) && n == RunLen(s, IsBlank)
    ensures var p := ReplaceChar(s[..n], NoBreakSpace, ' ');
            var v := Collapse(TranslateNewlines(ReplaceChar(s[n..], NoBreakSpace, ' ')), IsNewline, 3, "\n\n");
            Collapse(p + v, IsSpaceOrTab, 2, " ")
            == (if n >= 2 || s[0] == NoBreakSpace then " " else [s[0]]) + Collapse(v, IsSpaceOrTab, 2, " ")
  {
    var p := ReplaceChar(s[..n], NoBreakSpace, ' ');
    BlankPieces(s, n);
    StagesFront(s[n..]);
    CollapseRunPrefix(p, Collapse(TranslateNewlines(ReplaceChar(s[n..], NoBreakSpace, ' ')), IsNewline, 3, "\n\n"),
                      IsSpaceOrTab, 2, " ");
  }

  /** The blank run, with no-break spaces read as spaces, in front of the rest. */
  lemma BlankPieces(s: string, n: nat)
    requires s != [] && IsBlank(s[0]) && n == RunLen(s, IsBlank)
    ensures var p := ReplaceChar(s[..n], NoBreakSpace, ' ');
            && ReplaceChar(s, NoBreakSpace, ' ') == p + ReplaceChar(s[n..], NoBreakSpace, ' ')
            && |p| == n && p != []
            && (forall i :: 0 <= i < |p| ==> IsSpaceOrTab(p[i]))
            && '\r' !in p
            && (n == 1 ==> p == [if s[0] == NoBreakSpace then ' ' else s[0]])
  {
    var p := ReplaceChar(s[..n], NoBreakSpace, ' ');
    SplitAt(s, n);
    ReplaceCharAppend(s[..n], s[n..], NoBreakSpace, ' ');
    assert forall i :: 0 <= i < |p| ==> IsSpaceOrTab(p[i]);
  }

  /** What the rest of a text starts with after the first three replacements,
      when it does not start with a blank: never a space or a tab. */
  lemma StagesFront(y: string)
    requires y == [] || !IsBlank(y[0])
    ensures var v := Collapse(TranslateNewlines(ReplaceChar(y, NoBreakSpace, ' ')), IsNewline, 3, "\n\n");
            v == [] || !IsSpaceOrTab(v[0])
  {
    var ry := ReplaceChar(y, NoBreakSpace, ' ');
    var ty := TranslateNewlines(ry);
    if y == [] {
      assert ty == [];
    } else {
      assert ry[0] == y[0];
      TranslateFirst(ry);
      if ty[0] == '\n' {
        CollapseFirstInClass(ty, IsNewline, 3, "\n\n");
      } else {
        CollapseFront(ty, IsNewline, 3, "\n\n");
      }
    }
  }

  /** One more newline in front. */
  lemma NewlinesCons(t: string, k: nat, n: nat)
    requires t == "\n" + Newlines(k) && n == k + 1
    ensures t == Newlines(n)
  {
  }

  /** Translating a run made only of line ends gives one newline per line end. */
  lemma {:induction false} LineEndsTranslate(e: string)
    requires forall i :: 0 <= i < |e| ==> IsLineEnd(e[i])
    ensures TranslateNewlines(e) == Newlines(LineEndCount(e))
    decreases |e|
  {
    if e == [] {
      assert TranslateNewlines(e) == [];
    } else {
      var w := if |e| >= 2 && e[0] == '\r' && e[1] == '\n' then 2 else 1;
      LineEndsTranslate(e[w..]);
      LineEndsStep(e, w);
    }
  }

  /** One step of `LineEndsTranslate`: the first line end gives the first
      newline. */
  lemma LineEndsStep(e: string, w: nat)
    requires e != [] && forall i :: 0 <= i < |e| ==> IsLineEnd(e[i])
    requires w == if |e| >= 2 && e[0] == '\r' && e[1] == '\n' then 2 else 1
    requires TranslateNewlines(e[w..]) == Newlines(LineEndCount(e[w..]))
    ensures TranslateNewlines(e) == Newlines(LineEndCount(e))
  {
    var m := LineEndCount(e[w..]);
    assert TranslateNewlines(e) == "\n" + Newlines(m) by {
      LineEndHead(e, w);
    }
    assert LineEndCount(e) == m + 1;
    NewlinesCons(TranslateNewlines(e), m, LineEndCount(e));
  }

  /** The first line end of a run, one character or a "\r\n" pair, becomes
      one newline. */
  lemma LineEndHead(e: string, w: nat)
    requires e != [] && IsLineEnd(e[0])
    requires w == if |e| >= 2 && e[0] == '\r' && e[1] == '\n' then 2 else 1
    ensures TranslateNewlines(e) == "\n" + TranslateNewlines(e[w..])
  {
    var head := e[..w];
    assert TranslateNewlines(head) == "\n" by {
      if w == 2 {
        assert head == "\r\n" && head[1..] == "\n" && head[2..] == [];
        assert ReplaceCrLf(head) == "\n";
      } else {
        assert head == [e[0]];
        TranslateFirst(head);
      }
    }
    SplitAt(e, w);
    TranslateAppend(head, e[w..]);
  }

  /** A run of line ends holding `k` line ends becomes `k` newlines, or two
      when `k >= 3`. */
  lemma LineEndRunStep(s: string, n: nat)
    requires s != [] && IsLineEnd(s[0]) && n == RunLen(s, IsLineEnd)
    ensures var k := LineEndCount(s[..n]);
            Collapse(Collapse(TranslateNewlines(ReplaceChar(s, NoBreakSpace, ' ')),
                              IsNewline, 3, "\n\n"), IsSpaceOrTab, 2, " ")
            == Newlines(if k >= 3 then 2 else k)
               + Collapse(Collapse(TranslateNewlines(ReplaceChar(s[n..], NoBreakSpace, ' ')),
                                   IsNewline, 3, "\n\n"), IsSpaceOrTab, 2, " ")
  {
    var k := LineEndCount(s[..n]);
    var c := if k >= 3 then 2 else k;
    var ty := TranslateNewlines(ReplaceChar(s[n..], NoBreakSpace, ' '));
    var v := Collapse(ty, IsNewline, 3, "\n\n");
    assert TranslateNewlines(ReplaceChar(s, NoBreakSpace, ' ')) == Newlines(k) + ty by {
      LineEndPieces(s, n);
    }
    assert Collapse(Newlines(k) + ty, IsNewline, 3, "\n\n") == Newlines(c) + v by {
      LineEndPieces(s, n);
      NewlinesCollapse(k, ty);
    }
    assert Collapse(Newlines(c) + v, IsSpaceOrTab, 2, " ") == Newlines(c) + Collapse(v, IsSpaceOrTab, 2, " ") by {
      NewlinesKeepSpaces(c, v);
    }
  }

  /** A run of `k` newlines not followed by another becomes two when `k >= 3`. */
  lemma NewlinesCollapse(k: nat, t: string)
    requires k >= 1 && (t == [] || t[0] != '\n')
    ensures Collapse(Newlines(k) + t, IsNewline, 3, "\n\n")
            == Newlines(if k >= 3 then 2 else k) + Collapse(t, IsNewline, 3, "\n\n")
  {
    CollapseRunPrefix(Newlines(k), t, IsNewline, 3, "\n\n");
    assert "\n\n" == Newlines(2);
  }

  /** Newlines in front pass the space collapse unchanged. */
  lemma NewlinesKeepSpaces(k: nat, t: string)
    ensures Collapse(Newlines(k) + t, IsSpaceOrTab, 2, " ")
            == Newlines(k) + Collapse(t, IsSpaceOrTab, 2, " ")
  {
    CollapseFreePrefix(Newlines(k), t, IsSpaceOrTab, 2, " ");
  }

  /** The line-end run translates to one newline per line end, in front of
      the translated rest, which does not open with a newline. */
  lemma LineEndPieces(s: string, n: nat)
    requires s != [] && IsLineEnd(s[0]) && n == RunLen(s, IsLineEnd)
    ensures var ty := TranslateNewlines(ReplaceChar(s[n..], NoBreakSpace, ' '));
            && LineEndCount(s[..n]) >= 1
            && TranslateNewlines(ReplaceChar(s, NoBreakSpace, ' ')) == Newlines(LineEndCount(s[..n])) + ty
            && (ty == [] || ty[0] != '\n')
  {
    var e, y := s[..n], s[n..];
    var ry := ReplaceChar(y, NoBreakSpace, ' ');
    assert ReplaceChar(s, NoBreakSpace, ' ') == e + ry by {
      SplitAt(s, n);
      ReplaceCharAppend(e, y, NoBreakSpace, ' ');
      ReplaceCharAbsent(e, NoBreakSpace, ' ');
    }
    assert ry == [] || !IsLineEnd(ry[0]) by {
      if y != [] {
        assert !IsLineEnd(y[0]);
      }
    }
    assert TranslateNewlines(e + ry) == Newlines(LineEndCount(e)) + TranslateNewlines(ry) by {
      TranslateAppend(e, ry);
      LineEndsTranslate(e);
    }
    if ry != [] {
      TranslateFirst(ry);
    }
  }

  /** A run of `k` newlines between two letters, read piece by piece. */
  lemma NewlineRunBetween(k: nat, s: string)
    requires k >= 1 && s == "a" + Newlines(k) + "b"
    ensures SpacingByRuns(s) == "a" + Newlines(if k >= 3 then 2 else k) + "b"
  {
    var t := Newlines(k) + "b";
    assert SpacingByRuns(s) == "a" + SpacingByRuns(t) by {
      assert s[0] == 'a' && s[1..] == t;
    }
    assert SpacingByRuns(t) == Newlines(if k >= 3 then 2 else k) + "b" by {
      NewlineRunThenLetter(k, t);
    }
    AppendAssoc("a", Newlines(if k >= 3 then 2 else k), "b");
  }

  /** A run of `k` newlines, then a letter. */
  lemma NewlineRunThenLetter(k: nat, t: string)
    requires k >= 1 && t == Newlines(k) + "b"
    ensures SpacingByRuns(t) == Newlines(if k >= 3 then 2 else k) + "b"
  {
    assert RunLen(t, IsLineEnd) == k by {
      RunLenIs(t, IsLineEnd, k);
    }
    assert t[..k] == Newlines(k) && t[k..] == "b";
    assert LineEndCount(Newlines(k)) == k by {
      NewlinesCount(k);
    }
    assert SpacingByRuns("b") == "b" by {
      assert "b"[1..] == [];
    }
  }

  /** Each newline is one line end. */
  lemma {:induction false} NewlinesCount(k: nat)
    ensures LineEndCount(Newlines(k)) == k
  {
    if k > 0 {
      assert Newlines(k)[1..] == Newlines(k - 1);
      NewlinesCount(k - 1);
    }
  }
}

=== FILE: text.dfy ===
/** String helpers mirroring the Python `str` methods and the two regular
    expression shapes (`X+` collapse, literal replace) the cleaners use.
    Strings are sequences of Unicode scalar values, as Python `str` is a
    sequence of code points. */
module Text {
  import opened Seqs

  /** Python's `str.isspace()`; the same set is the class `\s` of a regular
      expression over `str`. */
  predicate IsSpace(c: char)
  {
    || ('\t' <= c <= '\r')
    || ('\U{1C}' <= c <= '\U{1F}')
    || c == ' ' || c == '\U{85}' || c == '\U{A0}' || c == '\U{1680}'
    || ('\U{2000}' <= c <= '\U{200A}')
    || c == '\U{2028}' || c == '\U{2029}' || c == '\U{202F}' || c == '\U{205F}' || c == '\U{3000}'
  }

  /** The regular-expression class `[ \t]`. */
  predicate IsSpaceOrTab(c: char)
  {
    c == ' ' || c == '\t'
  }

  predicate IsNewline(c: char)
  {
    c == '\n'
  }

  predicate AllSpace(s: string)
  {
    forall i :: 0 <= i < |s| ==> IsSpace(s[i])
  }

  /** No leading and no trailing whitespace: a fixed point of `str.strip()`. */
  predicate IsStripped(s: string)
  {
    s == [] || (!IsSpace(s[0]) && !IsSpace(s[|s| - 1]))
  }

  /** `str.rstrip()`: the longest prefix that does not end in whitespace. */
  function RStrip(s: string): (r: string)
    ensures |r| <= |s| && r == s[..|r|]
    ensures r == [] || !IsSpace(r[|r| - 1])
    ensures forall i :: |r| <= i < |s| ==> IsSpace(s[i])
    decreases |s|
  {
    if s != [] && IsSpace(s[|s| - 1]) then RStrip(s[..|s| - 1]) else s
  }

  /** `str.strip()`: what lies between the leading whitespace run and the
      trailing one. */
  function Strip(s: string): (r: string)
    ensures |r| <= |s|
    ensures IsStripped(r)
    ensures r == [] <==> AllSpace(s)
    ensures var a := RunLen(s, IsSpace);
            && a + |r| <= |s| && r == s[a..a + |r|]
            && AllSpace(s[a + |r|..])
  {
    var a := RunLen(s, IsSpace);
    var r := RStrip(s[a..]);
    StripParts(s, a, s[a..], r);
    r
  }

  /** The leading run, the kept middle and the trailing run of `strip()`. */
  lemma StripParts(s: string, a: nat, l: string, r: string)
    requires a <= |s| && l == s[a..]
    requires forall i :: 0 <= i < a ==> IsSpace(s[i])
    requires a < |s| ==> !IsSpace(s[a])
    requires |r| <= |l| && r == l[..|r|]
    requires r == [] || !IsSpace(r[|r| - 1])
    requires forall i :: |r| <= i < |l| ==> IsSpace(l[i])
    ensures a + |r| <= |s| && r == s[a..a + |r|]
    ensures AllSpace(s[a + |r|..])
    ensures IsStripped(r)
    ensures r == [] <==> AllSpace(s)
  {
    forall i | a + |r| <= i < |s|
      ensures IsSpace(s[i])
    {
      assert s[i] == l[i - a];
    }
    if r != [] {
      assert r[0] == s[a];
    }
  }

  /** What `strip()` keeps is one contiguous slice of its input. */
  lemma StripSlice(s: string) returns (a: nat)
    ensures a + |Strip(s)| <= |s|
    ensures Strip(s) == s[a..a + |Strip(s)|]
  {
    a := RunLen(s, IsSpace);
  }

  lemma StripSubseq(s: string)
    ensures IsSubseq(Strip(s), s)
  {
    var a := StripSlice(s);
    SubseqSlice(s, a, a + |Strip(s)|);
  }

  /** `strip()` is the identity exactly on stripped strings. */
  lemma StripFixed(s: string)
    ensures Strip(s) == s <==> IsStripped(s)
  {
    if IsStripped(s) && s != [] {
      assert RunLen(s, IsSpace) == 0 && s[0..] == s;
      assert RStrip(s) == s;
    }
  }

  /** The characters of `s` outside the class `cls`, in order: what a pass
      that only rewrites class characters leaves alone. */
  function NonClass(s: string, cls: char -> bool): string
    decreases |s|
  {
    if s == [] then [] else (if cls(s[0]) then [] else [s[0]]) + NonClass(s[1..], cls)
  }

  lemma {:induction false} NonClassAppend(a: string, b: string, cls: char -> bool)
    ensures NonClass(a + b, cls) == NonClass(a, cls) + NonClass(b, cls)
    decreases |a|
  {
    if a == [] {
      assert a + b == b;
    } else {
      assert (a + b)[0] == a[0];
      assert (a + b)[1..] == a[1..] + b;
      NonClassAppend(a[1..], b, cls);
    }
  }

  lemma {:induction false} NonClassNone(s: string, cls: char -> bool)
    requires forall i :: 0 <= i < |s| ==> cls(s[i])
    ensures NonClass(s, cls) == []
    decreases |s|
  {
    if s != [] {
      assert forall i :: 0 <= i < |s| - 1 ==> s[1..][i] == s[i + 1];
      NonClassNone(s[1..], cls);
    }
  }

  /** Dropping a prefix of class characters keeps the rest. */
  lemma {:induction false} NonClassSkip(s: string, n: nat, cls: char -> bool)
    requires n <= |s|
    requires forall i :: 0 <= i < n ==> cls(s[i])
    ensures NonClass(s, cls) == NonClass(s[n..], cls)
    decreases n
  {
    if n > 0 {
      assert forall i :: 0 <= i < n - 1 ==> s[1..][i] == s[i + 1];
      NonClassSkip(s[1..], n - 1, cls);
      assert s[1..][n - 1..] == s[n..];
    }
  }

  /** `strip()` removes whitespace only. */
  lemma StripKeepsOthers(s: string)
    ensures NonClass(Strip(s), IsSpace) == NonClass(s, IsSpace)
  {
    var a := RunLen(s, IsSpace);
    SliceKeepsOthers(s, Strip(s), a);
  }

  /** A slice with nothing but whitespace around it keeps the rest. */
  lemma SliceKeepsOthers(s: string, r: string, a: nat)
    requires a + |r| <= |s| && r == s[a..a + |r|]
    requires forall i :: 0 <= i < a ==> IsSpace(s[i])
    requires AllSpace(s[a + |r|..])
    ensures NonClass(r, IsSpace) == NonClass(s, IsSpace)
  {
    var tail := s[a + |r|..];
    assert NonClass(s, IsSpace) == NonClass(s[a..], IsSpace) by {
      NonClassSkip(s, a, IsSpace);
    }
    assert NonClass(s[a..], IsSpace) == NonClass(r, IsSpace) by {
      assert s[a..] == r + tail;
      NonClassAppend(r, tail, IsSpace);
      NonClassNone(tail, IsSpace);
    }
  }

  /** `rstrip()` removes whitespace only. */
  lemma RStripKeepsOthers(s: string)
    ensures NonClass(RStrip(s), IsSpace) == NonClass(s, IsSpace)
  {
    var r := RStrip(s);
    var tail := s[|r|..];
    assert s == r + tail;
    NonClassAppend(r, tail, IsSpace);
    NonClassNone(tail, IsSpace);
  }

  /** `s.startswith(p)`. */
  predicate StartsWith(s: string, p: string)
  {
    |p| <= |s| && s[..|p|] == p
  }

  lemma StartsWithCons(c: char, s: string, p: string)
    requires StartsWith(s, p)
    ensures StartsWith([c] + s, [c] + p)
  {
    assert ([c] + s)[..|p| + 1] == [c] + s[..|p|];
  }

  /** `"".join(parts)`. */
  function Concat(parts: seq<string>): string
    decreases |parts|
  {
    if parts == [] then [] else parts[0] + Concat(parts[1..])
  }

  /** `sep.join(parts)`. */
  function Join(parts: seq<string>, sep: string): string
    decreases |parts|
  {
    if |parts| == 0 then []
    else if |parts| == 1 then parts[0]
    else parts[0] + sep + Join(parts[1..], sep)
  }

  lemma JoinCons(x: string, ys: seq<string>, sep: string)
    ensures Join([x] + ys, sep) == if ys == [] then x else x + sep + Join(ys, sep)
  {
    assert ([x] + ys)[1..] == ys;
  }

  /** `s.split(d)` for a one-character separator: the pieces between
      separators, one more piece than there are separators. */
  function SplitOn(s: string, d: char): (r: seq<string>)
    ensures |r| >= 1
    ensures forall i :: 0 <= i < |r| ==> d !in r[i]
    ensures Join(r, [d]) == s
    decreases |s|
  {
    if s == [] then [[]]
    else
      var rest := SplitOn(s[1..], d);
      if s[0] == d then
        JoinCons([], rest, [d]);
        [[]] + rest
      else
        JoinCons([s[0]] + rest[0], rest[1..], [d]);
        JoinCons(rest[0], rest[1..], [d]);
        assert rest == [rest[0]] + rest[1..];
        [[s[0]] + rest[0]] + rest[1..]
  }

  lemma {:induction false} SplitOnPiece(x: string, d: char)
    requires d !in x
    ensures SplitOn(x, d) == [x]
    decreases |x|
  {
    if x != [] {
      SplitOnPiece(x[1..], d);
      assert [x[0]] + x[1..] == x;
    }
  }

  lemma {:induction false} SplitOnPieceThen(x: string, d: char, rest: string)
    requires d !in x
    ensures SplitOn(x + [d] + rest, d) == [x] + SplitOn(rest, d)
    decreases |x|
  {
    if x == [] {
      assert x + [d] + rest == [d] + rest;
      assert ([d] + rest)[1..] == rest;
    } else {
      var s := x + [d] + rest;
      assert s[0] == x[0] != d;
      assert s[1..] == x[1..] + [d] + rest;
      SplitOnPieceThen(x[1..], d, rest);
      var r := SplitOn(s[1..], d);
      assert r[0] == x[1..] && r[1..] == SplitOn(rest, d);
      assert [x[0]] + x[1..] == x;
    }
  }

  /** Splitting undoes joining when no piece contains the separator
      (the other direction is `SplitOn`'s own postcondition). */
  lemma {:induction false} SplitJoin(parts: seq<string>, d: char)
    requires |parts| >= 1
    requires forall i :: 0 <= i < |parts| ==> d !in parts[i]
    ensures SplitOn(Join(parts, [d]), d) == parts
    decreases |parts|
  {
    if |parts| == 1 {
      SplitOnPiece(parts[0], d);
    } else {
      SplitJoin(parts[1..], d);
      SplitOnPieceThen(parts[0], d, Join(parts[1..], [d]));
      assert parts == [parts[0]] + parts[1..];
    }
  }

  /** Joining pieces that keep the same characters outside a class keeps
      the same characters outside that class. */
  lemma {:induction false} JoinKeepsOthers(a: seq<string>, b: seq<string>, sep: string, cls: char -> bool)
    requires |a| == |b|
    requires forall i :: 0 <= i < |a| ==> NonClass(a[i], cls) == NonClass(b[i], cls)
    ensures NonClass(Join(a, sep), cls) == NonClass(Join(b, sep), cls)
    decreases |a|
  {
    if |a| > 1 {
      JoinKeepsOthers(a[1..], b[1..], sep, cls);
      NonClassAppend(a[0] + sep, Join(a[1..], sep), cls);
      NonClassAppend(a[0], sep, cls);
      NonClassAppend(b[0] + sep, Join(b[1..], sep), cls);
      NonClassAppend(b[0], sep, cls);
    }
  }

  /** `s.replace(from, to)` for single characters. */
  function ReplaceChar(s: string, from: char, to: char): (r: string)
    ensures |r| == |s|
    ensures forall i :: 0 <= i < |s| ==> r[i] == if s[i] == from then to else s[i]
    decreases |s|
  {
    if s == [] then []
    else [if s[0] == from then to else s[0]] + ReplaceChar(s[1..], from, to)
  }

  /** `s.replace("\r\n", "\n")`: non-overlapping occurrences, left to right. */
  function ReplaceCrLf(s: string): (r: string)
    ensures |r| <= |s|
    ensures forall c :: c in r ==> c in s
    ensures '\r' !in s ==> r == s
    decreases |s|
  {
    if s == [] then []
    else if |s| >= 2 && s[0] == '\r' && s[1] == '\n' then
      assert s[1..][0] == '\n';
      "\n" + ReplaceCrLf(s[2..])
    else [s[0]] + ReplaceCrLf(s[1..])
  }

  /** A single-character replace works piece by piece. */
  lemma ReplaceCharAppend(a: string, b: string, from: char, to: char)
    ensures ReplaceChar(a + b, from, to) == ReplaceChar(a, from, to) + ReplaceChar(b, from, to)
  {
  }

  /** Replacing a character the text does not hold changes nothing. */
  lemma ReplaceCharAbsent(s: string, from: char, to: char)
    requires from !in s
    ensures ReplaceChar(s, from, to) == s
  {
    assert forall i :: 0 <= i < |s| ==> s[i] != from;
  }

  /** A cut that does not split a "\r\n" pair: the pairs are replaced
      piece by piece. */
  lemma {:induction false} ReplaceCrLfAppend(a: string, z: string)
    requires a == [] || z == [] || a[|a| - 1] != '\r' || z[0] != '\n'
    ensures ReplaceCrLf(a + z) == ReplaceCrLf(a) + ReplaceCrLf(z)
    decreases |a|
  {
    var s := a + z;
    if a == [] {
      assert s == z;
    } else if |a| >= 2 && a[0] == '\r' && a[1] == '\n' {
      assert s[0] == '\r' && s[1] == '\n' && s[2..] == a[2..] + z;
      assert a[2..] != [] ==> a[2..][|a[2..]| - 1] == a[|a| - 1];
      ReplaceCrLfAppend(a[2..], z);
      AppendAssoc("\n", ReplaceCrLf(a[2..]), ReplaceCrLf(z));
    } else {
      assert s[0] == a[0] && s[1..] == a[1..] + z;
      assert !(|s| >= 2 && s[0] == '\r' && s[1] == '\n') by {
        if |a| >= 2 { assert s[1] == a[1]; } else if z != [] { assert s[1] == z[0]; }
      }
      assert a[1..] != [] ==> a[1..][|a[1..]| - 1] == a[|a| - 1];
      ReplaceCrLfAppend(a[1..], z);
      AppendAssoc([a[0]], ReplaceCrLf(a[1..]), ReplaceCrLf(z));
    }
  }

  /** Line-end translation works piece by piece across a cut that does not
      split a "\r\n" pair. */
  lemma TranslateAppend(a: string, z: string)
    requires a == [] || z == [] || a[|a| - 1] != '\r' || z[0] != '\n'
    ensures TranslateNewlines(a + z) == TranslateNewlines(a) + TranslateNewlines(z)
  {
    ReplaceCrLfAppend(a, z);
    ReplaceCharAppend(ReplaceCrLf(a), ReplaceCrLf(z), '\r', '\n');
  }

  /** A prefix free of carriage returns passes the translation unchanged. */
  lemma TranslatePrefix(p: string, z: string)
    requires '\r' !in p
    ensures TranslateNewlines(p + z) == p + TranslateNewlines(z)
  {
    assert p != [] ==> p[|p| - 1] in p;
    TranslateAppend(p, z);
  }

  /** A translated text opens with '\n' where the text opens with a line
      end, and with the text's own first character otherwise. */
  lemma TranslateFirst(s: string)
    requires s != []
    ensures TranslateNewlines(s) != []
    ensures TranslateNewlines(s)[0] == if s[0] == '\r' then '\n' else s[0]
  {
    var t := ReplaceCrLf(s);
    if |s| >= 2 && s[0] == '\r' && s[1] == '\n' {
      assert t[0] == '\n';
    } else {
      assert t[0] == s[0];
    }
  }

  /** Replacing one class character by another keeps the rest. */
  lemma {:induction false} ReplaceCharKeepsOthers(s: string, from: char, to: char, cls: char -> bool)
    requires cls(from) && cls(to)
    ensures NonClass(ReplaceChar(s, from, to), cls) == NonClass(s, cls)
    decreases |s|
  {
    if s != [] {
      var r := ReplaceChar(s, from, to);
      assert r[1..] == ReplaceChar(s[1..], from, to);
      ReplaceCharKeepsOthers(s[1..], from, to, cls);
    }
  }

  lemma {:induction false} ReplaceCrLfKeepsOthers(s: string)
    ensures NonClass(ReplaceCrLf(s), IsSpace) == NonClass(s, IsSpace)
    decreases |s|
  {
    if s != [] {
      var r := ReplaceCrLf(s);
      if |s| >= 2 && s[0] == '\r' && s[1] == '\n' {
        ReplaceCrLfKeepsOthers(s[2..]);
        assert s[1..][0] == '\n' && s[1..][1..] == s[2..];
        assert r[0] == '\n' && r[1..] == ReplaceCrLf(s[2..]);
      } else {
        ReplaceCrLfKeepsOthers(s[1..]);
        assert r[0] == s[0] && r[1..] == ReplaceCrLf(s[1..]);
      }
    }
  }

  /** The lines of `s` as universal-newline reading splits them: a line
      ends at "\r\n", at a lone '\r' or at '\n', and the piece after the
      last line end is the last line (empty when `s` ends with one). */
  function SplitLineEnds(s: string): (r: seq<string>)
    ensures |r| >= 1
    ensures forall i :: 0 <= i < |r| ==> '\n' !in r[i] && '\r' !in r[i]
    decreases |s|
  {
    if s == [] then [[]]
    else if s[0] == '\r' && |s| >= 2 && s[1] == '\n' then [[]] + SplitLineEnds(s[2..])
    else if s[0] == '\r' || s[0] == '\n' then [[]] + SplitLineEnds(s[1..])
    else
      var rest := SplitLineEnds(s[1..]);
      [[s[0]] + rest[0]] + rest[1..]
  }

  /** Translating line ends to '\n' and splitting at '\n' finds the lines
      `SplitLineEnds` finds. */
  lemma {:induction false} TranslateSplit(s: string)
    ensures SplitOn(ReplaceChar(ReplaceCrLf(s), '\r', '\n'), '\n') == SplitLineEnds(s)
    decreases |s|
  {
    if s != [] {
      var t := ReplaceCrLf(s);
      var r := ReplaceChar(t, '\r', '\n');
      if |s| >= 2 && s[0] == '\r' && s[1] == '\n' {
        TranslateSplit(s[2..]);
        assert s[1..][0] == '\n' && s[1..][1..] == s[2..];
        assert t[0] == '\n' && t[1..] == ReplaceCrLf(s[2..]);
      } else {
        TranslateSplit(s[1..]);
        assert t[0] == s[0] && t[1..] == ReplaceCrLf(s[1..]);
      }
      assert r[0] == (if t[0] == '\r' then '\n' else t[0]);
      assert r[1..] == ReplaceChar(t[1..], '\r', '\n');
    }
  }

  /** `s.replace("\r\n", "\n").replace("\r", "\n")`, which is also what
      reading a file in text mode does to its line endings. */
  function TranslateNewlines(s: string): (r: string)
    ensures |r| <= |s|
    ensures '\r' !in r
    ensures forall c :: c in r ==> c in s || c == '\n'
    ensures '\r' !in s ==> r == s
    ensures NonClass(r, IsSpace) == NonClass(s, IsSpace)
    ensures SplitOn(r, '\n') == SplitLineEnds(s)
  {
    var t := ReplaceCrLf(s);
    var r := ReplaceChar(t, '\r', '\n');
    TranslateSplit(s);
    ReplaceCrLfKeepsOthers(s);
    ReplaceCharKeepsOthers(t, '\r', '\n', IsSpace);
    assert '\r' !in s ==> r == t by {
      if '\r' !in s {
        assert forall i :: 0 <= i < |t| ==> t[i] in s;
      }
    }
    r
  }

  /** Length of the longest prefix of `s` whose characters are all in `cls`. */
  function RunLen(s: string, cls: char -> bool): (n: nat)
    ensures n <= |s|
    ensures forall i :: 0 <= i < n ==> cls(s[i])
    ensures n < |s| ==> !cls(s[n])
    decreases |s|
  {
    if s == [] || !cls(s[0]) then 0 else 1 + RunLen(s[1..], cls)
  }

  /** The run length is pinned down by where the run stops. */
  lemma RunLenIs(s: string, cls: char -> bool, n: nat)
    requires n <= |s|
    requires forall i :: 0 <= i < n ==> cls(s[i])
    requires n < |s| ==> !cls(s[n])
    ensures RunLen(s, cls) == n
  {
    var m := RunLen(s, cls);
    assert m < |s| ==> !cls(s[m]);
    assert n < |s| ==> !cls(s[n]);
  }

  /** A character in neither the text nor the replacement is not in the
      result of the collapse. */
  lemma CollapseAvoids(s: string, cls: char -> bool, minLen: nat, repl: string, c: char)
    requires c !in s && c !in repl
    ensures c !in Collapse(s, cls, minLen, repl)
  {
  }

  /** `re.sub(C{minLen,}, repl, s)` for a character class `C` (with
      `minLen == 1` this is `C+`): every maximal run of class characters
      at least `minLen` long is replaced by `repl`; shorter runs stay. */
  function Collapse(s: string, cls: char -> bool, minLen: nat, repl: string): (r: string)
    ensures forall c :: c in r ==> c in s || c in repl
    ensures (forall i :: 0 <= i < |s| ==> !cls(s[i])) ==> r == s
    ensures s != [] && (forall i :: 0 <= i < |s| ==> cls(s[i])) ==>
              r == if |s| >= minLen then repl else s
    ensures s != [] && !cls(s[0]) ==> r != [] && r[0] == s[0]
    decreases |s|
  {
    if s == [] then []
    else if cls(s[0]) then
      var n := RunLen(s, cls);
      var rest := Collapse(s[n..], cls, minLen, repl);
      assert forall c :: c in s[..n] ==> c in s;
      (if n >= minLen then repl else s[..n]) + rest
    else
      [s[0]] + Collapse(s[1..], cls, minLen, repl)
  }

  /** A text cut where no run of the class is split collapses piece by
      piece: each maximal run is replaced on its own. */
  lemma {:induction false} CollapseAppend(a: string, b: string, cls: char -> bool,
                                          minLen: nat, repl: string)
    requires a == [] || b == [] || !cls(a[|a| - 1]) || !cls(b[0])
    ensures Collapse(a + b, cls, minLen, repl)
            == Collapse(a, cls, minLen, repl) + Collapse(b, cls, minLen, repl)
    decreases |a|, 1
  {
    if a == [] {
      assert a + b == b;
    } else if b == [] {
      assert a + b == a;
    } else if cls(a[0]) {
      CollapseAppendRun(a, b, cls, minLen, repl);
    } else {
      var s := a + b;
      assert s[0] == a[0] && s[1..] == a[1..] + b;
      assert a[1..] != [] ==> a[1..][|a[1..]| - 1] == a[|a| - 1];
      CollapseAppend(a[1..], b, cls, minLen, repl);
      AppendAssoc([a[0]], Collapse(a[1..], cls, minLen, repl), Collapse(b, cls, minLen, repl));
    }
  }

  /** The case of `CollapseAppend` where `a` opens with a run. */
  lemma CollapseAppendRun(a: string, b: string, cls: char -> bool, minLen: nat, repl: string)
    requires a != [] && b != [] && cls(a[0])
    requires !cls(a[|a| - 1]) || !cls(b[0])
    ensures Collapse(a + b, cls, minLen, repl)
            == Collapse(a, cls, minLen, repl) + Collapse(b, cls, minLen, repl)
    decreases |a|, 0
  {
    var s := a + b;
    var m := RunLen(a, cls);
    RunLenAppend(a, b, cls, m);
    if m == |a| {
      assert s[..m] == a && s[m..] == b && a[m..] == [];
      CollapseRunStep(s, cls, minLen, repl, m);
      CollapseRunStep(a, cls, minLen, repl, m);
    } else {
      assert s[..m] == a[..m] && s[m..] == a[m..] + b;
      assert a[m..][|a[m..]| - 1] == a[|a| - 1];
      CollapseAppend(a[m..], b, cls, minLen, repl);
      CollapseRunStep(s, cls, minLen, repl, m);
      CollapseRunStep(a, cls, minLen, repl, m);
      AppendAssoc(if m >= minLen then repl else a[..m],
                  Collapse(a[m..], cls, minLen, repl), Collapse(b, cls, minLen, repl));
    }
  }

  /** A run of `a` that stops inside `a`, or before a `b` that does not
      continue it, is the run of `a + b`. */
  lemma RunLenAppend(a: string, b: string, cls: char -> bool, m: nat)
    requires m == RunLen(a, cls)
    requires m == |a| ==> b == [] || !cls(b[0])
    ensures RunLen(a + b, cls) == m
  {
    var s := a + b;
    assert forall i :: 0 <= i < m ==> s[i] == a[i];
    if m < |a| { assert s[m] == a[m]; } else if b != [] { assert s[m] == b[0]; }
    RunLenIs(s, cls, m);
  }

  /** A character outside the class is kept and the rest collapses on its own. */
  lemma CollapseCons(c: char, w: string, cls: char -> bool, minLen: nat, repl: string)
    requires !cls(c)
    ensures Collapse([c] + w, cls, minLen, repl) == [c] + Collapse(w, cls, minLen, repl)
  {
    assert ([c] + w)[1..] == w;
  }

  /** A prefix with no class character passes the collapse unchanged. */
  lemma CollapseFreePrefix(p: string, t: string, cls: char -> bool, minLen: nat, repl: string)
    requires forall i :: 0 <= i < |p| ==> !cls(p[i])
    ensures Collapse(p + t, cls, minLen, repl) == p + Collapse(t, cls, minLen, repl)
  {
    CollapseAppend(p, t, cls, minLen, repl);
  }

  /** A prefix that is one whole run collapses on its own. */
  lemma CollapseRunPrefix(p: string, t: string, cls: char -> bool, minLen: nat, repl: string)
    requires p != [] && forall i :: 0 <= i < |p| ==> cls(p[i])
    requires t == [] || !cls(t[0])
    ensures Collapse(p + t, cls, minLen, repl)
            == (if |p| >= minLen then repl else p) + Collapse(t, cls, minLen, repl)
  {
    CollapseAppend(p, t, cls, minLen, repl);
  }

  /** A text that opens with a class character still does after the collapse,
      when the replacement opens with one too. */
  lemma CollapseFirstInClass(s: string, cls: char -> bool, minLen: nat, repl: string)
    requires s != [] && cls(s[0]) && repl != [] && cls(repl[0])
    ensures Collapse(s, cls, minLen, repl) != []
    ensures cls(Collapse(s, cls, minLen, repl)[0])
  {
    CollapseRunStep(s, cls, minLen, repl, RunLen(s, cls));
  }

  /** One step of `Collapse` over a text that opens with a run of length `m`. */
  lemma CollapseRunStep(s: string, cls: char -> bool, minLen: nat, repl: string, m: nat)
    requires s != [] && cls(s[0]) && m == RunLen(s, cls)
    ensures Collapse(s, cls, minLen, repl)
            == (if m >= minLen then repl else s[..m]) + Collapse(s[m..], cls, minLen, repl)
  {
  }

  /** A collapse rewrites only characters of a class inside `keep`, into
      characters of `keep`: the characters outside `keep` survive, in order. */
  lemma {:induction false} CollapseKeepsOthers(s: string, cls: char -> bool, keep: char -> bool,
                                               minLen: nat, repl: string)
    requires forall c :: cls(c) ==> keep(c)
    requires forall i :: 0 <= i < |repl| ==> keep(repl[i])
    ensures NonClass(Collapse(s, cls, minLen, repl), keep) == NonClass(s, keep)
    decreases |s|
  {
    if s != [] {
      var r := Collapse(s, cls, minLen, repl);
      if cls(s[0]) {
        var n := RunLen(s, cls);
        CollapseKeepsOthers(s[n..], cls, keep, minLen, repl);
        CollapseKeepsOthersRun(s, cls, keep, minLen, repl, n);
      } else {
        CollapseKeepsOthers(s[1..], cls, keep, minLen, repl);
        assert r[0] == s[0] && r[1..] == Collapse(s[1..], cls, minLen, repl);
      }
    }
  }

  /** The run step of `CollapseKeepsOthers`: the run and its replacement
      hold no character outside `keep`. */
  lemma CollapseKeepsOthersRun(s: string, cls: char -> bool, keep: char -> bool,
                               minLen: nat, repl: string, n: nat)
    requires forall c :: cls(c) ==> keep(c)
    requires forall i :: 0 <= i < |repl| ==> keep(repl[i])
    requires s != [] && cls(s[0]) && n == RunLen(s, cls)
    requires NonClass(Collapse(s[n..], cls, minLen, repl), keep) == NonClass(s[n..], keep)
    ensures NonClass(Collapse(s, cls, minLen, repl), keep) == NonClass(s, keep)
  {
    var rest := Collapse(s[n..], cls, minLen, repl);
    var head := if n >= minLen then repl else s[..n];
    NonClassSkip(s, n, keep);
    NonClassSkip(head + rest, |head|, keep);
    assert (head + rest)[|head|..] == rest;
  }

  /** A replacement no longer than the shortest run it replaces never
      lengthens the text. */
  lemma {:induction false} CollapseShorter(s: string, cls: char -> bool, minLen: nat, repl: string)
    requires |repl| <= minLen
    ensures |Collapse(s, cls, minLen, repl)| <= |s|
    decreases |s|
  {
    if s != [] {
      if cls(s[0]) {
        CollapseShorter(s[RunLen(s, cls)..], cls, minLen, repl);
      } else {
        CollapseShorter(s[1..], cls, minLen, repl);
      }
    }
  }

  /** No two neighbouring characters both belong to `cls`. */
  predicate NoAdjacent(s: string, cls: char -> bool)
  {
    forall i :: 0 <= i < |s| - 1 ==> !cls(s[i]) || !cls(s[i + 1])
  }

  /** `strip()` keeps neighbouring characters of a class apart. */
  lemma StripNoAdjacent(s: string, cls: char -> bool)
    requires NoAdjacent(s, cls)
    ensures NoAdjacent(Strip(s), cls)
  {
    var a := StripSlice(s);
    NoAdjacentWithin(s, Strip(s), a, cls);
  }

  lemma NoAdjacentWithin(s: string, r: string, a: nat, cls: char -> bool)
    requires a + |r| <= |s| && r == s[a..a + |r|]
    requires NoAdjacent(s, cls)
    ensures NoAdjacent(r, cls)
  {
    forall k | 0 <= k < |r| - 1
      ensures !cls(r[k]) || !cls(r[k + 1])
    {
      assert r[k] == s[a + k] && r[k + 1] == s[a + k + 1];
    }
  }

  lemma NoAdjacentSlice(s: string, cls: char -> bool, i: nat, j: nat)
    requires i <= j <= |s|
    requires NoAdjacent(s, cls)
    ensures NoAdjacent(s[i..j], cls)
  {
    var t := s[i..j];
    forall k | 0 <= k < |t| - 1
      ensures !cls(t[k]) || !cls(t[k + 1])
    {
      assert t[k] == s[i + k] && t[k + 1] == s[i + k + 1];
    }
  }

  lemma NoAdjacentConcat(a: string, b: string, cls: char -> bool)
    requires NoAdjacent(a, cls) && NoAdjacent(b, cls)
    requires a == [] || b == [] || !cls(a[|a| - 1]) || !cls(b[0])
    ensures NoAdjacent(a + b, cls)
  {
    var t := a + b;
    forall k | 0 <= k < |t| - 1
      ensures !cls(t[k]) || !cls(t[k + 1])
    {
      if k + 1 < |a| {
        assert t[k] == a[k] && t[k + 1] == a[k + 1];
      } else if k >= |a| {
        assert t[k] == b[k - |a|] && t[k + 1] == b[k + 1 - |a|];
      }
    }
  }

  /** A collapse that leaves nothing but non-class characters at its front. */
  lemma CollapseFront(t: string, cls: char -> bool, minLen: nat, repl: string)
    requires t != [] && !cls(t[0])
    ensures Collapse(t, cls, minLen, repl) != []
    ensures Collapse(t, cls, minLen, repl)[0] == t[0]
  {
  }

  /** Collapsing to one class character, with runs of two or more always
      replaced, leaves no two class characters side by side. */
  lemma {:induction false} CollapseNoAdjacent(s: string, cls: char -> bool, minLen: nat, repl: string)
    requires |repl| == 1 && cls(repl[0]) && minLen <= 2
    ensures NoAdjacent(Collapse(s, cls, minLen, repl), cls)
    decreases |s|
  {
    if s != [] {
      var r := Collapse(s, cls, minLen, repl);
      if cls(s[0]) {
        var n := RunLen(s, cls);
        var tail := s[n..];
        var rest := Collapse(tail, cls, minLen, repl);
        var head := if n >= minLen then repl else s[..n];
        assert |head| == 1;
        CollapseNoAdjacent(tail, cls, minLen, repl);
        if tail != [] {
          CollapseFront(tail, cls, minLen, repl);
        }
        NoAdjacentConcat(head, rest, cls);
      } else {
        var rest := Collapse(s[1..], cls, minLen, repl);
        CollapseNoAdjacent(s[1..], cls, minLen, repl);
        NoAdjacentConcat([s[0]], rest, cls);
      }
    }
  }

  /** With no two class characters side by side and only runs of two or
      more replaced, there is nothing to replace. */
  lemma {:induction false} CollapseNoAdjacentFixed(s: string, cls: char -> bool, minLen: nat, repl: string)
    requires minLen >= 2 && NoAdjacent(s, cls)
    ensures Collapse(s, cls, minLen, repl) == s
    decreases |s|
  {
    if s != [] {
      NoAdjacentSlice(s, cls, 1, |s|);
      assert s[1..|s|] == s[1..];
      CollapseNoAdjacentFixed(s[1..], cls, minLen, repl);
      if cls(s[0]) {
        assert RunLen(s, cls) == 1 by {
          assert |s| > 1 ==> !cls(s[1]);
        }
        assert s[..1] + s[1..] == s;
      } else {
        HeadTail(s);
      }
    }
  }

  /** When every run is replaced (`minLen <= 1`), the only class characters
      left are those of the replacement. */
  lemma {:induction false} CollapseClassChars(s: string, cls: char -> bool, minLen: nat, repl: string)
    requires minLen <= 1
    ensures forall c :: c in Collapse(s, cls, minLen, repl) && cls(c) ==> c in repl
    decreases |s|
  {
    if s != [] {
      if cls(s[0]) {
        CollapseClassChars(s[RunLen(s, cls)..], cls, minLen, repl);
      } else {
        CollapseClassChars(s[1..], cls, minLen, repl);
      }
    }
  }

  /** Every run of class characters in `s` is shorter than `k`. */
  predicate RunsBelow(s: string, cls: char -> bool, k: nat)
  {
    forall i :: 0 <= i < |s| ==> RunLen(s[i..], cls) < k
  }

  /** Two pieces with short runs make a text with short runs when the
      second does not continue a run the first ends with. */
  lemma RunsBelowAppend(head: string, rest: string, cls: char -> bool, k: nat)
    requires RunsBelow(head, cls, k) && RunsBelow(rest, cls, k)
    requires head == [] || rest == [] || !cls(head[|head| - 1]) || !cls(rest[0])
    ensures RunsBelow(head + rest, cls, k)
  {
    forall i | 0 <= i < |head + rest|
      ensures RunLen((head + rest)[i..], cls) < k
    {
      if i < |head| {
        RunsBelowAppendAt(head, rest, cls, k, i);
      } else {
        assert (head + rest)[i..] == rest[i - |head|..];
      }
    }
  }

  /** A position inside `head`: its run stops inside `head` or at the cut. */
  lemma RunsBelowAppendAt(head: string, rest: string, cls: char -> bool, k: nat, i: nat)
    requires i < |head| && RunLen(head[i..], cls) < k
    requires rest == [] || !cls(head[|head| - 1]) || !cls(rest[0])
    ensures RunLen((head + rest)[i..], cls) < k
  {
    var x := head[i..];
    assert (head + rest)[i..] == x + rest;
    assert x[|x| - 1] == head[|head| - 1];
    RunLenAppend(x, rest, cls, RunLen(x, cls));
  }

  lemma RunsBelowSuffix(s: string, cls: char -> bool, k: nat, n: nat)
    requires n <= |s| && RunsBelow(s, cls, k)
    ensures RunsBelow(s[n..], cls, k)
  {
    forall i | 0 <= i < |s[n..]| ensures RunLen(s[n..][i..], cls) < k {
      assert s[n..][i..] == s[n + i..];
    }
  }

  /** A collapse whose replacement is shorter than `minLen` leaves every
      run of the class shorter than `minLen`. */
  lemma {:induction false} CollapseRunsBelow(s: string, cls: char -> bool, minLen: nat, repl: string)
    requires |repl| < minLen
    ensures RunsBelow(Collapse(s, cls, minLen, repl), cls, minLen)
    decreases |s|
  {
    if s != [] {
      if cls(s[0]) {
        var n := RunLen(s, cls);
        var head := if n >= minLen then repl else s[..n];
        var rest := Collapse(s[n..], cls, minLen, repl);
        CollapseRunStep(s, cls, minLen, repl, n);
        CollapseRunsBelow(s[n..], cls, minLen, repl);
        assert rest == [] || !cls(rest[0]);
        assert RunsBelow(head, cls, minLen) by {
          forall i | 0 <= i < |head| ensures RunLen(head[i..], cls) < minLen { }
        }
        RunsBelowAppend(head, rest, cls, minLen);
      } else {
        var rest := Collapse(s[1..], cls, minLen, repl);
        CollapseRunsBelow(s[1..], cls, minLen, repl);
        assert Collapse(s, cls, minLen, repl) == [s[0]] + rest;
        assert RunsBelow([s[0]], cls, minLen) by {
          assert [s[0]][0..] == [s[0]];
        }
        RunsBelowAppend([s[0]], rest, cls, minLen);
      }
    }
  }

  /** A text whose runs are all shorter than `minLen` has nothing to
      collapse. */
  lemma {:induction false} CollapseShortRunsFixed(s: string, cls: char -> bool, minLen: nat, repl: string)
    requires RunsBelow(s, cls, minLen)
    ensures Collapse(s, cls, minLen, repl) == s
    decreases |s|
  {
    if s != [] {
      var m := if cls(s[0]) then RunLen(s, cls) else 1;
      assert s[0..] == s;
      RunsBelowSuffix(s, cls, minLen, m);
      CollapseShortRunsFixed(s[m..], cls, minLen, repl);
      if cls(s[0]) {
        CollapseRunStep(s, cls, minLen, repl, m);
        SplitAt(s, m);
      } else {
        HeadTail(s);
      }
    }
  }

  /** Collapsing twice is collapsing once, when the replacement is itself
      too short to be collapsed again. */
  lemma CollapseIdempotent(s: string, cls: char -> bool, minLen: nat, repl: string)
    requires |repl| < minLen
    ensures Collapse(Collapse(s, cls, minLen, repl), cls, minLen, repl) == Collapse(s, cls, minLen, repl)
  {
    CollapseRunsBelow(s, cls, minLen, repl);
    CollapseShortRunsFixed(Collapse(s, cls, minLen, repl), cls, minLen, repl);
  }

  /** With no three class characters in a row, every run is shorter than
      three. */
  lemma NoTripleRunsBelow(s: string, cls: char -> bool)
    requires forall i :: 0 <= i < |s| - 2 ==> !cls(s[i]) || !cls(s[i + 1]) || !cls(s[i + 2])
    ensures RunsBelow(s, cls, 3)
  {
    forall i | 0 <= i < |s|
      ensures RunLen(s[i..], cls) < 3
    {
      var t := s[i..];
      if i + 2 < |s| {
        assert !cls(t[0]) || !cls(t[1]) || !cls(t[2]);
      }
    }
  }

  /** A collapse of a class disjoint from `d`, into a non-empty replacement
      without `d` characters, leaves the run of `d` a text opens with. */
  lemma {:induction false} CollapseLeadingRun(s: string, cls: char -> bool, minLen: nat, repl: string,
                                              d: char -> bool)
    requires forall c :: cls(c) ==> !d(c)
    requires repl != [] && forall i :: 0 <= i < |repl| ==> !d(repl[i])
    ensures RunLen(Collapse(s, cls, minLen, repl), d) == RunLen(s, d)
    decreases |s|
  {
    if s != [] {
      var r := Collapse(s, cls, minLen, repl);
      if cls(s[0]) {
        var n := RunLen(s, cls);
        CollapseRunStep(s, cls, minLen, repl, n);
        assert r[0] == (if n >= minLen then repl else s[..n])[0];
      } else {
        CollapseLeadingRun(s[1..], cls, minLen, repl, d);
        assert r[0] == s[0] && r[1..] == Collapse(s[1..], cls, minLen, repl);
      }
    }
  }

  /** Such a collapse neither joins nor lengthens runs of `d`. */
  lemma {:induction false} CollapseKeepsRunsBelow(s: string, cls: char -> bool, minLen: nat, repl: string,
                                                  d: char -> bool, k: nat)
    requires forall c :: cls(c) ==> !d(c)
    requires repl != [] && forall i :: 0 <= i < |repl| ==> !d(repl[i])
    requires RunsBelow(s, d, k)
    ensures RunsBelow(Collapse(s, cls, minLen, repl), d, k)
    decreases |s|
  {
    if s != [] {
      assert s[0..] == s;
      if cls(s[0]) {
        var n := RunLen(s, cls);
        var head := if n >= minLen then repl else s[..n];
        var rest := Collapse(s[n..], cls, minLen, repl);
        CollapseRunStep(s, cls, minLen, repl, n);
        RunsBelowSuffix(s, d, k, n);
        CollapseKeepsRunsBelow(s[n..], cls, minLen, repl, d, k);
        assert RunsBelow(head, d, k) by {
          forall i | 0 <= i < |head| ensures RunLen(head[i..], d) < k {
            assert head[i..][0] == head[i];
          }
        }
        RunsBelowAppend(head, rest, d, k);
      } else {
        var rest := Collapse(s[1..], cls, minLen, repl);
        RunsBelowSuffix(s, d, k, 1);
        CollapseKeepsRunsBelow(s[1..], cls, minLen, repl, d, k);
        CollapseLeadingRun(s[1..], cls, minLen, repl, d);
        assert Collapse(s, cls, minLen, repl) == [s[0]] + rest;
        RunsBelowCons(s, rest, d, k);
      }
    }
  }

  /** Putting back the first character of `s` in front of a text with short
      runs that opens with the run `s[1..]` opens with. */
  lemma RunsBelowCons(s: string, rest: string, d: char -> bool, k: nat)
    requires s != [] && RunsBelow(s, d, k) && RunsBelow(rest, d, k)
    requires RunLen(rest, d) == RunLen(s[1..], d)
    ensures RunsBelow([s[0]] + rest, d, k)
  {
    var r := [s[0]] + rest;
    forall i | 0 <= i < |r| ensures RunLen(r[i..], d) < k {
      if i == 0 {
        assert s[0..] == s;
        RunsBelowConsFront(s, rest, d, k);
      } else {
        assert r[i..] == rest[i - 1..];
      }
    }
  }

  /** The first position of `RunsBelowCons`: the run there is the run `s`
      opens with. */
  lemma RunsBelowConsFront(s: string, rest: string, d: char -> bool, k: nat)
    requires s != [] && RunLen(s, d) < k
    requires RunLen(rest, d) == RunLen(s[1..], d)
    ensures RunLen(([s[0]] + rest)[0..], d) < k
  {
    var r := [s[0]] + rest;
    assert r[0..] == r && r[1..] == rest;
  }
}

=== FILE: text_files.dfy ===
/** Line-oriented text files as data/data_cleaning.py and
    scripts/data_cleaning.py read and write them. A file is its decoded
    contents; opening, decoding and writing bytes are not modelled. */
module TextFiles {
  import opened Seqs
  import opened Text

  /** Length of the first line of `s`, its line break included. */
  function LineLength(s: string): (n: nat)
    requires s != []
    ensures 1 <= n <= |s|
    ensures '\n' !in s[..n - 1]
    ensures n < |s| ==> s[n - 1] == '\n'
    decreases |s|
  {
    if s[0] == '\n' || |s| == 1 then 1
    else
      var m := LineLength(s[1..]);
      assert s[..m] == [s[0]] + s[1..][..m - 1];
      1 + m
  }

  /** How the lines of a file look: none is empty, a line break can only
      be a line's last character, and every line but the last ends in one. */
  predicate LinesShaped(lines: seq<string>)
  {
    && (forall i :: 0 <= i < |lines| ==> lines[i] != [] && '\n' !in lines[i][..|lines[i]| - 1])
    && (forall i :: 0 <= i < |lines| - 1 ==> lines[i][|lines[i]| - 1] == '\n')
  }

  /** Iterating over a file: its lines, each keeping its final `'\n'`
      (the last line has none when the file does not end in one). */
  function FileLines(s: string): (lines: seq<string>)
    ensures Concat(lines) == s
    ensures LinesShaped(lines)
    decreases |s|
  {
    if s == [] then []
    else
      var n := LineLength(s);
      var rest := FileLines(s[n..]);
      assert ([s[..n]] + rest)[1..] == rest;
      assert s == s[..n] + s[n..];
      LinesShapedCons(s[..n], rest);
      [s[..n]] + rest
  }

  lemma LinesShapedCons(first: string, rest: seq<string>)
    requires first != [] && '\n' !in first[..|first| - 1]
    requires rest != [] ==> first[|first| - 1] == '\n'
    requires LinesShaped(rest)
    ensures LinesShaped([first] + rest)
  {
    var lines := [first] + rest;
    forall i | 0 < i < |lines|
      ensures lines[i] == rest[i - 1]
    {
    }
  }

  lemma FileLinesCons(x: string, rest: string)
    requires '\n' !in x
    ensures FileLines(x + "\n" + rest) == [x + "\n"] + FileLines(rest)
  {
    var s := x + "\n" + rest;
    var n := LineLength(s);
    assert s[|x|] == '\n';
    assert n == |x| + 1;
    assert s[..n] == x + "\n";
    assert s[n..] == rest;
  }

  /** The lines read from a file opened in text mode, which first turns
      `"\r\n"` and lone `'\r'` into `'\n'`. */
  function ReadLines(content: string): seq<string>
  {
    FileLines(TranslateNewlines(content))
  }

  /** `[ln.strip() for ln in lines if ln.strip() and not ln.startswith("#")]`:
      the URL list, skipping blank lines and lines that begin with `#`. */
  function ParseUrlLines(lines: seq<string>): (urls: seq<string>)
    ensures |urls| <= |lines|
    ensures forall i :: 0 <= i < |urls| ==> urls[i] != [] && IsStripped(urls[i])
    decreases |lines|
  {
    if lines == [] then []
    else
      var e := UrlEntry(lines[0]);
      var rest := ParseUrlLines(lines[1..]);
      EntriesAppend(e, rest);
      e + rest
  }

  /** Concatenating two lists of non-empty stripped entries gives another. */
  lemma EntriesAppend(e: seq<string>, rest: seq<string>)
    requires forall i :: 0 <= i < |e| ==> e[i] != [] && IsStripped(e[i])
    requires forall i :: 0 <= i < |rest| ==> rest[i] != [] && IsStripped(rest[i])
    ensures forall i :: 0 <= i < |e + rest| ==> (e + rest)[i] != [] && IsStripped((e + rest)[i])
  {
    forall i | 0 <= i < |e + rest|
      ensures (e + rest)[i] != [] && IsStripped((e + rest)[i])
    {
      if i < |e| {
        assert (e + rest)[i] == e[i];
      } else {
        assert (e + rest)[i] == rest[i - |e|];
      }
    }
  }

  /** What one line of the URL file contributes. */
  function UrlEntry(line: string): (e: seq<string>)
    ensures |e| <= 1
    ensures e == [] <==> AllSpace(line) || StartsWith(line, "#")
    ensures forall i :: 0 <= i < |e| ==> e[i] != [] && IsStripped(e[i])
    ensures forall i :: 0 <= i < |e| ==> e[i] == Strip(line)
  {
    if Strip(line) != [] && !StartsWith(line, "#") then [Strip(line)] else []
  }

  /** Parsing is line by line: a line's entry depends on that line alone. */
  lemma {:induction false} ParseUrlLinesAppend(a: seq<string>, b: seq<string>)
    ensures ParseUrlLines(a + b) == ParseUrlLines(a) + ParseUrlLines(b)
    decreases |a|
  {
    if a == [] {
      assert a + b == b;
    } else {
      ParseUrlLinesAppend(a[1..], b);
      ParseUrlLinesStep(a, b);
      AppendAssoc(UrlEntry(a[0]), ParseUrlLines(a[1..]), ParseUrlLines(b));
    }
  }

  lemma ParseUrlLinesStep(a: seq<string>, b: seq<string>)
    requires a != []
    ensures ParseUrlLines(a + b) == UrlEntry(a[0]) + ParseUrlLines(a[1..] + b)
  {
    assert (a + b)[1..] == a[1..] + b;
    assert (a + b)[0] == a[0];
  }

  /** `[ln.strip() for ln in lines if ln.strip()]`: the saved eval list. */
  function ParseEvalLines(lines: seq<string>): (list: seq<string>)
    ensures |list| <= |lines|
    ensures forall i :: 0 <= i < |list| ==> list[i] != [] && IsStripped(list[i])
    decreases |lines|
  {
    if lines == [] then []
    else
      var e := EvalEntry(lines[0]);
      var rest := ParseEvalLines(lines[1..]);
      EntriesAppend(e, rest);
      e + rest
  }

  /** What one line of the eval file contributes. */
  function EvalEntry(line: string): (e: seq<string>)
    ensures |e| <= 1
    ensures e == [] <==> AllSpace(line)
    ensures forall i :: 0 <= i < |e| ==> e[i] != [] && IsStripped(e[i])
    ensures forall i :: 0 <= i < |e| ==> e[i] == Strip(line)
  {
    if Strip(line) != [] then [Strip(line)] else []
  }

  lemma ParseEvalLinesCons(l: string, rest: seq<string>)
    ensures ParseEvalLines([l] + rest) == EvalEntry(l) + ParseEvalLines(rest)
  {
    assert ([l] + rest)[1..] == rest;
  }

  /** An entry that can be written as one line and read back unchanged. */
  predicate IsLineEntry(u: string)
  {
    u != [] && IsStripped(u) && '\n' !in u && '\r' !in u
  }

  /** `"\n".join(saved_eval) + "\n"`: the eval list file as written. */
  function EvalFileText(list: seq<string>): (text: string)
    ensures text != [] && text[|text| - 1] == '\n'
    ensures |list| >= 1 && (forall i :: 0 <= i < |list| ==> '\n' !in list[i]) ==>
              SplitOn(text[..|text| - 1], '\n') == list
  {
    var body := Join(list, "\n");
    assert (body + "\n")[..|body|] == body;
    assert |list| >= 1 && (forall i :: 0 <= i < |list| ==> '\n' !in list[i]) ==>
             SplitOn(body, '\n') == list by {
      if |list| >= 1 && (forall i :: 0 <= i < |list| ==> '\n' !in list[i]) {
        SplitJoin(list, '\n');
      }
    }
    body + "\n"
  }

  lemma StripLineBreak(x: string)
    requires IsLineEntry(x)
    ensures Strip(x + "\n") == x
  {
    assert RunLen(x + "\n", IsSpace) == 0 && (x + "\n")[0..] == x + "\n";
    assert (x + "\n")[..|x|] == x;
    assert RStrip(x + "\n") == RStrip(x);
    StripFixed(x);
  }

  lemma {:induction false} EvalLinesRoundTrip(list: seq<string>)
    requires |list| >= 1
    requires forall i :: 0 <= i < |list| ==> IsLineEntry(list[i])
    ensures ParseEvalLines(FileLines(EvalFileText(list))) == list
    decreases |list|
  {
    if |list| == 1 {
      EvalLineRoundTrip(list[0]);
      assert list == [list[0]];
    } else {
      EvalLinesRoundTrip(list[1..]);
      EvalLinesStep(list);
      HeadTail(list);
    }
  }

  lemma EvalLineRoundTrip(x: string)
    requires IsLineEntry(x)
    ensures ParseEvalLines(FileLines(EvalFileText([x]))) == [x]
  {
    StripLineBreak(x);
    assert EvalFileText([x]) == x + "\n" + [];
    FileLinesCons(x, []);
    ParseEvalLinesCons(x + "\n", []);
  }

  lemma EvalLinesStep(list: seq<string>)
    requires |list| >= 2 && IsLineEntry(list[0])
    ensures ParseEvalLines(FileLines(EvalFileText(list)))
         == [list[0]] + ParseEvalLines(FileLines(EvalFileText(list[1..])))
  {
    var x := list[0];
    var tail := EvalFileText(list[1..]);
    StripLineBreak(x);
    assert EvalFileText(list) == x + "\n" + tail;
    FileLinesCons(x, tail);
    ParseEvalLinesCons(x + "\n", FileLines(tail));
  }

  /** Writing the eval list and reading it back gives the same list when
      every entry is a non-empty stripped single line. */
  lemma EvalFileRoundTrip(list: seq<string>)
    requires forall i :: 0 <= i < |list| ==> IsLineEntry(list[i])
    ensures ReadLines(EvalFileText(list)) == FileLines(EvalFileText(list))
    ensures ParseEvalLines(ReadLines(EvalFileText(list))) == list
  {
    EvalFileNoCr(list);
    if list == [] {
      EmptyEvalFileRoundTrip();
    } else {
      EvalLinesRoundTrip(list);
    }
  }

  /** The written file holds no carriage return, so reading it in text
      mode changes nothing. */
  lemma EvalFileNoCr(list: seq<string>)
    requires forall i :: 0 <= i < |list| ==> IsLineEntry(list[i])
    ensures '\r' !in EvalFileText(list)
  {
    if list != [] {
      JoinNoChar(list, '\r');
    }
  }

  /** An empty list is written as one empty line, which reads back as nothing. */
  lemma EmptyEvalFileRoundTrip()
    ensures ParseEvalLines(FileLines(EvalFileText([]))) == []
  {
    assert EvalFileText([]) == [] + "\n" + [];
    FileLinesCons([], []);
    assert AllSpace("\n") by {
      assert IsSpace("\n"[0]);
    }
    ParseEvalLinesCons("\n", []);
  }

  lemma {:induction false} JoinNoChar(list: seq<string>, c: char)
    requires c != '\n'
    requires forall i :: 0 <= i < |list| ==> c !in list[i]
    ensures c !in Join(list, "\n")
    decreases |list|
  {
    if |list| > 1 {
      JoinNoChar(list[1..], c);
    }
  }

  /** Every URL read from a file is a non-empty stripped single line. */
  lemma ReadUrlsAreLineEntries(content: string)
    ensures forall i :: 0 <= i < |ParseUrlLines(ReadLines(content))|
              ==> IsLineEntry(ParseUrlLines(ReadLines(content))[i])
  {
    var lines := ReadLines(content);
    LinesGiveLineEntries(lines, TranslateNewlines(content));
  }

  lemma {:induction false} LinesGiveLineEntries(lines: seq<string>, text: string)
    requires Concat(lines) == text && '\r' !in text
    requires LinesShaped(lines)
    ensures forall i :: 0 <= i < |ParseUrlLines(lines)| ==> IsLineEntry(ParseUrlLines(lines)[i])
    decreases |lines|
  {
    if lines != [] {
      var l := lines[0];
      assert Concat(lines) == l + Concat(lines[1..]);
      assert '\r' !in l && '\r' !in Concat(lines[1..]);
      LinesGiveLineEntries(lines[1..], Concat(lines[1..]));
      LineStripsToEntry(l);
    }
  }

  /** Stripping a line whose only possible line break is its last
      character leaves no line break or carriage return behind. */
  lemma LineStripsToEntry(l: string)
    requires l != [] && '\n' !in l[..|l| - 1] && '\r' !in l
    ensures Strip(l) != [] ==> IsLineEntry(Strip(l))
  {
    var u := Strip(l);
    var a := StripSlice(l);
    if u != [] {
      forall p | 0 <= p < |u|
        ensures u[p] != '\n' && u[p] != '\r'
      {
        assert u[p] == l[a + p];
        if a + p < |l| - 1 {
          assert l[..|l| - 1][a + p] == l[a + p];
        } else {
          assert p == |u| - 1 && !IsSpace(u[p]);
        }
      }
    }
  }
}

=== FILE: wrappers.dfy ===
/** An optional value: a file that may not exist, a fetch that may fail. */
module Wrappers {
  datatype Option<T> = None | Some(value: T)
}
